=== FILE: README.md ===
# Markdown image manager: broken-reference repair, mapping migration and undo

This project models, in Dafny, the logic at the centre of the markdown image
manager: the engine that repairs broken image references in a workspace of
Markdown documents. It covers these parts:

- **Path normaliser** (`normalize_path`, in both copies). It turns every `\`
  into `/`, collapses runs of `/`, and strips one trailing `/` unless
  characters 1..2 of the path are `:/`.
- **Image mapping table** (local path → remote URL).
  - `migrate_image_mapping` rewrites the table with normalised keys. It does
    so only when some key holds both separators, and it keeps the first URL
    per normalised key.
  - `load_image_mapping_with_migration` and `save_image_mapping_normalized`
    rebuild the table with later keys overwriting earlier ones.
  - The stand-alone migration tool (`analyze_mapping_file`,
    `create_migration_plan`, `execute_migration`) does the same work with an
    analysis, a plan and a migration log.
- **Match resolver.**
  - The filename index maps each lower-cased basename to the catalogue paths
    that have it. Lower-casing covers the capitals whose lower case is one
    character in every context: ASCII, Latin-1 and basic Cyrillic.
  - `find_best_path_match` requires a filename similarity of at least 0.95 and
    a combined score above 0.9, and keeps the first maximum.
  - `find_decoded_path_match` tries three stages in order: the same filename,
    then an immediate path match (a length ratio above 0.8), then a ranked
    filename similarity above 0.9.
  - The resolution order of `smart_fix_paths` runs: exact match, smart match,
    then the percent-decoded retries, then the global decoded fallback.
  - The confidence labels follow `calculate_similarity`.
- **Rewrite engine.** It rewrites `![alt](P)` first and `<img … src="P" …>`
  second. The first shape that changes the text replaces all its occurrences.
  The replacement template is chosen by testing the pattern text for `!\[`.
  Since `re.escape` escapes `[` but not `!`, an invalid path containing `![`
  makes the HTML shape use the markdown template too, so such an `<img>` tag
  becomes `![<attributes>](R)`.
- **Fix session** (`fix_thread`). It runs over a file system with a trace of
  copies and writes. It snapshots each listed document, rewrites it, writes it
  back only when it changed, keeps the counters and the journal, writes the
  fix log, and embeds paths in the generated undo script.
- **Undo** (`undo_fixes`). It selects the newest `smart_fix_*` backup
  directory and replays the journal best-effort, counting the restored files.
- **Gitee repairs** (gitee_image_fixer.py). `fix_gitee_url` generates
  candidates. `find_working_url` is a first-success search over the access
  check `test_url`.

Python dictionaries are sequences of (key, value) pairs, so insertion order is
kept (`Dicts`). Foreign library functions become fields of
`Resolver.Oracles` or parameters, with only the axioms the proofs need as
preconditions:

- `difflib.SequenceMatcher.ratio` (the name and the path similarity);
- `urllib.parse.unquote` (percent-decoding, section 2.1 of RFC 3986);
- `os.path.relpath`;
- `os.path.getctime`;
- `test_url`.

The file system is a map from path to content, and each operation on it
records a `Copied` or `Wrote` step in a trace. Where the source branches on
a failure, a failing `copy2` is a boolean parameter. A write of the mapping
file is an `ImageMapping.WriteOutcome` parameter: it succeeds, or `open`
raises and leaves the file untouched, or the write raises part-way and leaves
it damaged.

Some behaviour of the code is easy to mistake, and the model follows the
code as written:

- **Snapshots are eager.** `fix_thread` copies every document listed with
  invalid references into the backup directory before looking at any
  reference (markdown_image_manager.py:1111-1113). A document none of whose
  references resolve still gets a snapshot.
- **Rewrites are per reference.** Each reference is rewritten in the text as
  soon as it is resolved (1140-1167). A later reference therefore sees the
  text the earlier rewrites left.
- **Trailing slashes.** `normalize_path` keeps a trailing slash on any path
  whose characters 1..2 are `:/` (markdown_image_manager.py:69-72). So
  `D:/folder/` keeps its slash as well as the bare drive root `X:/`.
- **Snapshot names collide.** Snapshots are named after the document's
  basename alone. Two same-named documents in different folders therefore
  share one snapshot (see Findings).

## Model

| member | source | states |
|---|---|---|
| PathNormalize.NormalizePath | markdown_image_manager.py:59-60 | an empty path is returned unchanged |
| PathNormalize.NormalizeCharacterization | markdown_image_manager.py:57-74 | a non-empty path becomes: backslashes made slashes, runs of slashes collapsed, then the trailing-slash rule |
| PathNormalize.NormalizeClean | markdown_image_manager.py:57-74 | the result never holds a backslash or two adjacent slashes |
| PathNormalize.NormalizeTrailingSlash | markdown_image_manager.py:69-72 | a result longer than one character ends in `/` only when characters 1..2 are `:/` |
| PathNormalize.NormalizeStripsIff | markdown_image_manager.py:69-72 | one slash is stripped exactly when the collapsed path is longer than one character, ends in `/` and has no `:/` at 1..2 |
| PathNormalize.NormalizeIdempotent | markdown_image_manager.py:57-74 | normalising twice gives the same as normalising once |
| PathNormalize.DrivePathKeepsTrailingSlash | markdown_image_manager.py:69-72 | a clean path such as `D:/folder/` is kept as it is, trailing slash included |
| PathNormalize.RootsKept | markdown_image_manager.py:69-72 | `/` and `X:/` are fixed points |
| PathNormalize.TrailingSlashStripped | markdown_image_manager.py:69-72 | a clean path ending in `/`, longer than one character, with no `:/` at 1..2 loses exactly its last character |
| PathNormalize.CollapseNoop | markdown_image_manager.py:66 | collapsing leaves a path with no `//` unchanged |
| PathNormalize.PairsThenSinglesCollapse | markdown_image_manager.py:63-66 | replacing `\\` pairs before single backslashes gives the same collapsed path as replacing single backslashes alone |
| PathNormalize.CollapseSlashes | migrate_image_mapping.py:22 | the collapsed string is no longer, keeps first and last character, adds no character and has no `//` |
| ImageMapping.KeepFirstSpec | markdown_image_manager.py:110-121 | the rebuilt table maps each normalised key to the url of its first original key; its keys are distinct and normalised; it is no larger than the original |
| ImageMapping.KeepFirstNoBackslash | markdown_image_manager.py:96-121 | after migration no key holds a backslash, so no key has mixed separators and no second migration is triggered |
| ImageMapping.KeepLastSpec | markdown_image_manager.py:151-154 | the load/save rebuild maps each normalised key to the url of its last original key, with distinct keys |
| ImageMapping.RebuildsSameKeys | markdown_image_manager.py:151-154 | keep-first and keep-last rebuilds produce the same keys in the same order |
| ImageMapping.KeepLastOfNormal | markdown_image_manager.py:171-174 | rebuilding a table whose keys are distinct and normalised gives the same table |
| ImageMapping.LoadAfterMigration | markdown_image_manager.py:136-156 | loading a freshly migrated table does not change it |
| ImageMapping.ScanMixedSeparators | markdown_image_manager.py:93-99 | migration is needed exactly when some key holds both `\` and `/`; the problem count is the number of such keys and is positive exactly then |
| ImageMapping.RebuildKeepFirst | markdown_image_manager.py:110-121 | the loop builds the keep-first table and counts the keys that normalisation changed |
| ImageMapping.RebuildKeepLast | markdown_image_manager.py:151-154 | the loop builds the keep-last table |
| ImageMapping.MigrateImageMapping | markdown_image_manager.py:76-134 | a missing or empty file and a file needing no migration succeed untouched; an unreadable file fails untouched; a failed backup leaves the file untouched; after a backup the file holds the keep-first table when the write succeeds, is unchanged when `open` raises, and is damaged when the write raises part-way, and only a successful write reports success; the file never changes without a backup |
| ImageMapping.LoadedMapping | markdown_image_manager.py:143-162 | a stored file loads as the keep-last table; a missing or unreadable one loads empty |
| ImageMapping.ImageManager.constructor | markdown_image_manager.py:136-162 | the manager starts with the given file and an empty table |
| ImageMapping.ImageManager.LoadImageMappingWithMigration | markdown_image_manager.py:136-162 | after the migration attempt, the table is the loaded file; a successful migration leaves file and table as the keep-first table; a write whose `open` raises after the backup leaves the file unchanged and loads its keep-last table; a write that raises part-way leaves a damaged file and an empty table; in every other case (missing, unreadable or clean file, failed backup) the file is unchanged, and a clean file loads as its keep-last table |
| ImageMapping.ImageManager.SaveImageMappingNormalized | markdown_image_manager.py:164-186 | an empty table saves nothing; otherwise the file and the table become the keep-last table; when the write fails the table stays, and the file is unchanged if `open` raised or damaged if the write raised part-way |
| MigrationTool.AnalyzeProblems | migrate_image_mapping.py:57-66 | the problem list is, in mapping order, exactly the keys with both separators |
| MigrationTool.AnalyzeKeepsFirst | migrate_image_mapping.py:68-84 | the analysis records, per normalised key, the first original key and its url |
| MigrationTool.AnalyzeMatchesKeepFirst | migrate_image_mapping.py:68-84 | the analysis's urls are exactly the main program's keep-first migration |
| MigrationTool.AnalyzeDuplicates | migrate_image_mapping.py:68-84 | kept entries plus duplicates number the original entries; each duplicate normalises onto its key and names the kept first entry |
| MigrationTool.AnalyzeMappingFile | migrate_image_mapping.py:32-114 | an unreadable or missing file yields no analysis; a stored one yields its data and its analysis |
| MigrationTool.CreateMigrationPlan | migrate_image_mapping.py:116-162 | no analysis gives no plan; otherwise the plan needs a backup, normalises paths iff there are problems, merges duplicates keep-first iff there are duplicates, in that order, and always ends in a single validation; it has one action per step that applies |
| MigrationTool.MigrationLogCounts | migrate_image_mapping.py:189-221 | each entry adds at most one log line; the duplicate lines number the entries the rebuild dropped |
| MigrationTool.MigrationLogTruthful | migrate_image_mapping.py:193-221 | a conflict line keeps the first url and names a different one; a same-url line repeats the first url; a normalisation line names a key that changed |
| MigrationTool.MigrationLogStep | migrate_image_mapping.py:193-221 | entry i logs, after the lines of the entries before it, a conflict when its key already has a different first url, a same-url duplicate when it has the same one, a normalisation when the key is new and changed, and nothing otherwise |
| MigrationTool.MigrationOfNormalMapping | migrate_image_mapping.py:189-221 | a table with distinct normalised keys migrates to itself with an empty log |
| MigrationTool.ExecuteMigration | migrate_image_mapping.py:164-259 | with no plan or a failed backup nothing is written; otherwise the backup holds the old file; a good write stores the keep-first table and the log with the original and new counts; a failed write returns false with no log; the file is then unchanged if `open` raised, and otherwise restored from the backup, or left damaged when the restore fails |
| Resolver.FilenameKeyIsLowerBasename | markdown_image_manager.py:1090 | the index key is the lower-cased text after the last separator |
| Resolver.FilenameKeyOfName | markdown_image_manager.py:1090 | the key of `dir/name` is the lower-cased name |
| Resolver.LowerAccentedName | markdown_image_manager.py:1090 | `Été.png` lower-cases to `été.png` |
| Resolver.AccentedFilenameKey | markdown_image_manager.py:1090 | `Été.png` in any folder has the key of a bare `été.png` reference |
| Resolver.FilenameIndexSpec | markdown_image_manager.py:1088-1093 | the index has distinct keys; each key's list is the catalogue paths with that key, in catalogue order, present only when non-empty |
| Resolver.FilenameIndexCovers | markdown_image_manager.py:1088-1093 | every catalogue path appears in the list under its own key |
| Resolver.BuildFilenameIndex | markdown_image_manager.py:1088-1093 | the loop builds the index |
| Resolver.LeadSpec | markdown_image_manager.py:1389-1411 | the running best score is non-negative and bounds every admitted score; a leader is the first candidate with the maximal score |
| Resolver.AcceptedSpec | markdown_image_manager.py:1413-1414 | a match is returned iff some admitted score exceeds 0.9, and it is the first maximum |
| Resolver.BestPathMatchSpec | markdown_image_manager.py:1381-1414 | a match exists iff some candidate has filename similarity at least 0.95 and combined score above 0.9; the match is the first maximum of the combined score and qualifies |
| Resolver.AffineAcceptance | markdown_image_manager.py:1406-1414 | with scores 0.8 + 0.2·key, a match exists iff some key exceeds 0.5, and it is the first candidate with the largest key |
| Resolver.SameNameScore | markdown_image_manager.py:1397-1407 | for a same-named candidate the combined score is 0.8 + 0.2 × path similarity |
| Resolver.SameNameAcceptance | markdown_image_manager.py:1169-1171 | among same-named candidates a match exists iff some path similarity exceeds 0.5, and it is the first with the largest path similarity |
| Resolver.FindBestPathMatch | markdown_image_manager.py:1381-1414 | the loop returns the best-match specification |
| Resolver.FirstSuch | markdown_image_manager.py:1425-1431 | the index found satisfies the test and none before it does; none means no element does |
| Resolver.FoldedIsLowerSlashed | markdown_image_manager.py:1421-1427 | the compared form is the lower-cased path with backslashes made slashes |
| Resolver.FoldedBasename | markdown_image_manager.py:1421-1427 | the basename of the compared form is the index key |
| Resolver.PathScanSpec | markdown_image_manager.py:1434-1459 | the scan stops at the first immediate match; otherwise no file matches immediately and the ranking is the first maximum of filename similarity |
| Resolver.DecodedExactStage | markdown_image_manager.py:1425-1431 | the first file whose key equals the decoded key is returned |
| Resolver.DecodedImmediateStage | markdown_image_manager.py:1437-1449 | with no same-named file, the first file that is equal or contains the decoded path with length ratio above 0.8 is returned |
| Resolver.DecodedRankedStage | markdown_image_manager.py:1451-1462 | with neither, the result is the ranking accepted above 0.9 |
| Resolver.DecodedPathMatchSpec | markdown_image_manager.py:1416-1462 | the result is a catalogue file; a same-named file wins first; otherwise the first immediate match wins |
| Resolver.DecodedRankedSpec | markdown_image_manager.py:1451-1462 | in the last stage a match exists iff some file's filename similarity exceeds 0.9, and it is the first maximum |
| Resolver.FindDecodedPathMatch | markdown_image_manager.py:1416-1462 | the loops return the decoded-match specification |
| Resolver.ScanSameFilename | markdown_image_manager.py:1425-1431 | the first loop finds the first same-named file |
| Resolver.ScanPaths | markdown_image_manager.py:1434-1462 | the second loop returns the immediate match or the accepted ranking |
| Resolver.ByFilenameSpec | markdown_image_manager.py:1131-1206 | a one-path bucket gives an exact match to that path; a larger bucket gives a smart match to a same-named catalogue path |
| Resolver.ResolveSpec | markdown_image_manager.py:1127-1329 | a resolution targets a catalogue path; an exact match is the only same-named file; a raw basename in the index is never retried decoded; decoded kinds need an absent raw basename and a decoding that changes the path; the global fallback runs only when the decoded basename is also absent |
| Resolver.ByFilenameForward | markdown_image_manager.py:1131-1206 | no same-named catalogue path gives nothing; one gives an exact match to it; several give a smart match iff one qualifies, and it qualifies and is the first maximum of the combined score |
| Resolver.ResolveOrder | markdown_image_manager.py:1127-1329 | a single same-named path is an exact match; several give a match iff one qualifies; no raw match and an unchanged decoding give nothing; the decoded basename then gets the same treatment; with no decoded match either, the decoded-path search decides |
| Resolver.DecodedPathMatchGate | markdown_image_manager.py:1416-1462 | a decoded-path match has the decoded filename, or matched the path immediately, or has filename similarity above 0.9 |
| Resolver.ResolveAcceptanceGate | markdown_image_manager.py:1169-1206 | a smart or decoded smart match qualifies against the text it was matched from; a decoded-path match matched immediately or has filename similarity above 0.9 (1294-1329) |
| Resolver.DecodedFallbackSkipsNameStage | markdown_image_manager.py:1294-1296 | when the decoded basename is absent from the index, no catalogue file has the same filename |
| Resolver.ResolveInvalidPath | markdown_image_manager.py:1127-1329 | the branching code computes the resolution order |
| Resolver.PickCandidate | markdown_image_manager.py:1131-1206 | picking in a bucket follows the bucket specification |
| Resolver.ConfidenceOf | markdown_image_manager.py:1162 | confidence is high exactly for exact and decoded exact matches; for smart matches it is medium iff the similarity exceeds 0.7 (1199, 1285, calculate_similarity at 1464-1469) |
| Resolver.ConfidenceOfResolution | markdown_image_manager.py:1127-1329 | a resolution has high confidence iff its target is the only catalogue path with the filename of the text it was matched from |
| Rewrite.RewriteReference | markdown_image_manager.py:1140-1167 | the markdown shape is tried first and wins when it changes the text; otherwise the img shape applies, with the template chosen by whether the path contains `![`; the text changes iff one of them does |
| Rewrite.MdMatch | markdown_image_manager.py:1141 | a match starts with `![`, has no `]` in the alt text and ends with `](P)` |
| Rewrite.ImgMatch | markdown_image_manager.py:1142 | a match starts with `<img`, has a `src=` with a quote on each side of P, and ends at the next `>` |
| Rewrite.MdNoMatchUnchanged | markdown_image_manager.py:1146 | with no markdown match the text is unchanged |
| Rewrite.ImgNoMatchUnchanged | markdown_image_manager.py:1148 | with no img match the text is unchanged |
| Rewrite.MdMatchOccurs | markdown_image_manager.py:1141 | a markdown match contains the path |
| Rewrite.ImgMatchOccurs | markdown_image_manager.py:1142 | an img match contains the path |
| Rewrite.AbsentPathNotRewritten | markdown_image_manager.py:1140-1167 | a path absent from the text rewrites nothing |
| Rewrite.MdSelfReplacement | markdown_image_manager.py:1146 | rewriting a markdown path to itself changes nothing |
| Rewrite.ExampleMdMatch | markdown_image_manager.py:1141 | the markdown shape matches `![cat](a.png)` with the alt text ending at index 5 |
| Rewrite.MdKeepsAlt | markdown_image_manager.py:1146 | `![cat](a.png)` becomes `![cat](b.png)` |
| Rewrite.ExampleImgMatch | markdown_image_manager.py:1142 | the img shape matches `<img a src='p' b>` at its `src` and closing `>` |
| Rewrite.ExampleLastSrc | markdown_image_manager.py:1142 | the greedy group before `src` picks the last `src=` |
| Rewrite.LastSrcAt | markdown_image_manager.py:1142 | the greedy group before `src` ends at the last position from which the rest of the shape matches |
| Rewrite.ShortPathTakesTag | markdown_image_manager.py:1146-1148 | a path too short to contain `![` gets the HTML template |
| Rewrite.ImgKeepsAttributesStep | markdown_image_manager.py:1148 | `<img a src='p' b>` has one match, with groups ` a ` and ` b` |
| Rewrite.ImgKeepsAttributes | markdown_image_manager.py:1148 | `<img a src='p' b>` becomes `<img a src="r" b>` |
| Rewrite.ExampleBangBracketMatch | markdown_image_manager.py:1142 | the img shape matches `<img src="![">` for the path `![` |
| Rewrite.BangBracketPathTakesMd | markdown_image_manager.py:1146-1148 | a path containing `![` gets the markdown template, the first group as alt text |
| Rewrite.BangBracketStep | markdown_image_manager.py:1148 | `<img src="![">` has one match for `![`, with first group ` ` |
| Rewrite.BangBracketPathTakesMarkdownTemplate | markdown_image_manager.py:1142-1148 | with the path `![`, `<img src="![">` becomes `![ ](r)` |
| Rewrite.SafeRelpath | markdown_image_manager.py:188-199 | the result is normalised, with no backslash and no `//`; when relpath fails it is the normalised path |
| Session.FixFor | markdown_image_manager.py:1155-1163 | a fix record names the invalid and the new path and the target; a decoded path only for decoded kinds; similarity and candidate count only for smart kinds; high confidence only for exact kinds |
| Session.FixReference | markdown_image_manager.py:1123-1339 | one reference adds at most one fix and keeps the earlier ones; no fix means nothing changed; a fix changes the text and names the reference |
| Session.FixReferences | markdown_image_manager.py:1123-1339 | a document gets no more fixes than invalid references; no fix means the text is unchanged |
| Session.FixReferenceSound | markdown_image_manager.py:1123-1339 | each new fix is for a listed reference and targets a catalogue path |
| Session.FixReferencesSpec | markdown_image_manager.py:1123-1339 | all fixes of a document are for its listed references and target catalogue paths |
| Session.AbsentPathAddsNoFix | markdown_image_manager.py:1123-1339 | a reference that no longer occurs in the text adds no fix, so a path already rewritten away is not counted again |
| Session.PlanForSound | markdown_image_manager.py:1062-1358 | the concrete fixer is sound |
| Session.ProcessDoc | markdown_image_manager.py:1099-1349 | each document is first copied to its snapshot, then written only if its text changed; its record holds its relative path, snapshot, invalid count and fixes |
| Session.ProcessDocEffect | markdown_image_manager.py:1111-1345 | the snapshot holds the old text; the document holds the fixed text and changes iff it is written; no other file changes |
| Session.StepConsistent | markdown_image_manager.py:1097-1349 | folding a document keeps the counters consistent: one snapshot before every write, fixes at most invalid references, records only for fixed documents |
| Session.RunCounts | markdown_image_manager.py:1097-1349 | over a run, total invalid is the number of listed references, total fixed is at most that, and there are at most as many records as documents |
| Session.Run | markdown_image_manager.py:1097-1349 | a run only adds files |
| Session.FileSystem.constructor | markdown_image_manager.py:1062 | the file system starts with the given files, no logs and an empty trace |
| Session.FileSystem.Copy | markdown_image_manager.py:1113 | a copy puts the source text at the destination and records the step |
| Session.FileSystem.Write | markdown_image_manager.py:1342-1343 | a write replaces one file and records the step |
| Session.FileSystem.WriteLog | markdown_image_manager.py:1357-1360 | the fix log is stored without touching documents |
| Session.RewriteDocument | markdown_image_manager.py:1123-1339 | the reference loop computes the document's rewrite and counts its references |
| Session.ProcessDocument | markdown_image_manager.py:1099-1349 | the imperative step matches the per-document specification |
| Session.ProcessDocuments | markdown_image_manager.py:1097-1349 | the document loop matches the run specification, counters included |
| Session.SmartFixPaths | markdown_image_manager.py:1062-1358 | the session builds the index, runs every document, stores the fix log with processed and fixed totals, and embeds the undo script paths |
| Session.UndoScriptPaths | markdown_image_manager.py:1476-1477 | both embedded paths have no backslash and differ from the input only where it had one |
| Undo.Replay | markdown_image_manager.py:1584-1601 | replaying only adds files and restores at most one file per record |
| Undo.RestoreAll | markdown_image_manager.py:1584-1601 | the loop copies back each record whose snapshot exists, skips the rest, and counts the copies |
| Undo.SmartFixDirs | markdown_image_manager.py:1550-1554 | the candidates are exactly the `smart_fix_*` directories of the backup folder |
| Undo.Latest | markdown_image_manager.py:1561 | the chosen directory has the greatest creation time, and it is the first such |
| Undo.UndoSpec | markdown_image_manager.py:1535-1608 | without a workspace, backups, `smart_fix_*` directories, a fix log or confirmation nothing changes; a restore needs all of them |
| Undo.UndoUsesLatest | markdown_image_manager.py:1550-1601 | a restore uses the newest `smart_fix_*` directory and replays its journal |
| Undo.UndoFixes | markdown_image_manager.py:1535-1608 | the undo method matches the undo specification and leaves the logs alone |
| Undo.ScriptAgreesWithUndo | markdown_image_manager.py:1471-1530 | with a backslash-free workspace the script's workspace path replays as undo does |
| Undo.Records | markdown_image_manager.py:1348-1349 | there is at most one journal record per document |
| Undo.RunLeavesAll | markdown_image_manager.py:1097-1349 | with separate snapshots, after each prefix of the run every snapshot so far holds its document's original text |
| Undo.ReplayRecords | markdown_image_manager.py:1584-1601 | replaying the records of a prefix restores each fixed document of that prefix |
| Undo.UndoRestoresDocuments | markdown_image_manager.py:1111-1113 | with separate snapshots, undo after a run restores every record and every listed document's original text |
| UndoNaming.RelativeSnapshotsSeparated | markdown_image_manager.py:1108-1113 | relative naming gives distinct documents distinct snapshots outside the documents |
| UndoNaming.RelativeSnapshotsRoundTrip | markdown_image_manager.py:1062-1358 | with relative naming, a session followed by undo restores every listed document's original text |
| UndoNaming.SharedSnapshotRun | markdown_image_manager.py:1111-1113 | two fixed documents sharing a snapshot leave the second one's text in it, and both records point at it |
| UndoNaming.ReplayShared | markdown_image_manager.py:1584-1601 | replaying two records that share a snapshot copies that snapshot over the first document |
| UndoNaming.SharedSnapshotLosesText | markdown_image_manager.py:1111-1113 | as written, undo gives the first of two same-snapshot documents the other's text |
| UndoNaming.BasenameOfName | markdown_image_manager.py:1112 | the basename of `dir/name` is `name` |
| UndoNaming.BasenameSnapshotsCollide | markdown_image_manager.py:1112 | documents `dir1/x.md` and `dir2/x.md` are distinct but get the same snapshot |
| Gitee.FixGiteeUrl | gitee_image_fixer.py:23-47 | at most four candidates |
| Gitee.FixGiteeUrlSpec | gitee_image_fixer.py:23-47 | the candidates come in the fixed repair order; each is a repair that applies, applied to the original url; every repair that applies has its candidate |
| Gitee.DoubleSlashOffered | gitee_image_fixer.py:27-30 | the double-slash repair is offered iff `//img/` occurs |
| Gitee.MainBranchOffered | gitee_image_fixer.py:32-35 | the main-branch repair is offered iff `/raw/master/` occurs |
| Gitee.DropRawOffered | gitee_image_fixer.py:37-40 | the raw-dropping repair is offered iff `/raw/` occurs, and its url is the input when neither branch occurs |
| Gitee.CdnOffered | gitee_image_fixer.py:42-45 | the CDN repair is offered iff `gitee.com` occurs |
| Gitee.MainBranchImpliesDropRaw | gitee_image_fixer.py:32-40 | the main-branch repair always comes with the raw-dropping one |
| Gitee.FirstWorking | gitee_image_fixer.py:63-67 | the url found passes the access check and is a candidate; none iff every candidate fails |
| Gitee.FirstWorkingIsFirst | gitee_image_fixer.py:63-67 | the first passing candidate is the one returned |
| Gitee.WorkingUrlSpec | gitee_image_fixer.py:57-69 | the url found passes and is the input or one of its candidates; none iff the input and all candidates fail |
| Gitee.FindWorkingUrl | gitee_image_fixer.py:57-69 | the loop returns the input when it passes, otherwise the first passing candidate |
| Text.ReplaceAllAbsent | gitee_image_fixer.py:29 | `str.replace` of an absent pattern is the identity |
| Text.DirnameAtRoot | markdown_image_manager.py:1137 | `os.path.dirname` of a document directly under the root keeps the root: `/a.md` gives `/`, `C:\a.md` gives `C:\` |
| Text.DirnameOfName | markdown_image_manager.py:1173 | `os.path.dirname` of `dir/name` is `dir` when `dir` is not a bare drive and does not end in a separator |
| Text.Slashed | markdown_image_manager.py:1476-1477 | `replace('\\', '/')` has the same length, no backslash, and changes only backslashes |

## Left out

- File-system failures inside `fix_thread` are not modelled: unreadable documents, a failing `copy2` or write, and the `except` path at markdown_image_manager.py:1351-1355. That handler uses `rel_md` and `file_record`, which may be unbound or left from the previous document. The model covers the non-exception path only, so listed documents must exist.
- JSON encoding and decoding are not modelled: a mapping file is either stored entries, missing, unreadable or damaged.
- `difflib.SequenceMatcher.ratio`, `unquote`, `os.path.relpath`, `os.path.getctime` and `test_url` are parameters: their algorithms are foreign code.
- Floating point is modelled as `real`. IEEE rounding at the exact thresholds, as in `0.8*fs + 0.2*ps > 0.9`, is not captured, and the percentage report at markdown_image_manager.py:1368 is out.
- `os.path.join` joins with `/`, and `os.path.basename` and `os.path.dirname` split on both separators, as Windows' `ntpath` does. Platform differences are out.
- Text.Dirname: a UNC share (`\\server\share\a.md`) is not recognised as a drive. Only `X:` is, so the dirname of a file at the root of a share is `\\server\share` and not `\\server\share\`.
- `re` is modelled only for the two reference shapes with a literal path; `re.escape` is taken as exact literal matching.
- The backup timestamp (`datetime.now`) is a parameter of `Session.SmartFixPaths`.
- The GUI, message boxes, logging, threading, `export_report` and the summary text are not modelled: they are presentation only.
- Network and process code (downloads, uploads, `main` of both scripts, the requests session) is not modelled.
- `replace_to_remote` / `replace_to_local` and the scan that classifies references as invalid are not modelled. They are outside the repair engine, and the invalid-reference lists are an input of `Session.SmartFixPaths`.
- The undo script's own text (1479-1530) is not modelled. Only its two embedded paths are, and `Undo.ScriptAgreesWithUndo` relates them to the in-program undo.
- Session.AbsentPathAddsNoFix: a reference listed twice is shown to add no second fix only when the first rewrite removed it from the text. A rewrite whose new text still holds the old path is not covered.
- Rewrite: rewriting an `<img>` path to itself is not proved to leave the text unchanged. Unlike the markdown shape, the replacement normalises the quotes to `"`.
- FilenameKeyIsLowerBasename: lower-casing (`Text.Lower`, and `Resolver.FilenameKey` built on the same `LowerChar`) folds only the ASCII, Latin-1 and basic Cyrillic capitals. Python's `str.lower` also folds the other cased letters (Greek with its final-sigma rule, Latin Extended, Armenian and more, including letters whose lower case is two characters), and the model leaves those letters as they are, so two filenames differing only in such a letter get different index keys.
- FoldedIsLowerSlashed: the compared form of the decoded search (`Resolver.Folded`) lower-cases with the same `LowerChar`, so the same letters are left unfolded there.
- Undo.UndoSpec: an exception while reading the fix log or copying a snapshot is not modelled. A record whose snapshot is missing is skipped, as in the source.

## Findings

| source | as written | input that shows it | evidently intended | confidence | as-written member | corrected member |
|---|---|---|---|---|---|---|
| markdown_image_manager.py:1111-1113 | the snapshot of each document is `backup_dir/<basename>.backup`, so documents with the same name in different folders share one snapshot and the later copy overwrites the earlier | two documents `dir1/x.md` and `dir2/x.md` with different texts, both fixed in one session, then undo | one snapshot per document, so that undo restores every document's own text | not executed | UndoNaming.SharedSnapshotLosesText (with UndoNaming.BasenameSnapshotsCollide) | UndoNaming.RelativeSnapshotsRoundTrip |

=== FILE: dict.dfy ===
/**
  Python dictionaries keep insertion order, and the mapping code depends on
  it (keep-first and keep-last rebuilds). A dictionary with string keys is
  modelled as the sequence of its (key, value) items in insertion order.
*/
module Dicts {
  import opened Wrappers

  type Dict<V> = seq<(string, V)>

  function Keys<V>(d: Dict<V>): (ks: seq<string>)
    ensures |ks| == |d|
    ensures forall i :: 0 <= i < |d| ==> ks[i] == d[i].0
  {
    seq(|d|, i requires 0 <= i < |d| => d[i].0)
  }

  predicate DistinctKeys<V>(d: Dict<V>) {
    forall i, j :: 0 <= i < j < |d| ==> d[i].0 != d[j].0
  }

  /** `d.get(k)`. */
  function Get<V>(d: Dict<V>, k: string): (r: Option<V>)
    ensures r.Some? <==> k in Keys(d)
    decreases |d|
  {
    if d == [] then None
    else if d[0].0 == k then Some(d[0].1)
    else
      assert Keys(d) == [d[0].0] + Keys(d[1..]);
      Get(d[1..], k)
  }

  /** `d[k] = v`: an existing key keeps its place and takes the new value; a new key goes last. */
  function Put<V>(d: Dict<V>, k: string, v: V): (r: Dict<V>)
    ensures k in Keys(d) ==> Keys(r) == Keys(d)
    ensures k !in Keys(d) ==> r == d + [(k, v)]
    ensures forall k' :: Get(r, k') == if k' == k then Some(v) else Get(d, k')
    ensures DistinctKeys(d) ==> DistinctKeys(r)
    decreases |d|
  {
    if d == [] then [(k, v)]
    else if d[0].0 == k then
      PutHere(d, k, v);
      [(k, v)] + d[1..]
    else
      var t := Put(d[1..], k, v);
      PutFurther(d, k, v, t);
      [d[0]] + t
  }

  /** Putting at the key of the first item replaces that item. */
  lemma PutHere<V>(d: Dict<V>, k: string, v: V)
    requires d != [] && d[0].0 == k
    ensures var r := [(k, v)] + d[1..];
            && k in Keys(d) && Keys(r) == Keys(d)
            && (forall k' :: Get(r, k') == if k' == k then Some(v) else Get(d, k'))
            && (DistinctKeys(d) ==> DistinctKeys(r))
  {
    var r := [(k, v)] + d[1..];
    KeysCons(d[0], d[1..]);
    KeysCons((k, v), d[1..]);
    GetCons((k, v), d[1..]);
    GetCons(d[0], d[1..]);
    assert d == [d[0]] + d[1..];
  }

  /** Putting past the first item keeps the first item in front of the rest's result. */
  lemma PutFurther<V>(d: Dict<V>, k: string, v: V, t: Dict<V>)
    requires d != [] && d[0].0 != k
    requires k in Keys(d[1..]) ==> Keys(t) == Keys(d[1..])
    requires k !in Keys(d[1..]) ==> t == d[1..] + [(k, v)]
    requires forall k' :: Get(t, k') == if k' == k then Some(v) else Get(d[1..], k')
    requires DistinctKeys(d[1..]) ==> DistinctKeys(t)
    ensures var r := [d[0]] + t;
            && (k in Keys(d) ==> Keys(r) == Keys(d))
            && (k !in Keys(d) ==> r == d + [(k, v)])
            && (forall k' :: Get(r, k') == if k' == k then Some(v) else Get(d, k'))
            && (DistinctKeys(d) ==> DistinctKeys(r))
  {
    PutFurtherKeys(d, k, v, t);
    PutFurtherGet(d, k, v, t);
    if DistinctKeys(d) {
      DistinctTail(d);
      PutFurtherDistinct(d, k, t);
    }
  }

  lemma PutFurtherKeys<V>(d: Dict<V>, k: string, v: V, t: Dict<V>)
    requires d != [] && d[0].0 != k
    requires k in Keys(d[1..]) ==> Keys(t) == Keys(d[1..])
    requires k !in Keys(d[1..]) ==> t == d[1..] + [(k, v)]
    ensures k in Keys(d) ==> Keys([d[0]] + t) == Keys(d)
    ensures k !in Keys(d) ==> [d[0]] + t == d + [(k, v)] && Keys(t) == Keys(d[1..]) + [k]
  {
    KeysCons(d[0], d[1..]);
    KeysCons(d[0], t);
    assert d == [d[0]] + d[1..];
    if k !in Keys(d) {
      ConsSnoc(d[0], d[1..], (k, v));
      KeysAppend(d[1..], (k, v));
    }
  }

  lemma PutFurtherGet<V>(d: Dict<V>, k: string, v: V, t: Dict<V>)
    requires d != [] && d[0].0 != k
    requires forall k' :: Get(t, k') == if k' == k then Some(v) else Get(d[1..], k')
    ensures forall k' :: Get([d[0]] + t, k') == if k' == k then Some(v) else Get(d, k')
  {
    GetCons(d[0], t);
    GetCons(d[0], d[1..]);
    assert d == [d[0]] + d[1..];
  }

  lemma DistinctTail<V>(d: Dict<V>)
    requires d != [] && DistinctKeys(d)
    ensures DistinctKeys(d[1..])
  {
    forall i, j | 0 <= i < j < |d[1..]| ensures d[1..][i].0 != d[1..][j].0 {
      assert d[1..][i] == d[i + 1] && d[1..][j] == d[j + 1];
    }
  }

  /** The first key differs from all later ones, which the rest's result keeps. */
  lemma PutFurtherDistinct<V>(d: Dict<V>, k: string, t: Dict<V>)
    requires d != [] && d[0].0 != k && DistinctKeys(d) && DistinctKeys(t)
    requires k in Keys(d[1..]) ==> Keys(t) == Keys(d[1..])
    requires k !in Keys(d[1..]) ==> Keys(t) == Keys(d[1..]) + [k]
    ensures DistinctKeys([d[0]] + t)
  {
    var r := [d[0]] + t;
    forall i, j | 0 <= i < j < |r| ensures r[i].0 != r[j].0 {
      if i == 0 {
        assert r[j].0 == Keys(t)[j - 1];
        if j - 1 < |d[1..]| {
          assert Keys(t)[j - 1] == Keys(d[1..])[j - 1] == d[j].0;
        }
      } else {
        assert r[i] == t[i - 1] && r[j] == t[j - 1];
      }
    }
  }

  lemma ConsSnoc<T>(x: T, s: seq<T>, y: T)
    ensures [x] + (s + [y]) == ([x] + s) + [y]
  {
  }

  lemma KeysCons<V>(x: (string, V), d: Dict<V>)
    ensures Keys([x] + d) == [x.0] + Keys(d)
  {
  }

  lemma GetCons<V>(x: (string, V), d: Dict<V>)
    ensures forall k :: Get([x] + d, k) == if x.0 == k then Some(x.1) else Get(d, k)
  {
    assert ([x] + d)[1..] == d;
  }

  lemma GetAppend<V>(d: Dict<V>, x: (string, V), k: string)
    ensures Get(d + [x], k) == if k in Keys(d) then Get(d, k) else if x.0 == k then Some(x.1) else None
    decreases |d|
  {
    if d != [] {
      assert (d + [x])[1..] == d[1..] + [x];
      assert Keys(d) == [d[0].0] + Keys(d[1..]);
      GetAppend(d[1..], x, k);
    }
  }

  lemma KeysAppend<V>(d: Dict<V>, x: (string, V))
    ensures Keys(d + [x]) == Keys(d) + [x.0]
  {
  }
}

=== FILE: gitee.dfy ===
/**
  The Gitee link repair: the candidate URLs `fix_gitee_url` derives from a
  broken image URL, and the search `find_working_url` makes over them with
  an access test.
*/
module Gitee {
  import opened Wrappers
  import opened Text

  /** The four repairs, in the order they are tried. */
  datatype Repair =
    | DoubleSlash   // 双斜杠修复
    | MainBranch    // 主分支修复
    | DropRaw       // 去掉raw
    | Cdn           // CDN加速

  function Rank(r: Repair): nat {
    match r
    case DoubleSlash => 0
    case MainBranch => 1
    case DropRaw => 2
    case Cdn => 3
  }

  /** A candidate URL and the repair that produced it. */
  datatype Candidate = Candidate(repair: Repair, url: string)

  /** Whether a repair applies to the URL. */
  predicate Applies(r: Repair, url: string) {
    match r
    case DoubleSlash => Contains(url, "//img/")
    case MainBranch => Contains(url, "/raw/master/")
    case DropRaw => Contains(url, "/raw/")
    case Cdn => Contains(url, "gitee.com")
  }

  /** The URL a repair makes from the original URL. */
  function Repaired(r: Repair, url: string): string {
    match r
    case DoubleSlash => ReplaceAll(url, "//img/", "/img/")
    case MainBranch => ReplaceAll(url, "/raw/master/", "/raw/main/")
    case DropRaw => ReplaceAll(ReplaceAll(url, "/raw/master/", "/master/"), "/raw/main/", "/main/")
    case Cdn => ReplaceAll(url, "gitee.com", "gitee.io")
  }

  /** The candidate of one repair, if it applies. */
  function Try(r: Repair, url: string): seq<Candidate> {
    if Applies(r, url) then [Candidate(r, Repaired(r, url))] else []
  }

  /** `fix_gitee_url`: each repair that applies, in order, each applied to the original URL. */
  function FixGiteeUrl(url: string): (fixes: seq<Candidate>)
    ensures |fixes| <= 4
  {
    Try(DoubleSlash, url) + Try(MainBranch, url) + Try(DropRaw, url) + Try(Cdn, url)
  }

  /** The candidates are in the order of their repairs. */
  predicate InOrder(fixes: seq<Candidate>) {
    forall i, j :: 0 <= i < j < |fixes| ==> Rank(fixes[i].repair) < Rank(fixes[j].repair)
  }

  /** Each candidate is a repair that applies, applied to the original URL. */
  predicate Derived(fixes: seq<Candidate>, url: string) {
    forall c :: c in fixes ==> Applies(c.repair, url) && c.url == Repaired(c.repair, url)
  }

  /** Appending the candidate of a later repair keeps the order and the derivation. */
  lemma TryAppend(fixes: seq<Candidate>, r: Repair, url: string)
    requires InOrder(fixes) && Derived(fixes, url)
    requires forall c :: c in fixes ==> Rank(c.repair) < Rank(r)
    ensures InOrder(fixes + Try(r, url)) && Derived(fixes + Try(r, url), url)
    ensures forall c :: c in fixes + Try(r, url) ==> Rank(c.repair) <= Rank(r)
  {
    var t := fixes + Try(r, url);
    if Applies(r, url) {
      forall i, j | 0 <= i < j < |t| ensures Rank(t[i].repair) < Rank(t[j].repair) {
        if j == |fixes| {
          assert t[i] in fixes;
        }
      }
    } else {
      assert t == fixes;
    }
  }

  /**
    The candidates come in the fixed order of the repairs, each is a repair
    that applies applied to the original URL, and every repair that applies
    has its candidate.
  */
  lemma FixGiteeUrlSpec(url: string)
    ensures var fixes := FixGiteeUrl(url);
            && InOrder(fixes)
            && Derived(fixes, url)
            && (forall r :: Applies(r, url) ==> Candidate(r, Repaired(r, url)) in fixes)
  {
    var s1 := Try(DoubleSlash, url);
    TryAppend([], DoubleSlash, url);
    assert [] + s1 == s1;
    TryAppend(s1, MainBranch, url);
    var s2 := s1 + Try(MainBranch, url);
    TryAppend(s2, DropRaw, url);
    var s3 := s2 + Try(DropRaw, url);
    TryAppend(s3, Cdn, url);
    var fixes := FixGiteeUrl(url);
    assert fixes == s3 + Try(Cdn, url);
    forall r | Applies(r, url) ensures Candidate(r, Repaired(r, url)) in fixes {
      var c := Candidate(r, Repaired(r, url));
      assert c in Try(r, url);
      match r
      case DoubleSlash => assert c in s1 && c in s2 && c in s3;
      case MainBranch => assert c in s2 && c in s3;
      case DropRaw => assert c in s3;
      case Cdn =>
    }
  }

  /** The double-slash repair is offered exactly when `//img/` occurs. */
  lemma DoubleSlashOffered(url: string)
    ensures (exists c :: c in FixGiteeUrl(url) && c.repair == DoubleSlash) <==> Contains(url, "//img/")
  {
    FixGiteeUrlSpec(url);
    if Contains(url, "//img/") {
      assert Candidate(DoubleSlash, Repaired(DoubleSlash, url)) in FixGiteeUrl(url);
    }
  }

  /** The main-branch repair is offered exactly when `/raw/master/` occurs. */
  lemma MainBranchOffered(url: string)
    ensures (exists c :: c in FixGiteeUrl(url) && c.repair == MainBranch) <==> Contains(url, "/raw/master/")
  {
    FixGiteeUrlSpec(url);
    if Contains(url, "/raw/master/") {
      assert Candidate(MainBranch, Repaired(MainBranch, url)) in FixGiteeUrl(url);
    }
  }

  /** The CDN repair is offered exactly when `gitee.com` occurs. */
  lemma CdnOffered(url: string)
    ensures (exists c :: c in FixGiteeUrl(url) && c.repair == Cdn) <==> Contains(url, "gitee.com")
  {
    FixGiteeUrlSpec(url);
    if Contains(url, "gitee.com") {
      assert Candidate(Cdn, Repaired(Cdn, url)) in FixGiteeUrl(url);
    }
  }

  /**
    The raw-dropping repair is offered exactly when `/raw/` occurs; when
    neither `/raw/master/` nor `/raw/main/` does, its URL is the input.
  */
  lemma DropRawOffered(url: string)
    ensures (exists c :: c in FixGiteeUrl(url) && c.repair == DropRaw) <==> Contains(url, "/raw/")
    ensures !Contains(url, "/raw/master/") && !Contains(url, "/raw/main/") ==> Repaired(DropRaw, url) == url
  {
    FixGiteeUrlSpec(url);
    if Contains(url, "/raw/") {
      assert Candidate(DropRaw, Repaired(DropRaw, url)) in FixGiteeUrl(url);
    }
    if !Contains(url, "/raw/master/") && !Contains(url, "/raw/main/") {
      ReplaceAllAbsent(url, "/raw/master/", "/master/");
      ReplaceAllAbsent(url, "/raw/main/", "/main/");
    }
  }

  /** `/raw/master/` contains `/raw/`, so the main-branch repair always comes with the raw-dropping one. */
  lemma MainBranchImpliesDropRaw(url: string)
    requires Contains(url, "/raw/master/")
    ensures Applies(DropRaw, url)
  {
    var i :| 0 <= i <= |url| - |"/raw/master/"| && OccursAt(url, "/raw/master/", i);
    assert url[i..i + 5] == url[i..i + 12][..5];
    ContainsAt(url, "/raw/", i);
  }

  /**
    The answer of `find_working_url`: the original URL if it passes the
    access test, otherwise the first candidate that does, otherwise none.
  */
  function FirstWorking(candidates: seq<Candidate>, test: string -> bool): (r: Option<string>)
    ensures r.Some? ==> test(r.value) && exists i :: 0 <= i < |candidates| && candidates[i].url == r.value
    ensures r.None? <==> forall i :: 0 <= i < |candidates| ==> !test(candidates[i].url)
    decreases |candidates|
  {
    if candidates == [] then None
    else if test(candidates[0].url) then Some(candidates[0].url)
    else
      var r := FirstWorking(candidates[1..], test);
      assert forall i :: 1 <= i < |candidates| ==> candidates[1..][i - 1] == candidates[i];
      r
  }

  /** The first candidate that passes is returned: every candidate before it fails. */
  lemma {:induction false} FirstWorkingIsFirst(candidates: seq<Candidate>, test: string -> bool, i: nat)
    requires i < |candidates| && test(candidates[i].url)
    requires forall j :: 0 <= j < i ==> !test(candidates[j].url)
    ensures FirstWorking(candidates, test) == Some(candidates[i].url)
    decreases i
  {
    if i > 0 {
      FirstWorkingIsFirst(candidates[1..], test, i - 1);
    }
  }

  /** `find_working_url` on values. */
  function WorkingUrl(url: string, test: string -> bool): Option<string> {
    if test(url) then Some(url) else FirstWorking(FixGiteeUrl(url), test)
  }

  /** The URL found is the input or one of its candidates, and it passes the test; none is found only when everything fails. */
  lemma WorkingUrlSpec(url: string, test: string -> bool)
    ensures var r := WorkingUrl(url, test);
            && (r.Some? ==> test(r.value) && (r.value == url || exists c :: c in FixGiteeUrl(url) && c.url == r.value))
            && (r.None? <==> !test(url) && forall c :: c in FixGiteeUrl(url) ==> !test(c.url))
  {
    var fixes := FixGiteeUrl(url);
    if !test(url) && FirstWorking(fixes, test).Some? {
      var i :| 0 <= i < |fixes| && fixes[i].url == FirstWorking(fixes, test).value;
      assert fixes[i] in fixes;
    }
  }

  /**
    `find_working_url` (gitee_image_fixer.py:57-69): the original URL first,
    then each candidate in order, returning the first that passes `test`.
  */
  method FindWorkingUrl(originalUrl: string, test: string -> bool) returns (r: Option<string>)
    ensures r == WorkingUrl(originalUrl, test)
    ensures test(originalUrl) ==> r == Some(originalUrl)
  {
    if test(originalUrl) {
      return Some(originalUrl);
    }
    var fixes := FixGiteeUrl(originalUrl);
    var i := 0;
    while i < |fixes|
      invariant 0 <= i <= |fixes|
      invariant forall j :: 0 <= j < i ==> !test(fixes[j].url)
    {
      if test(fixes[i].url) {
        FirstWorkingIsFirst(fixes, test, i);
        return Some(fixes[i].url);
      }
      i := i + 1;
    }
    return None;
  }
}

=== FILE: mapping.dfy ===
/**
  The image mapping table (local image path -> remote url) of the manager,
  kept in `image_mapping.json` under the workspace: its one-off migration to
  normalised keys (markdown_image_manager.py:76-134) and the normalising
  rebuilds on load (136-162) and save (164-186).
*/
module ImageMapping {
  import opened Wrappers
  import opened Text
  import opened PathNormalize
  import opened Dicts

  /** Local image path -> remote url, in insertion order. */
  type Mapping = Dict<string>

  /** The mapping file as the manager finds it on disk. */
  datatype MappingFile =
    | Missing            // os.path.exists is false
    | Unreadable         // json.load raises
    | Damaged            // a write into it raised part-way
    | Stored(entries: Mapping)

  /**
    How a write of the mapping file ends: `open(..., 'w')` and `json.dump`
    both succeed; `open` raises before truncating, so the file is untouched;
    or the write raises part-way, leaving a damaged file.
  */
  datatype WriteOutcome = Written | OpenFailed | FailedPartway

  /** The file after writing `m` over `file` with the given outcome. */
  function AfterWrite(file: MappingFile, m: Mapping, write: WriteOutcome): MappingFile {
    match write
    case Written => Stored(m)
    case OpenFailed => file
    case FailedPartway => Damaged
  }

  /** A key written with both separators, the problem the migration repairs. */
  predicate MixedSeparators(k: string) {
    '\\' in k && '/' in k
  }

  predicate NeedsMigration(m: Mapping) {
    exists i :: 0 <= i < |m| && MixedSeparators(m[i].0)
  }

  function CountMixed(m: Mapping): nat
    decreases |m|
  {
    if m == [] then 0 else CountMixed(m[..|m| - 1]) + (if MixedSeparators(m[|m| - 1].0) then 1 else 0)
  }

  /** Number of keys that normalisation changes. */
  function CountRenamed(m: Mapping): nat
    decreases |m|
  {
    if m == [] then 0 else CountRenamed(m[..|m| - 1]) + (if NormalizePath(m[|m| - 1].0) != m[|m| - 1].0 then 1 else 0)
  }

  /** The migration rebuild: normalised keys, the first url per normalised key kept. */
  function KeepFirst(m: Mapping): Mapping
    decreases |m|
  {
    if m == [] then []
    else
      var prev := KeepFirst(m[..|m| - 1]);
      var nk := NormalizePath(m[|m| - 1].0);
      if nk in Keys(prev) then prev else Put(prev, nk, m[|m| - 1].1)
  }

  /** The load/save rebuild `normalized_mapping[normalized_path] = remote_url`: later keys overwrite. */
  function KeepLast(m: Mapping): Mapping
    decreases |m|
  {
    if m == [] then [] else Put(KeepLast(m[..|m| - 1]), NormalizePath(m[|m| - 1].0), m[|m| - 1].1)
  }

  /** Reference definitions, read from the front: the url of the first / last key normalising to `k`. */
  function FirstUrl(m: Mapping, k: string): Option<string>
    decreases |m|
  {
    if m == [] then None
    else if NormalizePath(m[0].0) == k then Some(m[0].1)
    else FirstUrl(m[1..], k)
  }

  function LastUrl(m: Mapping, k: string): Option<string>
    decreases |m|
  {
    if m == [] then None
    else if LastUrl(m[1..], k).Some? then LastUrl(m[1..], k)
    else if NormalizePath(m[0].0) == k then Some(m[0].1)
    else None
  }

  predicate NormalKeys(m: Mapping) {
    forall i :: 0 <= i < |m| ==> NormalizePath(m[i].0) == m[i].0
  }

  // ---------------------------------------------------------------------------
  // The reference definitions seen from the back, as the rebuild loops run

  lemma {:induction false} FirstUrlSnoc(m: Mapping, x: (string, string), k: string)
    ensures FirstUrl(m + [x], k)
         == if FirstUrl(m, k).Some? then FirstUrl(m, k) else if NormalizePath(x.0) == k then Some(x.1) else None
    decreases |m|
  {
    if m != [] {
      assert (m + [x])[1..] == m[1..] + [x];
      FirstUrlSnoc(m[1..], x, k);
    }
  }

  lemma {:induction false} LastUrlSnoc(m: Mapping, x: (string, string), k: string)
    ensures LastUrl(m + [x], k) == if NormalizePath(x.0) == k then Some(x.1) else LastUrl(m, k)
    decreases |m|
  {
    if m != [] {
      assert (m + [x])[1..] == m[1..] + [x];
      LastUrlSnoc(m[1..], x, k);
    }
  }

  // ---------------------------------------------------------------------------
  // What the rebuilds promise

  /**
    The migrated table maps every normalised original key, and only those,
    to the url of the FIRST original key with that normalisation; its keys
    are distinct and already normal.
  */
  lemma {:induction false} KeepFirstSpec(m: Mapping)
    ensures forall k :: Get(KeepFirst(m), k) == FirstUrl(m, k)
    ensures DistinctKeys(KeepFirst(m)) && NormalKeys(KeepFirst(m))
    ensures |KeepFirst(m)| <= |m|
    decreases |m|
  {
    if m != [] {
      var init, x := m[..|m| - 1], m[|m| - 1];
      assert m == init + [x];
      KeepFirstSpec(init);
      var prev := KeepFirst(init);
      var nk := NormalizePath(x.0);
      forall k ensures Get(KeepFirst(m), k) == FirstUrl(m, k) {
        FirstUrlSnoc(init, x, k);
      }
      if nk !in Keys(prev) {
        NormalizeIdempotent(x.0);
        var r := Put(prev, nk, x.1);
        assert r == prev + [(nk, x.1)];
        assert forall i :: 0 <= i < |prev| ==> prev[i].0 in Keys(prev);
      }
    }
  }

  /** A migrated key holds no backslash, so in particular never both separators. */
  lemma KeepFirstNoBackslash(m: Mapping)
    ensures forall i :: 0 <= i < |KeepFirst(m)| ==> '\\' !in KeepFirst(m)[i].0
    ensures !NeedsMigration(KeepFirst(m))
  {
    KeepFirstSpec(m);
    forall i | 0 <= i < |KeepFirst(m)| ensures '\\' !in KeepFirst(m)[i].0 {
      NormalizeClean(KeepFirst(m)[i].0);
    }
  }

  /** The load/save rebuild maps every normalised key to the url of the LAST original key with that normalisation. */
  lemma {:induction false} KeepLastSpec(m: Mapping)
    ensures forall k :: Get(KeepLast(m), k) == LastUrl(m, k)
    ensures DistinctKeys(KeepLast(m))
    decreases |m|
  {
    if m != [] {
      var init, x := m[..|m| - 1], m[|m| - 1];
      assert m == init + [x];
      KeepLastSpec(init);
      forall k ensures Get(KeepLast(m), k) == LastUrl(m, k) {
        LastUrlSnoc(init, x, k);
      }
    }
  }

  /** Both rebuilds list the same keys in the same (first-occurrence) order; they differ only in which url wins. */
  lemma {:induction false} RebuildsSameKeys(m: Mapping)
    ensures Keys(KeepFirst(m)) == Keys(KeepLast(m))
    decreases |m|
  {
    if m != [] {
      var init, x := m[..|m| - 1], m[|m| - 1];
      RebuildsSameKeys(init);
      var nk := NormalizePath(x.0);
      if nk !in Keys(KeepFirst(init)) {
        KeysAppend(KeepFirst(init), (nk, x.1));
        KeysAppend(KeepLast(init), (nk, x.1));
      }
    }
  }

  /** Rebuilding a table whose keys are distinct and normal changes nothing. */
  lemma {:induction false} KeepLastOfNormal(m: Mapping)
    requires DistinctKeys(m) && NormalKeys(m)
    ensures KeepLast(m) == m
    decreases |m|
  {
    if m != [] {
      var init, x := m[..|m| - 1], m[|m| - 1];
      assert m == init + [x];
      KeepLastOfNormal(init);
    }
  }

  /** Loading a migrated table (the load after a migration) gives back exactly the migrated table. */
  lemma LoadAfterMigration(m: Mapping)
    ensures KeepLast(KeepFirst(m)) == KeepFirst(m)
  {
    KeepFirstSpec(m);
    KeepLastOfNormal(KeepFirst(m));
  }

  // ---------------------------------------------------------------------------
  // The loops

  /** markdown_image_manager.py:96-99: is any key written with both separators, and how many. */
  method ScanMixedSeparators(m: Mapping) returns (needsMigration: bool, problematicCount: nat)
    ensures needsMigration <==> NeedsMigration(m)
    ensures problematicCount == CountMixed(m)
    ensures needsMigration <==> problematicCount > 0
  {
    needsMigration, problematicCount := false, 0;
    var i := 0;
    while i < |m|
      invariant 0 <= i <= |m|
      invariant needsMigration <==> exists j :: 0 <= j < i && MixedSeparators(m[j].0)
      invariant problematicCount == CountMixed(m[..i])
      invariant needsMigration <==> problematicCount > 0
    {
      assert m[..i + 1][..i] == m[..i];
      if MixedSeparators(m[i].0) {
        needsMigration := true;
        problematicCount := problematicCount + 1;
      }
      i := i + 1;
    }
    assert m[..i] == m;
  }

  /** markdown_image_manager.py:110-121: the keep-first rebuild, counting renamed keys. */
  method RebuildKeepFirst(m: Mapping) returns (newMapping: Mapping, normalizedCount: nat)
    ensures newMapping == KeepFirst(m)
    ensures normalizedCount == CountRenamed(m)
  {
    newMapping, normalizedCount := [], 0;
    var i := 0;
    while i < |m|
      invariant 0 <= i <= |m|
      invariant newMapping == KeepFirst(m[..i])
      invariant normalizedCount == CountRenamed(m[..i])
    {
      assert m[..i + 1][..i] == m[..i];
      var localPath, remoteUrl := m[i].0, m[i].1;
      var normalizedPath := NormalizePath(localPath);
      if normalizedPath != localPath {
        normalizedCount := normalizedCount + 1;
      }
      if normalizedPath !in Keys(newMapping) {
        newMapping := Put(newMapping, normalizedPath, remoteUrl);
      }
      i := i + 1;
    }
    assert m[..i] == m;
  }

  /** markdown_image_manager.py:151-154 and 171-174: the keep-last rebuild. */
  method RebuildKeepLast(m: Mapping) returns (normalizedMapping: Mapping)
    ensures normalizedMapping == KeepLast(m)
  {
    normalizedMapping := [];
    var i := 0;
    while i < |m|
      invariant 0 <= i <= |m|
      invariant normalizedMapping == KeepLast(m[..i])
    {
      assert m[..i + 1][..i] == m[..i];
      normalizedMapping := Put(normalizedMapping, NormalizePath(m[i].0), m[i].1);
      i := i + 1;
    }
    assert m[..i] == m;
  }

  /**
    markdown_image_manager.py:76-134. The file is rewritten only when some
    key mixes both separators and the backup copy succeeded; it then holds
    the keep-first rebuild. `backupOk` says whether `shutil.copy2` succeeds
    and `write` how the write ends.
  */
  method MigrateImageMapping(file: MappingFile, backupOk: bool, write: WriteOutcome)
    returns (ok: bool, newFile: MappingFile, backup: Option<Mapping>)
    ensures file.Missing? ==> ok && newFile == file && backup == None
    ensures file.Unreadable? || file.Damaged? ==> !ok && newFile == file && backup == None
    ensures file.Stored? && !NeedsMigration(file.entries) ==> ok && newFile == file && backup == None
    ensures file.Stored? && NeedsMigration(file.entries) && !backupOk ==> !ok && newFile == file && backup == None
    ensures file.Stored? && NeedsMigration(file.entries) && backupOk ==>
              backup == Some(file.entries) && (ok <==> write.Written?) &&
              (write.Written? ==> newFile == Stored(KeepFirst(file.entries))) &&
              (write.OpenFailed? ==> newFile == file) &&
              (write.FailedPartway? ==> newFile == Damaged)
    ensures newFile != file ==> backup.Some?
  {
    match file
    case Missing =>
      return true, file, None;
    case Unreadable =>
      return false, file, None;
    case Damaged =>
      return false, file, None;
    case Stored(originalMapping) =>
      if originalMapping == [] {
        return true, file, None;
      }
      var needsMigration, problematicCount := ScanMixedSeparators(originalMapping);
      if !needsMigration {
        return true, file, None;
      }
      if !backupOk {
        return false, file, None;
      }
      backup := Some(originalMapping);
      var newMapping, normalizedCount := RebuildKeepFirst(originalMapping);
      return write.Written?, AfterWrite(file, newMapping, write), backup;
  }

  /** markdown_image_manager.py:145-162: what the load step puts in memory. */
  function LoadedMapping(file: MappingFile): (m: Mapping)
    ensures file.Stored? ==> forall k :: Get(m, k) == LastUrl(file.entries, k)
    ensures !file.Stored? ==> m == []
  {
    if file.Stored? then KeepLastSpec(file.entries); KeepLast(file.entries) else []
  }

  /** The manager's in-memory table and the mapping file in its workspace. */
  class ImageManager {
    var imageMapping: Mapping
    var mappingFile: MappingFile

    constructor (file: MappingFile)
      ensures mappingFile == file && imageMapping == []
    {
      mappingFile := file;
      imageMapping := [];
    }

    /**
      markdown_image_manager.py:136-162: migrate, then load with the
      keep-last rebuild. After a migration the loaded table IS the migrated
      one; without one, colliding keys resolve to the last url.
    */
    method LoadImageMappingWithMigration(backupOk: bool, write: WriteOutcome)
      modifies this
      ensures imageMapping == LoadedMapping(mappingFile)
      ensures old(mappingFile).Stored? && NeedsMigration(old(mappingFile).entries) && backupOk && write.Written? ==>
                mappingFile == Stored(KeepFirst(old(mappingFile).entries)) &&
                imageMapping == KeepFirst(old(mappingFile).entries)
      ensures old(mappingFile).Stored? && !NeedsMigration(old(mappingFile).entries) ==>
                mappingFile == old(mappingFile) && imageMapping == KeepLast(old(mappingFile).entries)
      ensures !(old(mappingFile).Stored? && NeedsMigration(old(mappingFile).entries) && backupOk) ==>
                mappingFile == old(mappingFile)
      ensures old(mappingFile).Stored? && NeedsMigration(old(mappingFile).entries) && backupOk && write.OpenFailed? ==>
                mappingFile == old(mappingFile) && imageMapping == KeepLast(old(mappingFile).entries)
      ensures old(mappingFile).Stored? && NeedsMigration(old(mappingFile).entries) && backupOk && write.FailedPartway? ==>
                mappingFile == Damaged && imageMapping == []
    {
      var ok, newFile, backup := MigrateImageMapping(mappingFile, backupOk, write);
      mappingFile := newFile;
      if mappingFile.Stored? {
        imageMapping := RebuildKeepLast(mappingFile.entries);
        if old(mappingFile).Stored? && NeedsMigration(old(mappingFile).entries) && backupOk && write.Written? {
          LoadAfterMigration(old(mappingFile).entries);
        }
      } else {
        imageMapping := [];
      }
    }

    /**
      markdown_image_manager.py:164-186: an empty table is not saved; otherwise
      the keep-last rebuild is written and, if the write succeeded, kept in
      memory; a failed write leaves the table as it was.
    */
    method SaveImageMappingNormalized(write: WriteOutcome)
      modifies this
      ensures old(imageMapping) == [] ==> imageMapping == [] && mappingFile == old(mappingFile)
      ensures old(imageMapping) != [] && write.Written? ==>
                imageMapping == KeepLast(old(imageMapping)) && mappingFile == Stored(imageMapping)
      ensures old(imageMapping) != [] && write.OpenFailed? ==>
                imageMapping == old(imageMapping) && mappingFile == old(mappingFile)
      ensures old(imageMapping) != [] && write.FailedPartway? ==>
                imageMapping == old(imageMapping) && mappingFile == Damaged
    {
      if imageMapping == [] {
        return;
      }
      var normalizedMapping := RebuildKeepLast(imageMapping);
      mappingFile := AfterWrite(mappingFile, normalizedMapping, write);
      if write.Written? {
        imageMapping := normalizedMapping;
      }
    }
  }
}

=== FILE: migration_tool.dfy ===
/**
  The stand-alone migration tool (migrate_image_mapping.py): it analyses a
  mapping file, turns the analysis into a plan and executes the plan,
  rewriting the file with normalised keys after taking a backup. Its
  `normalize_path` is the same function as the manager's (PathNormalize).
*/
module MigrationTool {
  import opened Wrappers
  import opened PathNormalize
  import opened Dicts
  import opened ImageMapping

  /** A key written with both separators (the only issue the tool reports). */
  datatype Problem = Problem(original: string, remoteUrl: string)

  /** A later key that normalises onto an already kept one. */
  datatype Duplicate = Duplicate(path1: string, path2: string, normalized: string, url1: string, url2: string)

  /** What the analysis keeps per normalised key. */
  datatype Kept = Kept(original: string, remoteUrl: string)

  datatype Analysis = Analysis(problematicPaths: seq<Problem>, duplicates: seq<Duplicate>, normalizedMapping: Dict<Kept>)

  datatype Strategy = KeepFirstStrategy

  datatype Action =
    | NormalizePaths(problems: seq<Problem>)
    | HandleDuplicates(items: seq<Duplicate>, strategy: Strategy)
    | Validate

  datatype Plan = Plan(backupNeeded: bool, actions: seq<Action>)

  datatype LogEntry =
    | DuplicateConflict(path: string, keptUrl: string, discardedUrl: string, originalPath: string)
    | DuplicateSameUrl(path: string, url: string, originalPath: string)
    | PathNormalized(original: string, normalized: string, url: string)

  /** The migration log file: original count, new count, entries. */
  datatype LogFile = LogFile(originalCount: nat, newCount: nat, log: seq<LogEntry>)

  // ---------------------------------------------------------------------------
  // Analysis (migrate_image_mapping.py:53-84)

  /** One round of the analysis loop. */
  function AnalyzeEntry(a: Analysis, e: (string, string)): Analysis {
    var problems := if MixedSeparators(e.0) then a.problematicPaths + [Problem(e.0, e.1)] else a.problematicPaths;
    var nk := NormalizePath(e.0);
    var kept := Get(a.normalizedMapping, nk);
    if kept.Some? then
      Analysis(problems, a.duplicates + [Duplicate(kept.value.original, e.0, nk, kept.value.remoteUrl, e.1)], a.normalizedMapping)
    else
      Analysis(problems, a.duplicates, Put(a.normalizedMapping, nk, Kept(e.0, e.1)))
  }

  function Analyze(m: Mapping): Analysis
    decreases |m|
  {
    if m == [] then Analysis([], [], []) else AnalyzeEntry(Analyze(m[..|m| - 1]), m[|m| - 1])
  }

  /** Reference: the mixed-separator entries, in mapping order. */
  function MixedEntries(m: Mapping): seq<Problem>
    decreases |m|
  {
    if m == [] then []
    else (if MixedSeparators(m[0].0) then [Problem(m[0].0, m[0].1)] else []) + MixedEntries(m[1..])
  }

  /** Reference: the first entry whose key normalises to `k`. */
  function FirstEntry(m: Mapping, k: string): Option<Kept>
    decreases |m|
  {
    if m == [] then None
    else if NormalizePath(m[0].0) == k then Some(Kept(m[0].0, m[0].1))
    else FirstEntry(m[1..], k)
  }

  /** The urls of a kept table. */
  function Urls(d: Dict<Kept>): (r: Mapping)
    ensures |r| == |d| && Keys(r) == Keys(d)
    ensures forall i :: 0 <= i < |d| ==> r[i] == (d[i].0, d[i].1.remoteUrl)
  {
    seq(|d|, i requires 0 <= i < |d| => (d[i].0, d[i].1.remoteUrl))
  }

  lemma {:induction false} MixedEntriesSnoc(m: Mapping, x: (string, string))
    ensures MixedEntries(m + [x]) == MixedEntries(m) + (if MixedSeparators(x.0) then [Problem(x.0, x.1)] else [])
    decreases |m|
  {
    if m != [] {
      assert (m + [x])[1..] == m[1..] + [x];
      MixedEntriesSnoc(m[1..], x);
    }
  }

  lemma {:induction false} FirstEntrySnoc(m: Mapping, x: (string, string), k: string)
    ensures FirstEntry(m + [x], k)
         == if FirstEntry(m, k).Some? then FirstEntry(m, k) else if NormalizePath(x.0) == k then Some(Kept(x.0, x.1)) else None
    decreases |m|
  {
    if m != [] {
      assert (m + [x])[1..] == m[1..] + [x];
      FirstEntrySnoc(m[1..], x, k);
    }
  }

  lemma {:induction false} UrlsGet(d: Dict<Kept>, k: string)
    ensures Get(Urls(d), k) == if Get(d, k).Some? then Some(Get(d, k).value.remoteUrl) else None
    decreases |d|
  {
    if d != [] {
      assert Urls(d)[1..] == Urls(d[1..]);
      UrlsGet(d[1..], k);
    }
  }

  /** `problematic_paths` lists exactly the keys holding both separators, in mapping order. */
  lemma {:induction false} AnalyzeProblems(m: Mapping)
    ensures Analyze(m).problematicPaths == MixedEntries(m)
    ensures |Analyze(m).problematicPaths| == CountMixed(m)
    decreases |m|
  {
    if m != [] {
      var init, x := m[..|m| - 1], m[|m| - 1];
      assert m == init + [x];
      AnalyzeProblems(init);
      MixedEntriesSnoc(init, x);
    }
  }

  /** `normalized_mapping` records, for every normalised key, the first original key and its url. */
  lemma {:induction false} AnalyzeKeepsFirst(m: Mapping)
    ensures forall k :: Get(Analyze(m).normalizedMapping, k) == FirstEntry(m, k)
    decreases |m|
  {
    if m != [] {
      var init, x := m[..|m| - 1], m[|m| - 1];
      assert m == init + [x];
      AnalyzeKeepsFirst(init);
      forall k ensures Get(Analyze(m).normalizedMapping, k) == FirstEntry(m, k) {
        FirstEntrySnoc(init, x, k);
      }
    }
  }

  /** The urls of `normalized_mapping` are exactly the keep-first rebuild. */
  lemma {:induction false} AnalyzeMatchesKeepFirst(m: Mapping)
    ensures Urls(Analyze(m).normalizedMapping) == KeepFirst(m)
    decreases |m|
  {
    if m != [] {
      var init, x := m[..|m| - 1], m[|m| - 1];
      AnalyzeMatchesKeepFirst(init);
      var a := Analyze(init);
      var nk := NormalizePath(x.0);
      UrlsGet(a.normalizedMapping, nk);
      if Get(a.normalizedMapping, nk).None? {
        var added := Put(a.normalizedMapping, nk, Kept(x.0, x.1));
        assert added == a.normalizedMapping + [(nk, Kept(x.0, x.1))];
        assert Urls(added) == Urls(a.normalizedMapping) + [(nk, x.1)];
      }
    }
  }

  /**
    Every entry that is not kept becomes one duplicate naming the kept
    original, so kept entries and duplicates together account for the whole
    mapping.
  */
  lemma {:induction false} AnalyzeDuplicates(m: Mapping)
    ensures |Analyze(m).normalizedMapping| + |Analyze(m).duplicates| == |m|
    ensures forall d :: d in Analyze(m).duplicates ==>
              NormalizePath(d.path2) == d.normalized && FirstEntry(m, d.normalized) == Some(Kept(d.path1, d.url1))
    decreases |m|
  {
    if m != [] {
      var init, x := m[..|m| - 1], m[|m| - 1];
      assert m == init + [x];
      AnalyzeDuplicates(init);
      AnalyzeKeepsFirst(init);
      var a := Analyze(init);
      var nk := NormalizePath(x.0);
      forall d | d in Analyze(m).duplicates
        ensures NormalizePath(d.path2) == d.normalized && FirstEntry(m, d.normalized) == Some(Kept(d.path1, d.url1))
      {
        FirstEntrySnoc(init, x, d.normalized);
      }
    }
  }

  /**
    migrate_image_mapping.py:32-114: a missing or unreadable file yields
    nothing; otherwise the mapping and its analysis.
  */
  method AnalyzeMappingFile(file: MappingFile) returns (mappingData: Option<Mapping>, analysis: Option<Analysis>)
    ensures !file.Stored? ==> mappingData == None && analysis == None
    ensures file.Stored? ==> mappingData == Some(file.entries) && analysis == Some(Analyze(file.entries))
  {
    if !file.Stored? {
      return None, None;
    }
    var m := file.entries;
    var problematicPaths: seq<Problem> := [];
    var duplicates: seq<Duplicate> := [];
    var normalizedMapping: Dict<Kept> := [];
    var i := 0;
    while i < |m|
      invariant 0 <= i <= |m|
      invariant Analysis(problematicPaths, duplicates, normalizedMapping) == Analyze(m[..i])
    {
      assert m[..i + 1][..i] == m[..i];
      assert Analyze(m[..i + 1]) == AnalyzeEntry(Analyze(m[..i]), m[i]);
      var localPath, remoteUrl := m[i].0, m[i].1;
      if MixedSeparators(localPath) {
        problematicPaths := problematicPaths + [Problem(localPath, remoteUrl)];
      }
      var normalizedLocal := NormalizePath(localPath);
      var existing := Get(normalizedMapping, normalizedLocal);
      if existing.Some? {
        duplicates := duplicates + [Duplicate(existing.value.original, localPath, normalizedLocal, existing.value.remoteUrl, remoteUrl)];
      } else {
        normalizedMapping := Put(normalizedMapping, normalizedLocal, Kept(localPath, remoteUrl));
      }
      i := i + 1;
    }
    assert m[..i] == m;
    return Some(m), Some(Analysis(problematicPaths, duplicates, normalizedMapping));
  }

  // ---------------------------------------------------------------------------
  // Plan (migrate_image_mapping.py:116-162)

  /**
    No analysis, no plan. Otherwise: normalise (when there are problems), then
    merge duplicates keeping the first (when there are duplicates), then
    always validate.
  */
  function CreateMigrationPlan(analysis: Option<Analysis>): (plan: Option<Plan>)
    ensures plan.None? <==> analysis.None?
    ensures plan.Some? ==>
              var acts := plan.value.actions;
              plan.value.backupNeeded &&
              |acts| == 1 + (if analysis.value.problematicPaths != [] then 1 else 0)
                          + (if analysis.value.duplicates != [] then 1 else 0) &&
              acts[|acts| - 1] == Validate &&
              (forall i :: 0 <= i < |acts| - 1 ==> !acts[i].Validate?) &&
              (NormalizePaths(analysis.value.problematicPaths) in acts <==> analysis.value.problematicPaths != []) &&
              (HandleDuplicates(analysis.value.duplicates, KeepFirstStrategy) in acts <==> analysis.value.duplicates != []) &&
              (acts[0].HandleDuplicates? ==> analysis.value.problematicPaths == []) &&
              (forall i :: 0 <= i < |acts| ==>
                 acts[i] == NormalizePaths(analysis.value.problematicPaths) ||
                 acts[i] == HandleDuplicates(analysis.value.duplicates, KeepFirstStrategy) ||
                 acts[i] == Validate)
  {
    match analysis
    case None => None
    case Some(a) =>
      var normalize := if a.problematicPaths != [] then [NormalizePaths(a.problematicPaths)] else [];
      var merge := if a.duplicates != [] then [HandleDuplicates(a.duplicates, KeepFirstStrategy)] else [];
      Some(Plan(true, normalize + merge + [Validate]))
  }

  // ---------------------------------------------------------------------------
  // Execution (migrate_image_mapping.py:164-259)

  /** What one entry contributes to the log, given the table built so far. */
  function EntryLog(newMapping: Mapping, e: (string, string)): seq<LogEntry> {
    var nk := NormalizePath(e.0);
    var existing := Get(newMapping, nk);
    if existing.Some? then
      if existing.value != e.1 then [DuplicateConflict(nk, existing.value, e.1, e.0)] else [DuplicateSameUrl(nk, e.1, e.0)]
    else if nk != e.0 then [PathNormalized(e.0, nk, e.1)]
    else []
  }

  function MigrationLog(m: Mapping): seq<LogEntry>
    decreases |m|
  {
    if m == [] then [] else MigrationLog(m[..|m| - 1]) + EntryLog(KeepFirst(m[..|m| - 1]), m[|m| - 1])
  }

  function CountDuplicates(log: seq<LogEntry>): nat {
    if log == [] then 0 else CountDuplicates(log[..|log| - 1]) + (if log[|log| - 1].PathNormalized? then 0 else 1)
  }

  lemma CountDuplicatesAppend(a: seq<LogEntry>, b: seq<LogEntry>)
    ensures CountDuplicates(a + b) == CountDuplicates(a) + CountDuplicates(b)
    decreases |b|
  {
    if b == [] {
      assert a + b == a;
    } else {
      assert (a + b)[..|a + b| - 1] == a + b[..|b| - 1];
      CountDuplicatesAppend(a, b[..|b| - 1]);
    }
  }

  /** Each original entry adds at most one log line; the duplicate lines number exactly the entries the rebuild dropped. */
  lemma {:induction false} MigrationLogCounts(m: Mapping)
    ensures |MigrationLog(m)| <= |m|
    ensures CountDuplicates(MigrationLog(m)) == |m| - |KeepFirst(m)|
    decreases |m|
  {
    if m != [] {
      var init, x := m[..|m| - 1], m[|m| - 1];
      MigrationLogCounts(init);
      KeepFirstSpec(init);
      var kf, nk := KeepFirst(init), NormalizePath(x.0);
      var entry := EntryLog(kf, x);
      CountDuplicatesAppend(MigrationLog(init), entry);
      if Get(kf, nk).Some? {
        assert KeepFirst(m) == kf;
        assert CountDuplicates(entry) == 1;
      } else {
        assert KeepFirst(m) == kf + [(nk, x.1)];
        assert CountDuplicates(entry) == 0;
      }
    }
  }

  /**
    What a log line says is so: a conflict line keeps the first url and
    discards a different one, a same-url line repeats the first url, and a
    normalisation line names a key that changed and the url it kept.
  */
  predicate Truthful(m: Mapping, e: LogEntry) {
    && (e.DuplicateConflict? ==>
          FirstUrl(m, e.path) == Some(e.keptUrl) && e.keptUrl != e.discardedUrl && NormalizePath(e.originalPath) == e.path)
    && (e.DuplicateSameUrl? ==> FirstUrl(m, e.path) == Some(e.url) && NormalizePath(e.originalPath) == e.path)
    && (e.PathNormalized? ==>
          e.normalized == NormalizePath(e.original) && e.normalized != e.original && FirstUrl(m, e.normalized) == Some(e.url))
  }

  lemma TruthfulSnoc(m: Mapping, x: (string, string), e: LogEntry)
    requires Truthful(m, e)
    ensures Truthful(m + [x], e)
  {
    if e.DuplicateConflict? || e.DuplicateSameUrl? {
      FirstUrlSnoc(m, x, e.path);
    } else {
      FirstUrlSnoc(m, x, e.normalized);
    }
  }

  lemma {:induction false} MigrationLogTruthful(m: Mapping)
    ensures forall e :: e in MigrationLog(m) ==> Truthful(m, e)
    decreases |m|
  {
    if m != [] {
      var init, x := m[..|m| - 1], m[|m| - 1];
      assert m == init + [x];
      MigrationLogTruthful(init);
      KeepFirstSpec(init);
      var nk := NormalizePath(x.0);
      FirstUrlSnoc(init, x, nk);
      forall e | e in MigrationLog(m) ensures Truthful(m, e) {
        if e in MigrationLog(init) {
          TruthfulSnoc(init, x, e);
        }
      }
    }
  }

  /**
    The log line for entry `i`, in terms of the urls seen before it: a key
    already taken with a different url logs a conflict keeping the first url,
    one taken with the same url logs a same-url duplicate, a fresh key that
    normalisation changed logs the change, and anything else logs nothing.
  */
  lemma MigrationLogStep(m: Mapping, i: nat)
    requires i < |m|
    ensures var nk := NormalizePath(m[i].0);
            var first := FirstUrl(m[..i], nk);
            MigrationLog(m[..i + 1]) == MigrationLog(m[..i]) +
              (if first.Some? && first.value != m[i].1 then [DuplicateConflict(nk, first.value, m[i].1, m[i].0)]
               else if first.Some? then [DuplicateSameUrl(nk, m[i].1, m[i].0)]
               else if nk != m[i].0 then [PathNormalized(m[i].0, nk, m[i].1)]
               else [])
  {
    assert m[..i + 1][..i] == m[..i];
    assert m[..i + 1][i] == m[i];
    KeepFirstSpec(m[..i]);
  }

  /** A mapping whose keys are all normal already migrates to itself with an empty log. */
  lemma {:induction false} MigrationOfNormalMapping(m: Mapping)
    requires DistinctKeys(m) && NormalKeys(m)
    ensures KeepFirst(m) == m && MigrationLog(m) == []
    decreases |m|
  {
    if m != [] {
      var n := |m| - 1;
      var init, x := m[..n], m[n];
      assert m == init + [x];
      assert forall i :: 0 <= i < n ==> init[i] == m[i];
      MigrationOfNormalMapping(init);
      assert NormalizePath(x.0) == x.0;
      assert x.0 !in Keys(init) by {
        forall i | 0 <= i < n ensures Keys(init)[i] != x.0 {
          assert Keys(init)[i] == m[i].0;
        }
      }
      assert KeepFirst(m) == Put(init, x.0, x.1);
      assert Get(init, x.0) == None;
      assert EntryLog(init, x) == [];
    }
  }

  /**
    migrate_image_mapping.py:164-259. `file` is the mapping file on disk and
    `originalMapping` the mapping read from it. `backupOk`, `restoreOk` and
    `logOk` say whether the backup copy, the restore copy and the log write
    succeed, and `write` how the rewrite ends. The file is only rewritten
    after a successful backup; a failed rewrite is followed by a restore, and
    a failed restore leaves the file as the rewrite left it.
  */
  method ExecuteMigration(file: MappingFile, originalMapping: Mapping, plan: Option<Plan>,
                          backupOk: bool, write: WriteOutcome, restoreOk: bool, logOk: bool)
    returns (ok: bool, newFile: MappingFile, backupFile: Option<MappingFile>, logFile: Option<LogFile>)
    ensures plan.None? || !backupOk ==> !ok && newFile == file && backupFile == None && logFile == None
    ensures plan.Some? && backupOk ==> backupFile == Some(file)
    ensures plan.Some? && backupOk && write.Written? ==>
              ok && newFile == Stored(KeepFirst(originalMapping)) &&
              logFile == (if logOk then Some(LogFile(|originalMapping|, |KeepFirst(originalMapping)|, MigrationLog(originalMapping))) else None)
    ensures plan.Some? && backupOk && !write.Written? ==> !ok && logFile == None
    ensures plan.Some? && backupOk && write.OpenFailed? ==> newFile == file
    ensures plan.Some? && backupOk && write.FailedPartway? ==> newFile == (if restoreOk then file else Damaged)
  {
    if plan.None? {
      return false, file, None, None;
    }
    if !backupOk {
      return false, file, None, None;
    }
    backupFile := Some(file);
    var newMapping: Mapping := [];
    var migrationLog: seq<LogEntry> := [];
    var i := 0;
    while i < |originalMapping|
      invariant 0 <= i <= |originalMapping|
      invariant newMapping == KeepFirst(originalMapping[..i])
      invariant migrationLog == MigrationLog(originalMapping[..i])
    {
      assert originalMapping[..i + 1][..i] == originalMapping[..i];
      var localPath, remoteUrl := originalMapping[i].0, originalMapping[i].1;
      var normalizedLocal := NormalizePath(localPath);
      var existing := Get(newMapping, normalizedLocal);
      if existing.Some? {
        if existing.value != remoteUrl {
          migrationLog := migrationLog + [DuplicateConflict(normalizedLocal, existing.value, remoteUrl, localPath)];
        } else {
          migrationLog := migrationLog + [DuplicateSameUrl(normalizedLocal, remoteUrl, localPath)];
        }
      } else {
        newMapping := Put(newMapping, normalizedLocal, remoteUrl);
        if normalizedLocal != localPath {
          migrationLog := migrationLog + [PathNormalized(localPath, normalizedLocal, remoteUrl)];
        }
      }
      i := i + 1;
    }
    assert originalMapping[..i] == originalMapping;
    if !write.Written? {
      newFile := if restoreOk then file else AfterWrite(file, newMapping, write);
      return false, newFile, backupFile, None;
    }
    newFile := Stored(newMapping);
    logFile := if logOk then Some(LogFile(|originalMapping|, |newMapping|, migrationLog)) else None;
    ok := true;
  }
}

=== FILE: normalize.dfy ===
/**
  `normalize_path`, the canonical form every other component compares paths
  in. The function appears twice in the repository, identically
  (markdown_image_manager.py:57-74 and migrate_image_mapping.py:13-30); it is
  modelled once here.
*/
module PathNormalize {
  import opened Text

  /** No two consecutive slashes. */
  predicate NoDoubleSlash(s: string) {
    forall i :: 0 <= i < |s| - 1 ==> !(s[i] == '/' && s[i + 1] == '/')
  }

  /** Characters 1..2 are `:/`, as in `D:/`: the test `normalized[1:3] == ':/'`. */
  predicate DriveRootPrefix(s: string) {
    |s| >= 3 && s[1] == ':' && s[2] == '/'
  }

  /** `re.sub(r'/+', '/', s)`: every run of slashes becomes one slash. */
  function CollapseSlashes(s: string): (r: string)
    ensures |r| <= |s|
    ensures s != [] ==> r != [] && r[0] == s[0] && r[|r| - 1] == s[|s| - 1]
    ensures forall c :: c in r ==> c in s
    ensures NoDoubleSlash(r)
    decreases |s|
  {
    if |s| < 2 then s
    else if s[0] == '/' && s[1] == '/' then CollapseSlashes(s[1..])
    else [s[0]] + CollapseSlashes(s[1..])
  }

  /** One step of the collapse, read off the front of the string. */
  lemma CollapseCons(c: char, z: string)
    ensures CollapseSlashes([c] + z)
         == if c == '/' && z != [] && z[0] == '/' then CollapseSlashes(z) else [c] + CollapseSlashes(z)
  {
    assert ([c] + z)[1..] == z;
  }

  /** A string without a run of slashes is left alone. */
  lemma {:induction false} CollapseNoop(s: string)
    requires NoDoubleSlash(s)
    ensures CollapseSlashes(s) == s
    decreases |s|
  {
    if |s| >= 2 {
      CollapseNoop(s[1..]);
      assert [s[0]] + s[1..] == s;
    }
  }

  /** `s.rstrip('/')`. */
  function RStripSlashes(s: string): (r: string)
    ensures |r| <= |s| && r == s[..|r|]
    ensures r == [] || r[|r| - 1] != '/'
    decreases |s|
  {
    if s != [] && s[|s| - 1] == '/' then RStripSlashes(s[..|s| - 1]) else s
  }

  /** The slash-conversion step `path.replace('\\\\', '/').replace('\\', '/')`. */
  function Separated(p: string): string {
    ReplaceAll(ReplaceAll(p, "\\\\", "/"), "\\", "/")
  }

  /** The trailing-slash step: strip unless the value is one character or starts with `X:/`. */
  function TrimTrailing(n: string): string {
    if |n| > 1 && n[|n| - 1] == '/' && !DriveRootPrefix(n) then RStripSlashes(n) else n
  }

  /** markdown_image_manager.py:57-74 (= migrate_image_mapping.py:13-30). */
  function NormalizePath(p: string): (r: string)
    ensures p == [] ==> r == []
  {
    if p == [] then p else TrimTrailing(CollapseSlashes(Separated(p)))
  }

  // ---------------------------------------------------------------------------
  // What the conversion step does, character by character

  lemma {:induction false} ReplaceAllChars(s: string, pat: string, rep: string)
    requires pat != []
    ensures forall c :: c in ReplaceAll(s, pat, rep) ==> c in s || c in rep
    decreases |s|
  {
    if s != [] {
      if StartsWith(s, pat) {
        ReplaceAllChars(s[|pat|..], pat, rep);
      } else {
        ReplaceAllChars(s[1..], pat, rep);
      }
    }
  }

  lemma {:induction false} ReplaceAllNonEmpty(s: string, pat: string, rep: string)
    requires pat != [] && rep != []
    ensures s != [] <==> ReplaceAll(s, pat, rep) != []
  {
  }

  /** After the conversion step, a string holds no backslash. */
  lemma SeparatedNoBackslash(p: string)
    ensures '\\' !in Separated(p)
    ensures p != [] ==> Separated(p) != []
  {
    var q := ReplaceAll(p, "\\\\", "/");
    ReplaceAllOneChar(q, '\\', '/');
    ReplaceAllNonEmpty(p, "\\\\", "/");
  }

  lemma NotContainsWithoutFirst(s: string, pat: string)
    requires pat != [] && pat[0] !in s
    ensures !Contains(s, pat)
  {
    forall i | 0 <= i <= |s| - |pat| ensures !OccursAt(s, pat, i) {
      assert s[i..i + |pat|][0] == s[i];
    }
  }

  /** A string without backslashes passes the conversion step unchanged. */
  lemma SeparatedNoop(s: string)
    requires '\\' !in s
    ensures Separated(s) == s
  {
    NotContainsWithoutFirst(s, "\\\\");
    ReplaceAllAbsent(s, "\\\\", "/");
    NotContainsWithoutFirst(s, "\\");
    ReplaceAllAbsent(s, "\\", "/");
  }

  function BackslashToSlash(s: string): string {
    MapChar(s, '\\', '/')
  }

  predicate StartsWithSlash(s: string) {
    s != [] && s[0] == '/'
  }

  lemma BackslashToSlashConcat(a: string, b: string)
    ensures BackslashToSlash(a + b) == BackslashToSlash(a) + BackslashToSlash(b)
  {
  }

  /** Two front strings that collapse alike and agree on a leading slash still do so behind the same character. */
  lemma CollapseSameFront(c: char, x: string, y: string)
    requires CollapseSlashes(x) == CollapseSlashes(y) && (StartsWithSlash(x) <==> StartsWithSlash(y))
    ensures CollapseSlashes([c] + x) == CollapseSlashes([c] + y)
    ensures StartsWithSlash([c] + x) <==> StartsWithSlash([c] + y)
  {
    CollapseCons(c, x);
    CollapseCons(c, y);
  }

  /**
    Replacing `\\` pairs by one slash first and single backslashes after
    gives, once runs are collapsed, what turning every backslash into a
    slash gives.
  */
  lemma {:induction false} PairsThenSinglesCollapse(q: string)
    ensures var x := BackslashToSlash(ReplaceAll(q, "\\\\", "/"));
            var y := BackslashToSlash(q);
            CollapseSlashes(x) == CollapseSlashes(y) && (StartsWithSlash(x) <==> StartsWithSlash(y))
    decreases |q|
  {
    if q == [] {
    } else if StartsWith(q, "\\\\") {
      PairsThenSinglesCollapse(q[2..]);
      PairStep(q);
    } else {
      PairsThenSinglesCollapse(q[1..]);
      SingleStep(q);
    }
  }

  lemma BackslashToSlashCons(c: char, z: string)
    ensures BackslashToSlash([c] + z) == [if c == '\\' then '/' else c] + BackslashToSlash(z)
  {
    BackslashToSlashConcat([c], z);
  }

  lemma PairStep(q: string)
    requires StartsWith(q, "\\\\")
    requires var x := BackslashToSlash(ReplaceAll(q[2..], "\\\\", "/"));
             var y := BackslashToSlash(q[2..]);
             CollapseSlashes(x) == CollapseSlashes(y) && (StartsWithSlash(x) <==> StartsWithSlash(y))
    ensures var x := BackslashToSlash(ReplaceAll(q, "\\\\", "/"));
            var y := BackslashToSlash(q);
            CollapseSlashes(x) == CollapseSlashes(y) && (StartsWithSlash(x) <==> StartsWithSlash(y))
  {
    var t := q[2..];
    var rt := ReplaceAll(t, "\\\\", "/");
    var x' := BackslashToSlash(rt);
    var y' := BackslashToSlash(t);
    assert ReplaceAll(q, "\\\\", "/") == "/" + rt;
    BackslashToSlashCons('/', rt);
    assert q[0] == '\\' && q[1] == '\\' by {
      assert q[..2] == "\\\\";
      assert q[..2][0] == q[0] && q[..2][1] == q[1];
    }
    assert q == [q[0]] + ([q[1]] + t);
    BackslashToSlashCons(q[1], t);
    BackslashToSlashCons(q[0], [q[1]] + t);
    CollapseSameFront('/', x', y');
    CollapseCons('/', ['/'] + y');
  }

  lemma SingleStep(q: string)
    requires q != [] && !StartsWith(q, "\\\\")
    requires var x := BackslashToSlash(ReplaceAll(q[1..], "\\\\", "/"));
             var y := BackslashToSlash(q[1..]);
             CollapseSlashes(x) == CollapseSlashes(y) && (StartsWithSlash(x) <==> StartsWithSlash(y))
    ensures var x := BackslashToSlash(ReplaceAll(q, "\\\\", "/"));
            var y := BackslashToSlash(q);
            CollapseSlashes(x) == CollapseSlashes(y) && (StartsWithSlash(x) <==> StartsWithSlash(y))
  {
    var r := ReplaceAll(q[1..], "\\\\", "/");
    var x', y' := BackslashToSlash(r), BackslashToSlash(q[1..]);
    assert ReplaceAll(q, "\\\\", "/") == [q[0]] + r;
    BackslashToSlashCons(q[0], r);
    assert q == [q[0]] + q[1..];
    BackslashToSlashCons(q[0], q[1..]);
    CollapseSameFront(if q[0] == '\\' then '/' else q[0], x', y');
  }

  /**
    What normalize_path computes, in the words of its comments: every
    backslash becomes a slash, runs of slashes collapse, and the trailing
    slash is stripped unless the value has one character or starts `X:/`.
  */
  lemma NormalizeCharacterization(p: string)
    requires p != []
    ensures NormalizePath(p) == TrimTrailing(CollapseSlashes(BackslashToSlash(p)))
  {
    ReplaceAllOneChar(ReplaceAll(p, "\\\\", "/"), '\\', '/');
    PairsThenSinglesCollapse(p);
  }

  // ---------------------------------------------------------------------------
  // Properties of the result

  /** The result has no backslash and no run of slashes. */
  lemma NormalizeClean(p: string)
    ensures '\\' !in NormalizePath(p)
    ensures NoDoubleSlash(NormalizePath(p))
  {
    if p != [] {
      SeparatedNoBackslash(p);
      var n := CollapseSlashes(Separated(p));
      var r := RStripSlashes(n);
      assert r == n[..|r|];
      assert forall c :: c in r ==> c in n;
    }
  }

  /** A trailing slash survives only on a one-character value or behind `X:/`. */
  lemma NormalizeTrailingSlash(p: string)
    ensures var r := NormalizePath(p);
            |r| > 1 && r[|r| - 1] == '/' ==> DriveRootPrefix(r)
  {
  }

  /** Stripping happens exactly when the collapsed value is longer than one, ends in `/`, and does not start `X:/`. */
  lemma NormalizeStripsIff(p: string)
    requires p != []
    ensures var n := CollapseSlashes(Separated(p));
            NormalizePath(p) != n <==> |n| > 1 && n[|n| - 1] == '/' && !DriveRootPrefix(n)
  {
  }

  /** normalize_path is idempotent. */
  lemma NormalizeIdempotent(p: string)
    ensures NormalizePath(NormalizePath(p)) == NormalizePath(p)
  {
    var r := NormalizePath(p);
    NormalizeClean(p);
    if r != [] {
      SeparatedNoop(r);
      CollapseNoop(r);
      assert NormalizePath(r) == TrimTrailing(r);
    }
  }

  /** Any already clean path that starts `X:/` keeps its trailing slash (`D:/folder/subfolder/` stays as it is). */
  lemma DrivePathKeepsTrailingSlash(p: string)
    requires '\\' !in p && NoDoubleSlash(p) && DriveRootPrefix(p)
    ensures NormalizePath(p) == p
  {
    SeparatedNoop(p);
    CollapseNoop(p);
  }

  /** The single slash `/` stays `/`, and a drive root `X:/` stays as it is. */
  lemma RootsKept(d: char)
    requires !IsSep(d)
    ensures NormalizePath("/") == "/"
    ensures NormalizePath([d, ':', '/']) == [d, ':', '/']
  {
    SeparatedNoop("/");
    DrivePathKeepsTrailingSlash([d, ':', '/']);
  }

  /** A path ending in one slash that does not start `X:/` loses exactly that slash. */
  lemma TrailingSlashStripped(p: string)
    requires '\\' !in p && NoDoubleSlash(p) && |p| > 1 && p[|p| - 1] == '/' && !DriveRootPrefix(p)
    ensures NormalizePath(p) == p[..|p| - 1]
  {
    SeparatedNoop(p);
    CollapseNoop(p);
    var q := p[..|p| - 1];
    assert q[|q| - 1] == p[|p| - 2] != '/';
    assert RStripSlashes(p) == RStripSlashes(q) == q;
  }
}

=== FILE: resolver.dfy ===
/**
  How the smart fixer finds the catalogue image an invalid reference meant:
  the filename index (markdown_image_manager.py:1088-1093), the best-path
  ranking among same-named candidates (1381-1414), the search by decoded path
  (1416-1462) and the order in which the strategies are tried (1127-1329).
  `difflib.SequenceMatcher.ratio` and `urllib.parse.unquote` are parameters.
*/
module Resolver {
  import opened Wrappers
  import opened Text
  import opened Dicts

  /**
    The library functions the resolver calls: the similarity ratio of two
    strings and of two lists of path segments, percent-decoding, and
    `os.path.relpath` (None when it raises, as across drives).
  */
  datatype Oracles = Oracles(
    nameRatio: (string, string) -> real,
    partsRatio: (seq<string>, seq<string>) -> real,
    unquote: string -> string,
    relpath: (string, string) -> Option<string>)

  /**
    `os.path.basename(p).lower()`: the key of the filename index, read off the
    end of `p`. It is defined directly rather than as `Lower(Basename(p))`
    because the composition is expensive for the solver in every proof that
    unfolds it; FilenameKeyIsLowerBasename shows the two agree.
  */
  function FilenameKey(p: string): string
    decreases |p|
  {
    if p == [] || IsSep(p[|p| - 1]) then [] else FilenameKey(p[..|p| - 1]) + [LowerChar(p[|p| - 1])]
  }

  /** The key of a path that ends in a separator-free name after a separator (or nothing) is that name, lower-cased. */
  lemma {:induction false} FilenameKeyOfName(dir: string, name: string)
    requires dir == [] || IsSep(dir[|dir| - 1])
    requires forall k :: 0 <= k < |name| ==> !IsSep(name[k])
    ensures FilenameKey(dir + name) == Lower(name)
    decreases |name|
  {
    if name == [] {
      assert dir + name == dir;
    } else {
      var init := name[..|name| - 1];
      assert (dir + name)[..|dir + name| - 1] == dir + init;
      FilenameKeyOfName(dir, init);
      assert Lower(name) == Lower(init) + [LowerChar(name[|name| - 1])];
    }
  }

  /** `Été.png` lower-cases to `été.png`. */
  lemma LowerAccentedName()
    ensures Lower("\U{00C9}t\U{00E9}.png") == "\U{00E9}t\U{00E9}.png"
  {
  }

  /**
    An accented capital folds as `str.lower` folds it: `Été.png` in any
    folder (such as `C:/img/`) has the key `été.png`, the key of a bare
    reference `été.png`, so the one resolves to the other.
  */
  lemma AccentedFilenameKey(dir: string)
    requires dir == [] || IsSep(dir[|dir| - 1])
    ensures FilenameKey(dir + "\U{00C9}t\U{00E9}.png") == "\U{00E9}t\U{00E9}.png"
  {
    FilenameKeyOfName(dir, "\U{00C9}t\U{00E9}.png");
    LowerAccentedName();
  }

  lemma {:induction false} FilenameKeyIsLowerBasename(p: string)
    ensures FilenameKey(p) == Lower(Basename(p))
    decreases |p|
  {
    if p != [] && !IsSep(p[|p| - 1]) {
      FilenameKeyIsLowerBasename(p[..|p| - 1]);
      assert Basename(p) == Basename(p[..|p| - 1]) + [p[|p| - 1]];
    }
  }

  /** `p.replace('\\', '/').split('/')`. */
  function Parts(p: string): seq<string> {
    SplitSlash(Slashed(p))
  }

  // ---------------------------------------------------------------------------
  // The filename index (markdown_image_manager.py:1088-1093)

  type Index = Dict<seq<string>>

  function FilenameIndex(catalogue: seq<string>): Index
    decreases |catalogue|
  {
    if catalogue == [] then []
    else
      var idx := FilenameIndex(catalogue[..|catalogue| - 1]);
      var p := catalogue[|catalogue| - 1];
      var bucket := Get(idx, FilenameKey(p));
      Put(idx, FilenameKey(p), (if bucket.Some? then bucket.value else []) + [p])
  }

  /** Reference: the catalogue paths with key `k`, in catalogue order. */
  function Named(catalogue: seq<string>, k: string): seq<string>
    decreases |catalogue|
  {
    if catalogue == [] then []
    else (if FilenameKey(catalogue[0]) == k then [catalogue[0]] else []) + Named(catalogue[1..], k)
  }

  lemma {:induction false} NamedSnoc(catalogue: seq<string>, p: string, k: string)
    ensures Named(catalogue + [p], k) == Named(catalogue, k) + (if FilenameKey(p) == k then [p] else [])
    decreases |catalogue|
  {
    if catalogue != [] {
      assert (catalogue + [p])[1..] == catalogue[1..] + [p];
      NamedSnoc(catalogue[1..], p, k);
    }
  }

  lemma {:induction false} NamedMember(catalogue: seq<string>, p: string)
    requires p in catalogue
    ensures p in Named(catalogue, FilenameKey(p))
    decreases |catalogue|
  {
    if catalogue[0] != p {
      NamedMember(catalogue[1..], p);
    }
  }

  /**
    The index has one entry per distinct key; under each key it lists,
    in catalogue order, exactly the catalogue paths with that key.
  */
  lemma {:induction false} FilenameIndexSpec(catalogue: seq<string>)
    ensures DistinctKeys(FilenameIndex(catalogue))
    ensures forall k :: Get(FilenameIndex(catalogue), k) == if Named(catalogue, k) == [] then None else Some(Named(catalogue, k))
    decreases |catalogue|
  {
    if catalogue != [] {
      var init, p := catalogue[..|catalogue| - 1], catalogue[|catalogue| - 1];
      assert catalogue == init + [p];
      FilenameIndexSpec(init);
      var idx, key := FilenameIndex(init), FilenameKey(p);
      var bucket := Get(idx, key);
      var paths := (if bucket.Some? then bucket.value else []) + [p];
      assert FilenameIndex(catalogue) == Put(idx, key, paths);
      forall k ensures Get(FilenameIndex(catalogue), k) == if Named(catalogue, k) == [] then None else Some(Named(catalogue, k)) {
        NamedSnoc(init, p, k);
        if k == key {
          assert Named(catalogue, k) == Named(init, k) + [p];
          assert paths == Named(init, k) + [p];
        } else {
          assert Named(catalogue, k) == Named(init, k);
        }
      }
    }
  }

  /** Every catalogue path sits in the list under its own lower-cased basename. */
  lemma FilenameIndexCovers(catalogue: seq<string>, p: string)
    requires p in catalogue
    ensures Get(FilenameIndex(catalogue), FilenameKey(p)).Some?
    ensures p in Get(FilenameIndex(catalogue), FilenameKey(p)).value
  {
    FilenameIndexSpec(catalogue);
    NamedMember(catalogue, p);
  }

  /** markdown_image_manager.py:1088-1093. */
  method BuildFilenameIndex(catalogue: seq<string>) returns (filenameToPaths: Index)
    ensures filenameToPaths == FilenameIndex(catalogue)
  {
    filenameToPaths := [];
    var i := 0;
    while i < |catalogue|
      invariant 0 <= i <= |catalogue|
      invariant filenameToPaths == FilenameIndex(catalogue[..i])
    {
      assert catalogue[..i + 1][..i] == catalogue[..i];
      var imgPath := catalogue[i];
      var filename := FilenameKey(imgPath);
      var bucket := Get(filenameToPaths, filename);
      var paths := if bucket.Some? then bucket.value else [];
      filenameToPaths := Put(filenameToPaths, filename, paths + [imgPath]);
      i := i + 1;
    }
    assert catalogue[..i] == catalogue;
  }

  // ---------------------------------------------------------------------------
  // Running leader with strict improvement, shared by both rankings

  /** The best score so far (starting at 0) and the candidate that set it. */
  datatype Leader = Leader(score: real, best: Option<string>)

  /**
    The scan `if score > best_score: best_score, best_match = score, c`, where
    a candidate the ranking skips has no score.
  */
  function Lead(cs: seq<string>, score: string -> Option<real>): Leader
    decreases |cs|
  {
    if cs == [] then Leader(0.0, None)
    else Challenge(Lead(cs[..|cs| - 1], score), cs[|cs| - 1], score(cs[|cs| - 1]))
  }

  /** One step of the scan: a scored candidate beating the leader takes over. */
  function Challenge(l: Leader, c: string, s: Option<real>): Leader {
    if s.Some? && s.value > l.score then Leader(s.value, Some(c)) else l
  }

  lemma LeadPrefix(cs: seq<string>, score: string -> Option<real>, i: int)
    requires 0 <= i < |cs|
    ensures Lead(cs[..i + 1], score) == Challenge(Lead(cs[..i], score), cs[i], score(cs[i]))
  {
    assert cs[..i + 1][..i] == cs[..i];
  }

  /** `best_match if best_score > 0.9 else None`. */
  function Accepted(l: Leader): Option<string> {
    if l.score > 0.9 then l.best else None
  }

  predicate Scored(cs: seq<string>, score: string -> Option<real>, j: int) {
    0 <= j < |cs| && score(cs[j]).Some?
  }

  /** `cs[i]` has the largest score, and every earlier candidate a strictly smaller one. */
  predicate FirstMaximum(cs: seq<string>, score: string -> Option<real>, i: int) {
    && Scored(cs, score, i)
    && (forall j :: 0 <= j < i && Scored(cs, score, j) ==> score(cs[j]).value < score(cs[i]).value)
    && (forall j :: i < j < |cs| && Scored(cs, score, j) ==> score(cs[j]).value <= score(cs[i]).value)
  }

  lemma {:induction false} LeadSpec(cs: seq<string>, score: string -> Option<real>)
    ensures Lead(cs, score).score >= 0.0
    ensures forall j :: Scored(cs, score, j) ==> score(cs[j]).value <= Lead(cs, score).score
    ensures Lead(cs, score).best.None? ==> Lead(cs, score).score == 0.0
    ensures Lead(cs, score).best.Some? ==>
              exists i :: FirstMaximum(cs, score, i) && cs[i] == Lead(cs, score).best.value &&
                          score(cs[i]).value == Lead(cs, score).score
    decreases |cs|
  {
    if cs != [] {
      var init, c := cs[..|cs| - 1], cs[|cs| - 1];
      LeadSpec(init, score);
      var l := Lead(init, score);
      assert forall j :: 0 <= j < |init| ==> init[j] == cs[j];
      if score(c).Some? && score(c).value > l.score {
        assert FirstMaximum(cs, score, |cs| - 1);
      } else if l.best.Some? {
        var i :| FirstMaximum(init, score, i) && init[i] == l.best.value && score(init[i]).value == l.score;
        assert FirstMaximum(cs, score, i);
      }
    }
  }

  /**
    A ranking accepts a candidate iff some candidate scores above 0.9, and
    what it accepts is the first candidate with the highest score.
  */
  lemma AcceptedSpec(cs: seq<string>, score: string -> Option<real>)
    ensures Accepted(Lead(cs, score)).Some? <==> exists j :: Scored(cs, score, j) && score(cs[j]).value > 0.9
    ensures Accepted(Lead(cs, score)).Some? ==>
              exists i :: FirstMaximum(cs, score, i) && cs[i] == Accepted(Lead(cs, score)).value && score(cs[i]).value > 0.9
  {
    LeadSpec(cs, score);
  }

  // ---------------------------------------------------------------------------
  // find_best_path_match (markdown_image_manager.py:1381-1414)

  function NameSimilarity(o: Oracles, a: string, b: string): real {
    o.nameRatio(FilenameKey(a), FilenameKey(b))
  }

  function PathSimilarity(o: Oracles, a: string, b: string): real {
    o.partsRatio(Parts(a), Parts(b))
  }

  /** A candidate is ranked only if its filename is at least 95% similar; then by 0.8 name + 0.2 path. */
  function PathScore(o: Oracles, invalidPath: string): string -> Option<real> {
    c =>
      var fs := NameSimilarity(o, invalidPath, c);
      if fs < 0.95 then None else Some(fs * 0.8 + PathSimilarity(o, invalidPath, c) * 0.2)
  }

  function BestPathMatch(o: Oracles, invalidPath: string, candidates: seq<string>): Option<string> {
    Accepted(Lead(candidates, PathScore(o, invalidPath)))
  }

  /** A filename at least 95% similar and a combined score above 0.9. */
  predicate Qualifies(o: Oracles, invalidPath: string, c: string) {
    NameSimilarity(o, invalidPath, c) >= 0.95 &&
    NameSimilarity(o, invalidPath, c) * 0.8 + PathSimilarity(o, invalidPath, c) * 0.2 > 0.9
  }

  /**
    The best path match is None or a candidate whose filename is at least 95%
    similar and whose combined score exceeds 0.9; one exists iff some
    candidate qualifies; it is the first candidate of highest combined score.
  */
  lemma BestPathMatchSpec(o: Oracles, invalidPath: string, candidates: seq<string>)
    ensures var r := BestPathMatch(o, invalidPath, candidates);
            && (r.Some? <==> exists j :: 0 <= j < |candidates| && Qualifies(o, invalidPath, candidates[j]))
            && (r.Some? ==> exists i :: FirstMaximum(candidates, PathScore(o, invalidPath), i) && candidates[i] == r.value &&
                                        Qualifies(o, invalidPath, r.value))
  {
    var score := PathScore(o, invalidPath);
    AcceptedSpec(candidates, score);
    if exists j :: 0 <= j < |candidates| && Qualifies(o, invalidPath, candidates[j]) {
      var j :| 0 <= j < |candidates| && Qualifies(o, invalidPath, candidates[j]);
      assert Scored(candidates, score, j);
    }
  }

  /** The path-segment similarity to `invalidPath`, as a ranking key. */
  function PathSimilarityTo(o: Oracles, invalidPath: string): string -> real {
    c => PathSimilarity(o, invalidPath, c)
  }

  /** `cs[i]` has the largest key, and every earlier candidate a strictly smaller one. */
  predicate FirstBest(cs: seq<string>, key: string -> real, i: int) {
    && 0 <= i < |cs|
    && (forall j :: 0 <= j < i ==> key(cs[j]) < key(cs[i]))
    && (forall j :: 0 <= j < |cs| ==> key(cs[j]) <= key(cs[i]))
  }

  /** A ranking whose every score is 0.8 + 0.2 * key accepts exactly when some key exceeds 0.5. */
  lemma AffineAcceptance(cs: seq<string>, score: string -> Option<real>, key: string -> real)
    requires forall j :: 0 <= j < |cs| ==> score(cs[j]) == Some(0.8 + key(cs[j]) * 0.2)
    ensures var r := Accepted(Lead(cs, score));
            && (r.Some? <==> exists j :: 0 <= j < |cs| && key(cs[j]) > 0.5)
            && (r.Some? ==> exists i :: FirstBest(cs, key, i) && cs[i] == r.value)
  {
    AcceptedSpec(cs, score);
    var r := Accepted(Lead(cs, score));
    if exists j :: 0 <= j < |cs| && key(cs[j]) > 0.5 {
      var j :| 0 <= j < |cs| && key(cs[j]) > 0.5;
      assert Scored(cs, score, j);
    }
    if r.Some? {
      var i :| FirstMaximum(cs, score, i) && cs[i] == r.value && score(cs[i]).value > 0.9;
      FirstMaximumAffine(cs, score, key, i);
    }
  }

  lemma FirstMaximumAffine(cs: seq<string>, score: string -> Option<real>, key: string -> real, i: int)
    requires forall j :: 0 <= j < |cs| ==> score(cs[j]) == Some(0.8 + key(cs[j]) * 0.2)
    requires FirstMaximum(cs, score, i)
    ensures FirstBest(cs, key, i)
  {
    forall j | 0 <= j < |cs|
      ensures key(cs[j]) <= key(cs[i])
      ensures j < i ==> key(cs[j]) < key(cs[i])
    {
      assert Scored(cs, score, j);
    }
  }

  /**
    As called from the smart fixer, every candidate has the invalid path's
    own filename, so (with the ratio of a name to itself being 1) a candidate
    is accepted iff its path-segment similarity exceeds 0.5, and the chosen
    one has the highest path similarity, first among equals.
  */
  lemma SameNameAcceptance(o: Oracles, invalidPath: string, candidates: seq<string>)
    requires forall j :: 0 <= j < |candidates| ==> FilenameKey(candidates[j]) == FilenameKey(invalidPath)
    requires o.nameRatio(FilenameKey(invalidPath), FilenameKey(invalidPath)) == 1.0
    ensures var r := BestPathMatch(o, invalidPath, candidates);
            && (r.Some? <==> exists j :: 0 <= j < |candidates| && PathSimilarityTo(o, invalidPath)(candidates[j]) > 0.5)
            && (r.Some? ==> exists i :: FirstBest(candidates, PathSimilarityTo(o, invalidPath), i) && candidates[i] == r.value)
  {
    var score, key := PathScore(o, invalidPath), PathSimilarityTo(o, invalidPath);
    forall j | 0 <= j < |candidates| ensures score(candidates[j]) == Some(0.8 + key(candidates[j]) * 0.2) {
      SameNameScore(o, invalidPath, candidates[j]);
    }
    AffineAcceptance(candidates, score, key);
  }

  /** A candidate with the same filename key scores 0.8 plus a fifth of its path similarity. */
  lemma SameNameScore(o: Oracles, invalidPath: string, c: string)
    requires FilenameKey(c) == FilenameKey(invalidPath)
    requires o.nameRatio(FilenameKey(invalidPath), FilenameKey(invalidPath)) == 1.0
    ensures PathScore(o, invalidPath)(c) == Some(0.8 + PathSimilarityTo(o, invalidPath)(c) * 0.2)
  {
    assert NameSimilarity(o, invalidPath, c) == 1.0;
  }

  /** markdown_image_manager.py:1381-1414. */
  method FindBestPathMatch(o: Oracles, invalidPath: string, candidates: seq<string>) returns (r: Option<string>)
    ensures r == BestPathMatch(o, invalidPath, candidates)
  {
    var invalidParts := Parts(invalidPath);
    var invalidFilename := FilenameKey(invalidPath);
    var bestScore: real := 0.0;
    var bestMatch: Option<string> := None;
    var i := 0;
    while i < |candidates|
      invariant 0 <= i <= |candidates|
      invariant Leader(bestScore, bestMatch) == Lead(candidates[..i], PathScore(o, invalidPath))
    {
      assert candidates[..i + 1][..i] == candidates[..i];
      var candidate := candidates[i];
      var filenameSimilarity := o.nameRatio(invalidFilename, FilenameKey(candidate));
      if filenameSimilarity >= 0.95 {
        var pathSimilarity := o.partsRatio(invalidParts, Parts(candidate));
        var combinedScore := filenameSimilarity * 0.8 + pathSimilarity * 0.2;
        if combinedScore > bestScore {
          bestScore := combinedScore;
          bestMatch := Some(candidate);
        }
      }
      i := i + 1;
    }
    assert candidates[..i] == candidates;
    r := if bestScore > 0.9 then bestMatch else None;
  }

  // ---------------------------------------------------------------------------
  // find_decoded_path_match (markdown_image_manager.py:1416-1462)

  /** The index of the first element satisfying `p`, if any. */
  function FirstSuch(s: seq<string>, p: string -> bool): (r: Option<nat>)
    ensures r.Some? ==> r.value < |s| && p(s[r.value]) && forall j :: 0 <= j < r.value ==> !p(s[j])
    ensures r.None? ==> forall j :: 0 <= j < |s| ==> !p(s[j])
    decreases |s|
  {
    if s == [] then None
    else if p(s[0]) then Some(0)
    else
      var rest := FirstSuch(s[1..], p);
      if rest.Some? then Some(rest.value + 1) else None
  }

  function FoldChar(c: char): char {
    LowerChar(if c == '\\' then '/' else c)
  }

  /**
    `p.replace('\\', '/').lower()`, character by character from the end;
    defined directly for the same reason as FilenameKey, and shown equal to
    `Lower(Slashed(p))` by FoldedIsLowerSlashed.
  */
  function Folded(p: string): (r: string)
    ensures |r| == |p|
    decreases |p|
  {
    if p == [] then [] else Folded(p[..|p| - 1]) + [FoldChar(p[|p| - 1])]
  }

  lemma {:induction false} FoldedIsLowerSlashed(p: string)
    ensures Folded(p) == Lower(Slashed(p))
    decreases |p|
  {
    if p != [] {
      FoldedIsLowerSlashed(p[..|p| - 1]);
      assert Slashed(p)[..|p| - 1] == Slashed(p[..|p| - 1]);
      assert Lower(Slashed(p)) == Lower(Slashed(p[..|p| - 1])) + [FoldChar(p[|p| - 1])];
    }
  }

  /** Equal folded filenames; the folded basename of `f` is its filename key (FoldedBasename). */
  function SameFilename(decodedFilename: string): string -> bool {
    f => FilenameKey(f) == decodedFilename
  }

  /** Equal folded paths, or containment with lengths within 80% of each other. */
  predicate ImmediateMatch(decodedNormalized: string, n: string) {
    decodedNormalized == n ||
    ((Contains(n, decodedNormalized) || EndsWith(n, decodedNormalized)) &&
     (if |decodedNormalized| < |n| then |decodedNormalized| else |n|) as real
       / (if |decodedNormalized| < |n| then |n| else |decodedNormalized|) as real > 0.8)
  }

  /** Filename similarity, counted only above 0.9. */
  function NameScore(o: Oracles, decodedFilename: string): string -> Option<real> {
    f =>
      var fs := o.nameRatio(decodedFilename, FilenameKey(f));
      if fs > 0.9 then Some(fs) else None
  }

  /** Where the second scan of the decoded search stands: a file matched immediately, or the running leader. */
  datatype PathScanState = Found(file: string) | Ranking(leader: Leader)

  /**
    The second scan over `files` in order: it stops at the first file whose
    folded path matches immediately, and otherwise ranks filenames.
  */
  function PathScan(o: Oracles, decodedNormalized: string, decodedFilename: string, files: seq<string>): PathScanState
    decreases |files|
  {
    if files == [] then Ranking(Leader(0.0, None))
    else
      var st := PathScan(o, decodedNormalized, decodedFilename, files[..|files| - 1]);
      var f := files[|files| - 1];
      if st.Found? then st
      else if ImmediateMatch(decodedNormalized, Folded(f)) then Found(f)
      else Ranking(Challenge(st.leader, f, NameScore(o, decodedFilename)(f)))
  }

  /** The first scan, then the second; the first that finds something wins. */
  function DecodedPathMatch(o: Oracles, decodedPath: string, files: seq<string>): Option<string> {
    var decodedNormalized := Folded(decodedPath);
    var decodedFilename := FilenameKey(decodedPath);
    var exact := FirstSuch(files, SameFilename(decodedFilename));
    if exact.Some? then Some(files[exact.value])
    else
      var scan := PathScan(o, decodedNormalized, decodedFilename, files);
      if scan.Found? then Some(scan.file) else Accepted(scan.leader)
  }

  /** `files[i]` satisfies `p` and no earlier file does. */
  predicate FirstWith(files: seq<string>, p: string -> bool, i: int) {
    0 <= i < |files| && p(files[i]) && forall j :: 0 <= j < i ==> !p(files[j])
  }

  lemma FirstSuchAt(files: seq<string>, p: string -> bool, i: int)
    requires FirstWith(files, p, i)
    ensures FirstSuch(files, p) == Some(i)
  {
  }

  /** `files[i]` is the first file whose folded path matches immediately. */
  predicate FirstImmediate(files: seq<string>, decodedNormalized: string, i: int) {
    && 0 <= i < |files|
    && ImmediateMatch(decodedNormalized, Folded(files[i]))
    && forall j :: 0 <= j < i ==> !ImmediateMatch(decodedNormalized, Folded(files[j]))
  }

  /**
    The second scan finds the first immediately matching file when there is
    one; when there is none it ends with the ranking of all the files by
    filename similarity.
  */
  lemma {:induction false} PathScanSpec(o: Oracles, decodedNormalized: string, decodedFilename: string, files: seq<string>)
    ensures var st := PathScan(o, decodedNormalized, decodedFilename, files);
            && (st.Found? ==> exists i :: FirstImmediate(files, decodedNormalized, i) && st.file == files[i])
            && (st.Ranking? ==> forall j :: 0 <= j < |files| ==> !ImmediateMatch(decodedNormalized, Folded(files[j])))
            && (st.Ranking? ==> st.leader == Lead(files, NameScore(o, decodedFilename)))
    decreases |files|
  {
    if files != [] {
      var init, f := files[..|files| - 1], files[|files| - 1];
      PathScanSpec(o, decodedNormalized, decodedFilename, init);
      var st := PathScan(o, decodedNormalized, decodedFilename, init);
      assert forall j :: 0 <= j < |init| ==> init[j] == files[j];
      if st.Found? {
        var i :| FirstImmediate(init, decodedNormalized, i) && st.file == init[i];
        assert FirstImmediate(files, decodedNormalized, i);
      } else if ImmediateMatch(decodedNormalized, Folded(f)) {
        assert FirstImmediate(files, decodedNormalized, |files| - 1);
      }
    }
  }

  /** Once the scan has found a file, the files after it change nothing. */
  lemma {:induction false} FoundPersists(o: Oracles, decodedNormalized: string, decodedFilename: string, files: seq<string>, k: int)
    requires 0 <= k <= |files| && PathScan(o, decodedNormalized, decodedFilename, files[..k]).Found?
    ensures PathScan(o, decodedNormalized, decodedFilename, files) == PathScan(o, decodedNormalized, decodedFilename, files[..k])
    decreases |files|
  {
    if k < |files| {
      var init := files[..|files| - 1];
      assert init[..k] == files[..k];
      FoundPersists(o, decodedNormalized, decodedFilename, init, k);
    } else {
      assert files[..k] == files;
    }
  }

  lemma PathScanPrefix(o: Oracles, decodedNormalized: string, decodedFilename: string, files: seq<string>, i: int)
    requires 0 <= i < |files|
    ensures var st := PathScan(o, decodedNormalized, decodedFilename, files[..i]);
            PathScan(o, decodedNormalized, decodedFilename, files[..i + 1]) ==
              if st.Found? then st
              else if ImmediateMatch(decodedNormalized, Folded(files[i])) then Found(files[i])
              else Ranking(Challenge(st.leader, files[i], NameScore(o, decodedFilename)(files[i])))
  {
    assert files[..i + 1][..i] == files[..i];
  }

  /** Stage one: the first file with the decoded path's filename, when there is one. */
  lemma DecodedExactStage(o: Oracles, decodedPath: string, files: seq<string>, i: int)
    requires FirstWith(files, SameFilename(FilenameKey(decodedPath)), i)
    ensures DecodedPathMatch(o, decodedPath, files) == Some(files[i])
  {
    FirstSuchAt(files, SameFilename(FilenameKey(decodedPath)), i);
  }

  /** Stage two: otherwise the first file that matches the folded path immediately. */
  lemma DecodedImmediateStage(o: Oracles, decodedPath: string, files: seq<string>, i: int)
    requires forall j :: 0 <= j < |files| ==> !SameFilename(FilenameKey(decodedPath))(files[j])
    requires FirstImmediate(files, Folded(decodedPath), i)
    ensures DecodedPathMatch(o, decodedPath, files) == Some(files[i])
  {
    var dn, df := Folded(decodedPath), FilenameKey(decodedPath);
    PathScanSpec(o, dn, df, files);
    var st := PathScan(o, dn, df, files);
    if st.Found? {
      var k :| FirstImmediate(files, dn, k) && st.file == files[k];
      assert k == i;
    }
  }

  /** Stage three: otherwise the ranking by filename similarity. */
  lemma DecodedRankedStage(o: Oracles, decodedPath: string, files: seq<string>)
    requires forall j :: 0 <= j < |files| ==> !SameFilename(FilenameKey(decodedPath))(files[j])
    requires forall j :: 0 <= j < |files| ==> !ImmediateMatch(Folded(decodedPath), Folded(files[j]))
    ensures DecodedPathMatch(o, decodedPath, files) == Accepted(Lead(files, NameScore(o, FilenameKey(decodedPath))))
  {
    var dn, df := Folded(decodedPath), FilenameKey(decodedPath);
    PathScanSpec(o, dn, df, files);
  }

  /**
    The decoded search tries, in order: the first file with the same folded
    basename; the first file whose folded path equals, or contains with
    comparable length, the folded decoded path; the first file of highest
    filename similarity above 0.9; and otherwise gives up.
  */
  lemma DecodedPathMatchSpec(o: Oracles, decodedPath: string, files: seq<string>)
    ensures var r := DecodedPathMatch(o, decodedPath, files);
            var same := SameFilename(FilenameKey(decodedPath));
            var dn := Folded(decodedPath);
            && (r.Some? ==> r.value in files)
            && ((exists i :: 0 <= i < |files| && same(files[i])) ==>
                  exists i :: FirstWith(files, same, i) && r == Some(files[i]))
            && ((forall j :: 0 <= j < |files| ==> !same(files[j])) &&
                (exists i :: 0 <= i < |files| && ImmediateMatch(dn, Folded(files[i]))) ==>
                  exists i :: FirstImmediate(files, dn, i) && r == Some(files[i]))
  {
    var dn, df := Folded(decodedPath), FilenameKey(decodedPath);
    var same := SameFilename(df);
    var exact := FirstSuch(files, same);
    if exact.Some? {
      assert FirstWith(files, same, exact.value);
    } else {
      PathScanSpec(o, dn, df, files);
      var st := PathScan(o, dn, df, files);
      if st.Found? {
        var k :| FirstImmediate(files, dn, k) && st.file == files[k];
      } else {
        AcceptedSpec(files, NameScore(o, df));
      }
    }
  }

  /**
    When neither of the first two stages finds a file, the search returns a
    file iff some filename is more than 90% similar, and then the first one
    of highest similarity.
  */
  lemma DecodedRankedSpec(o: Oracles, decodedPath: string, files: seq<string>)
    requires forall j :: 0 <= j < |files| ==> !SameFilename(FilenameKey(decodedPath))(files[j])
    requires forall j :: 0 <= j < |files| ==> !ImmediateMatch(Folded(decodedPath), Folded(files[j]))
    ensures var r := DecodedPathMatch(o, decodedPath, files);
            var df := FilenameKey(decodedPath);
            && (r.Some? <==> exists j :: 0 <= j < |files| && o.nameRatio(df, FilenameKey(files[j])) > 0.9)
            && (r.Some? ==> exists i :: FirstMaximum(files, NameScore(o, df), i) && files[i] == r.value)
  {
    var df := FilenameKey(decodedPath);
    DecodedRankedStage(o, decodedPath, files);
    AcceptedSpec(files, NameScore(o, df));
    if exists j :: 0 <= j < |files| && o.nameRatio(df, FilenameKey(files[j])) > 0.9 {
      var j :| 0 <= j < |files| && o.nameRatio(df, FilenameKey(files[j])) > 0.9;
      assert Scored(files, NameScore(o, df), j);
    }
  }

  /** markdown_image_manager.py:1416-1462. */
  method FindDecodedPathMatch(o: Oracles, decodedPath: string, imageFiles: seq<string>) returns (r: Option<string>)
    ensures r == DecodedPathMatch(o, decodedPath, imageFiles)
  {
    var decodedNormalized := Folded(decodedPath);
    var decodedFilename := Basename(decodedNormalized);
    FoldedBasename(decodedPath);
    var exact := ScanSameFilename(decodedFilename, imageFiles);
    if exact.Some? {
      return Some(imageFiles[exact.value]);
    }
    r := ScanPaths(o, decodedNormalized, decodedFilename, imageFiles);
  }

  /** The first loop of the decoded search: the first file with the same folded basename. */
  method ScanSameFilename(decodedFilename: string, imageFiles: seq<string>) returns (found: Option<nat>)
    ensures found == FirstSuch(imageFiles, SameFilename(decodedFilename))
  {
    var i := 0;
    while i < |imageFiles|
      invariant 0 <= i <= |imageFiles|
      invariant forall j :: 0 <= j < i ==> !SameFilename(decodedFilename)(imageFiles[j])
    {
      var imgNormalized := Folded(imageFiles[i]);
      var imgFilename := Basename(imgNormalized);
      FoldedBasename(imageFiles[i]);
      if decodedFilename == imgFilename {
        FirstSuchAt(imageFiles, SameFilename(decodedFilename), i);
        return Some(i);
      }
      i := i + 1;
    }
    return None;
  }

  /** The second loop of the decoded search. */
  method ScanPaths(o: Oracles, decodedNormalized: string, decodedFilename: string, imageFiles: seq<string>)
    returns (r: Option<string>)
    ensures var st := PathScan(o, decodedNormalized, decodedFilename, imageFiles);
            r == if st.Found? then Some(st.file) else Accepted(st.leader)
  {
    var bestScore: real := 0.0;
    var bestMatch: Option<string> := None;
    var i := 0;
    while i < |imageFiles|
      invariant 0 <= i <= |imageFiles|
      invariant PathScan(o, decodedNormalized, decodedFilename, imageFiles[..i]) == Ranking(Leader(bestScore, bestMatch))
    {
      PathScanPrefix(o, decodedNormalized, decodedFilename, imageFiles, i);
      var imgNormalized := Folded(imageFiles[i]);
      if decodedNormalized == imgNormalized {
        FoundPersists(o, decodedNormalized, decodedFilename, imageFiles, i + 1);
        return Some(imageFiles[i]);
      }
      if Contains(imgNormalized, decodedNormalized) || EndsWith(imgNormalized, decodedNormalized) {
        var shorter := if |decodedNormalized| < |imgNormalized| then |decodedNormalized| else |imgNormalized|;
        var longer := if |decodedNormalized| < |imgNormalized| then |imgNormalized| else |decodedNormalized|;
        if shorter as real / longer as real > 0.8 {
          FoundPersists(o, decodedNormalized, decodedFilename, imageFiles, i + 1);
          return Some(imageFiles[i]);
        }
      }
      var imgFilename := Basename(imgNormalized);
      FoldedBasename(imageFiles[i]);
      var filenameSimilarity := o.nameRatio(decodedFilename, imgFilename);
      if filenameSimilarity > 0.9 && filenameSimilarity > bestScore {
        bestScore := filenameSimilarity;
        bestMatch := Some(imageFiles[i]);
      }
      i := i + 1;
    }
    assert imageFiles[..i] == imageFiles;
    r := if bestScore > 0.9 then bestMatch else None;
  }

  // ---------------------------------------------------------------------------
  // Resolution order (markdown_image_manager.py:1127-1329)

  datatype Kind = ExactMatch | SmartMatch | DecodedExactMatch | DecodedSmartMatch | DecodedPathMatchKind

  /** The catalogue image chosen for an invalid path, how, and the text (raw or decoded) it was matched from. */
  datatype Resolution = Resolution(kind: Kind, target: string, matchedPath: string, candidatesCount: nat)

  /** Look a path up by filename: one candidate is taken as is, several are ranked. */
  function ByFilename(o: Oracles, index: Index, path: string, exactKind: Kind, smartKind: Kind): Option<Resolution> {
    var bucket := Get(index, FilenameKey(path));
    if bucket.None? then None else ByBucket(o, bucket.value, path, exactKind, smartKind)
  }

  function ByBucket(o: Oracles, candidates: seq<string>, path: string, exactKind: Kind, smartKind: Kind): Option<Resolution> {
    if |candidates| == 1 then Some(Resolution(exactKind, candidates[0], path, 1))
    else if |candidates| > 1 then
      var best := BestPathMatch(o, path, candidates);
      if best.Some? then Some(Resolution(smartKind, best.value, path, |candidates|)) else None
    else None
  }

  function Resolve(o: Oracles, index: Index, catalogue: seq<string>, invalidPath: string): Option<Resolution> {
    if Get(index, FilenameKey(invalidPath)).Some? then
      ByFilename(o, index, invalidPath, ExactMatch, SmartMatch)
    else
      var decodedPath := o.unquote(invalidPath);
      if decodedPath == invalidPath then None
      else if Get(index, FilenameKey(decodedPath)).Some? then
        ByFilename(o, index, decodedPath, DecodedExactMatch, DecodedSmartMatch)
      else
        var m := DecodedPathMatch(o, decodedPath, catalogue);
        if m.Some? then Some(Resolution(DecodedPathMatchKind, m.value, decodedPath, 0)) else None
  }

  /**
    The branches of markdown_image_manager.py:1127-1329 that pick the target
    of one invalid path, with the ranked searches run by their loops.
  */
  method ResolveInvalidPath(o: Oracles, filenameToPaths: Index, imageFiles: seq<string>, invalidPath: string)
    returns (r: Option<Resolution>)
    ensures r == Resolve(o, filenameToPaths, imageFiles, invalidPath)
  {
    var originalFilename := FilenameKey(invalidPath);
    var bucket := Get(filenameToPaths, originalFilename);
    if bucket.Some? {
      r := PickCandidate(o, bucket.value, invalidPath, ExactMatch, SmartMatch);
      return;
    }
    var decodedPath := o.unquote(invalidPath);
    if decodedPath == invalidPath {
      return None;
    }
    var decodedBucket := Get(filenameToPaths, FilenameKey(decodedPath));
    if decodedBucket.Some? {
      r := PickCandidate(o, decodedBucket.value, decodedPath, DecodedExactMatch, DecodedSmartMatch);
      return;
    }
    var decodedMatch := FindDecodedPathMatch(o, decodedPath, imageFiles);
    r := if decodedMatch.Some? then Some(Resolution(DecodedPathMatchKind, decodedMatch.value, decodedPath, 0)) else None;
  }

  /** One candidate is taken as it is; several go through `find_best_path_match`. */
  method PickCandidate(o: Oracles, candidates: seq<string>, path: string, exactKind: Kind, smartKind: Kind)
    returns (r: Option<Resolution>)
    ensures r == ByBucket(o, candidates, path, exactKind, smartKind)
  {
    if |candidates| == 1 {
      return Some(Resolution(exactKind, candidates[0], path, 1));
    } else if |candidates| > 1 {
      var bestMatch := FindBestPathMatch(o, path, candidates);
      if bestMatch.Some? {
        return Some(Resolution(smartKind, bestMatch.value, path, |candidates|));
      }
    }
    return None;
  }

  /** Folding a path does not move its last separator, so its folded basename is its filename key. */
  lemma {:induction false} FoldedBasename(p: string)
    ensures Basename(Folded(p)) == FilenameKey(p)
    decreases |p|
  {
    if p != [] {
      var init := p[..|p| - 1];
      FoldedBasename(init);
      assert Folded(p)[..|p| - 1] == Folded(init);
    }
  }

  /**
    When the resolver falls back to the decoded-path search, the decoded
    filename is in no bucket of the index, so the search's first stage (same
    basename) never fires there.
  */
  lemma DecodedFallbackSkipsNameStage(catalogue: seq<string>, decodedPath: string)
    requires Get(FilenameIndex(catalogue), FilenameKey(decodedPath)).None?
    ensures forall j :: 0 <= j < |catalogue| ==> !SameFilename(FilenameKey(decodedPath))(catalogue[j])
  {
    FilenameIndexSpec(catalogue);
    forall j | 0 <= j < |catalogue| ensures FilenameKey(catalogue[j]) != FilenameKey(decodedPath) {
      NamedMember(catalogue, catalogue[j]);
    }
  }

  /**
    A lookup by filename over the index of the catalogue takes a catalogue
    image with the same filename: the only one for the exact kind, the best
    ranked of several for the smart kind.
  */
  lemma ByFilenameSpec(o: Oracles, catalogue: seq<string>, path: string, exactKind: Kind, smartKind: Kind)
    requires exactKind != smartKind
    ensures var r := ByFilename(o, FilenameIndex(catalogue), path, exactKind, smartKind);
            var named := Named(catalogue, FilenameKey(path));
            && (r.Some? ==> r.value.kind in {exactKind, smartKind} && r.value.matchedPath == path)
            && (r.Some? ==> r.value.target in catalogue && FilenameKey(r.value.target) == FilenameKey(path))
            && (r.Some? && r.value.kind == exactKind ==> named == [r.value.target])
            && (r.Some? && r.value.kind != exactKind ==> |named| > 1)
  {
    FilenameIndexSpec(catalogue);
    var key := FilenameKey(path);
    var named := Named(catalogue, key);
    assert Get(FilenameIndex(catalogue), key) == if named == [] then None else Some(named);
    var r := ByFilename(o, FilenameIndex(catalogue), path, exactKind, smartKind);
    if r.Some? {
      if |named| == 1 {
        NamedAt(catalogue, key, 0);
      } else {
        BestPathMatchSpec(o, path, named);
        var j :| FirstMaximum(named, PathScore(o, path), j) && named[j] == r.value.target;
        NamedAt(catalogue, key, j);
      }
    }
  }

  /**
    Over the index of the catalogue, a resolution always names a catalogue
    image; an exact match is the only catalogue image with the reference's
    filename; percent-decoding is tried only when the raw filename is in no
    bucket and decoding changes the text; the decoded-path search only when
    the decoded filename is in no bucket either; and a filename that is in
    the index is never decoded.
  */
  lemma ResolveSpec(o: Oracles, catalogue: seq<string>, invalidPath: string)
    ensures var index := FilenameIndex(catalogue);
            var r := Resolve(o, index, catalogue, invalidPath);
            && (r.Some? ==> r.value.target in catalogue)
            && (r.Some? && r.value.kind == ExactMatch ==>
                  Named(catalogue, FilenameKey(invalidPath)) == [r.value.target])
            && (r.Some? && r.value.kind == SmartMatch ==>
                  |Named(catalogue, FilenameKey(invalidPath))| > 1 &&
                  FilenameKey(r.value.target) == FilenameKey(invalidPath))
            && (Get(index, FilenameKey(invalidPath)).Some? ==> r.None? || r.value.kind in {ExactMatch, SmartMatch})
            && (r.Some? && r.value.kind in {DecodedExactMatch, DecodedSmartMatch, DecodedPathMatchKind} ==>
                  Named(catalogue, FilenameKey(invalidPath)) == [] &&
                  r.value.matchedPath == o.unquote(invalidPath) != invalidPath)
            && (r.Some? && r.value.kind == DecodedPathMatchKind ==>
                  Named(catalogue, FilenameKey(r.value.matchedPath)) == [])
  {
    FilenameIndexSpec(catalogue);
    var index := FilenameIndex(catalogue);
    var decodedPath := o.unquote(invalidPath);
    if Get(index, FilenameKey(invalidPath)).Some? {
      ByFilenameSpec(o, catalogue, invalidPath, ExactMatch, SmartMatch);
    } else if decodedPath != invalidPath {
      if Get(index, FilenameKey(decodedPath)).Some? {
        ByFilenameSpec(o, catalogue, decodedPath, DecodedExactMatch, DecodedSmartMatch);
      } else {
        DecodedPathMatchSpec(o, decodedPath, catalogue);
      }
    }
  }

  /**
    A lookup by filename, forward: no catalogue image with the filename gives
    nothing, exactly one is taken as it is, and among several a match exists
    iff one qualifies, and it is the first of highest combined score.
  */
  lemma ByFilenameForward(o: Oracles, catalogue: seq<string>, path: string, exactKind: Kind, smartKind: Kind)
    ensures var r := ByFilename(o, FilenameIndex(catalogue), path, exactKind, smartKind);
            var named := Named(catalogue, FilenameKey(path));
            && (named == [] ==> r.None?)
            && (|named| == 1 ==> r == Some(Resolution(exactKind, named[0], path, 1)))
            && (|named| > 1 ==> (r.Some? <==> exists j :: 0 <= j < |named| && Qualifies(o, path, named[j])))
            && (|named| > 1 && r.Some? ==>
                  && r.value.kind == smartKind && r.value.matchedPath == path && r.value.candidatesCount == |named|
                  && Qualifies(o, path, r.value.target)
                  && exists i :: FirstMaximum(named, PathScore(o, path), i) && named[i] == r.value.target)
  {
    FilenameIndexSpec(catalogue);
    var named := Named(catalogue, FilenameKey(path));
    assert Get(FilenameIndex(catalogue), FilenameKey(path)) == if named == [] then None else Some(named);
    if |named| > 1 {
      BestPathMatchSpec(o, path, named);
    }
  }

  /** Whatever the decoded search returns passed one of its bars: same filename, immediate match, or similarity above 0.9. */
  lemma DecodedPathMatchGate(o: Oracles, decodedPath: string, files: seq<string>)
    ensures var r := DecodedPathMatch(o, decodedPath, files);
            r.Some? ==>
              || FilenameKey(r.value) == FilenameKey(decodedPath)
              || ImmediateMatch(Folded(decodedPath), Folded(r.value))
              || o.nameRatio(FilenameKey(decodedPath), FilenameKey(r.value)) > 0.9
  {
    var dn, df := Folded(decodedPath), FilenameKey(decodedPath);
    if FirstSuch(files, SameFilename(df)).None? {
      PathScanSpec(o, dn, df, files);
      var st := PathScan(o, dn, df, files);
      if st.Found? {
        var k :| FirstImmediate(files, dn, k) && st.file == files[k];
      } else {
        AcceptedSpec(files, NameScore(o, df));
      }
    }
  }

  /**
    The resolution order, forward: a raw filename with one catalogue image is
    an exact match to it, and with several a smart match exists iff one
    qualifies; a raw filename with none and a decoding that changes nothing
    gives nothing; otherwise the decoded filename is looked up the same way;
    and when it has no image either, the decoded-path search decides.
  */
  lemma ResolveOrder(o: Oracles, catalogue: seq<string>, invalidPath: string)
    ensures var r := Resolve(o, FilenameIndex(catalogue), catalogue, invalidPath);
            var named := Named(catalogue, FilenameKey(invalidPath));
            var d := o.unquote(invalidPath);
            var dnamed := Named(catalogue, FilenameKey(d));
            && (|named| == 1 ==> r == Some(Resolution(ExactMatch, named[0], invalidPath, 1)))
            && (|named| > 1 ==> (r.Some? <==> exists j :: 0 <= j < |named| && Qualifies(o, invalidPath, named[j])))
            && (named == [] && d == invalidPath ==> r.None?)
            && (named == [] && d != invalidPath && |dnamed| == 1 ==> r == Some(Resolution(DecodedExactMatch, dnamed[0], d, 1)))
            && (named == [] && d != invalidPath && |dnamed| > 1 ==>
                  (r.Some? <==> exists j :: 0 <= j < |dnamed| && Qualifies(o, d, dnamed[j])))
            && (named == [] && d != invalidPath && dnamed == [] ==>
                  (r.Some? <==> DecodedPathMatch(o, d, catalogue).Some?) &&
                  (r.Some? ==> r.value == Resolution(DecodedPathMatchKind, DecodedPathMatch(o, d, catalogue).value, d, 0)))
  {
    FilenameIndexSpec(catalogue);
    ByFilenameForward(o, catalogue, invalidPath, ExactMatch, SmartMatch);
    ByFilenameForward(o, catalogue, o.unquote(invalidPath), DecodedExactMatch, DecodedSmartMatch);
  }

  /**
    No rewrite below the bar: a ranked match qualifies against the text it
    was matched from, and a decoded-path match (whose filename is in no
    bucket) matched the folded path immediately or has a filename more than
    90% similar.
  */
  lemma ResolveAcceptanceGate(o: Oracles, catalogue: seq<string>, invalidPath: string)
    ensures var r := Resolve(o, FilenameIndex(catalogue), catalogue, invalidPath);
            && (r.Some? && r.value.kind in {SmartMatch, DecodedSmartMatch} ==> Qualifies(o, r.value.matchedPath, r.value.target))
            && (r.Some? && r.value.kind == DecodedPathMatchKind ==>
                  || ImmediateMatch(Folded(r.value.matchedPath), Folded(r.value.target))
                  || o.nameRatio(FilenameKey(r.value.matchedPath), FilenameKey(r.value.target)) > 0.9)
  {
    var index := FilenameIndex(catalogue);
    var d := o.unquote(invalidPath);
    if Get(index, FilenameKey(invalidPath)).Some? {
      ByFilenameForward(o, catalogue, invalidPath, ExactMatch, SmartMatch);
    } else if d != invalidPath {
      if Get(index, FilenameKey(d)).Some? {
        ByFilenameForward(o, catalogue, d, DecodedExactMatch, DecodedSmartMatch);
      } else {
        var m := DecodedPathMatch(o, d, catalogue);
        if m.Some? {
          DecodedPathMatchGate(o, d, catalogue);
          DecodedPathMatchSpec(o, d, catalogue);
          DecodedFallbackSkipsNameStage(catalogue, d);
          var j :| 0 <= j < |catalogue| && catalogue[j] == m.value;
          assert !SameFilename(FilenameKey(d))(catalogue[j]);
        }
      }
    }
  }

  /**
    The confidence of a resolution is high exactly when its target is the
    only catalogue image with the filename of the text it was matched from.
  */
  lemma ConfidenceOfResolution(o: Oracles, catalogue: seq<string>, invalidPath: string)
    ensures var r := Resolve(o, FilenameIndex(catalogue), catalogue, invalidPath);
            r.Some? ==>
              (ConfidenceOf(o, r.value) == High <==> Named(catalogue, FilenameKey(r.value.matchedPath)) == [r.value.target])
  {
    var index := FilenameIndex(catalogue);
    var d := o.unquote(invalidPath);
    FilenameIndexSpec(catalogue);
    if Get(index, FilenameKey(invalidPath)).Some? {
      ByFilenameForward(o, catalogue, invalidPath, ExactMatch, SmartMatch);
    } else if d != invalidPath {
      if Get(index, FilenameKey(d)).Some? {
        ByFilenameForward(o, catalogue, d, DecodedExactMatch, DecodedSmartMatch);
      }
    }
  }

  /** Each path listed under a key is a catalogue path with that key. */
  lemma {:induction false} NamedAt(catalogue: seq<string>, k: string, j: int)
    requires 0 <= j < |Named(catalogue, k)|
    ensures Named(catalogue, k)[j] in catalogue && FilenameKey(Named(catalogue, k)[j]) == k
    decreases |catalogue|
  {
    var head := if FilenameKey(catalogue[0]) == k then [catalogue[0]] else [];
    assert Named(catalogue, k) == head + Named(catalogue[1..], k);
    if j >= |head| {
      NamedAt(catalogue[1..], k, j - |head|);
    }
  }

  // ---------------------------------------------------------------------------
  // Similarity label and relative path

  /** `calculate_similarity` (markdown_image_manager.py:1464-1469). */
  function CalculateSimilarity(o: Oracles, a: string, b: string): real {
    o.partsRatio(Parts(a), Parts(b))
  }

  datatype Confidence = High | Medium | Low

  /**
    The confidence recorded with a fix: high for a single same-named
    candidate, medium for the decoded-path search, and for a ranked match
    medium iff the path similarity of the matched text and target exceeds 0.7.
  */
  function ConfidenceOf(o: Oracles, res: Resolution): (c: Confidence)
    ensures res.kind in {ExactMatch, DecodedExactMatch} <==> c == High
    ensures res.kind in {SmartMatch, DecodedSmartMatch} ==>
              (c == Medium <==> CalculateSimilarity(o, res.matchedPath, res.target) > 0.7)
  {
    match res.kind
    case ExactMatch => High
    case DecodedExactMatch => High
    case DecodedPathMatchKind => Medium
    case _ => if CalculateSimilarity(o, res.matchedPath, res.target) > 0.7 then Medium else Low
  }
}

=== FILE: rewrite.dfy ===
/**
  The two reference shapes the smart fixer rewrites, read the way Python's
  `re.sub` reads them (markdown_image_manager.py:1140-1149), with the invalid
  path P taken literally (`re.escape`) and R the replacement path:

    `!\[([^\]]*)\]\(P\)`              becomes  `![\1](R)`
    `<img([^>]+)src=["']P["'](.*?)>`  becomes  `<img\1src="R"\2>`

  The scan goes left to right; behind a match it resumes after the match,
  elsewhere one character further on. The alt text `[^\]]*` can only end at
  the first `]`; the greedy `[^>]+` backs off from the first `>` until `src=`
  and the quoted path follow; the lazy `(.*?)>` stops at the first `>` on the
  same line.
*/
module Rewrite {
  import opened Wrappers
  import opened Text
  import opened PathNormalize
  import opened Resolver

  /** The first index at or after `j` holding one of `stops`, or `|s|` when there is none. */
  function Until(s: string, j: nat, stops: set<char>): (k: nat)
    requires j <= |s|
    ensures j <= k <= |s|
    ensures forall m :: j <= m < k ==> s[m] !in stops
    ensures k < |s| ==> s[k] in stops
    decreases |s| - j
  {
    if j == |s| || s[j] in stops then j else Until(s, j + 1, stops)
  }

  /** `Until` finds the first stop. */
  lemma UntilFirst(s: string, j: nat, stops: set<char>, k: nat)
    requires j <= k < |s| && s[k] in stops
    requires forall m :: j <= m < k ==> s[m] !in stops
    ensures Until(s, j, stops) == k
  {
  }

  // ---------------------------------------------------------------------------
  // Markdown shape

  /** The part of the markdown shape after the alt text: `](p)`. */
  function Target(p: string): (t: string)
    ensures |t| == |p| + 3 && t[2..|p| + 2] == p
  {
    "](" + p + ")"
  }

  /** Where the markdown shape for `p` matches at the start of `s`: the index that ends its alt text. */
  function MdMatch(s: string, p: string): (k: Option<nat>)
    ensures k.Some? ==> 2 <= k.value && k.value + |p| + 3 <= |s|
    ensures k.Some? ==> s[..2] == "![" && s[k.value..k.value + |p| + 3] == Target(p)
    ensures k.Some? ==> forall m :: 2 <= m < k.value ==> s[m] != ']'
  {
    if StartsWith(s, "![") then
      var k := Until(s, 2, {']'});
      if StartsWith(s[k..], Target(p)) then
        assert s[k..][..|p| + 3] == s[k..k + |p| + 3];
        Some(k)
      else None
    else None
  }

  /** `re.sub` with the markdown shape: every match keeps its alt text and takes `r` as its target. */
  function ReplaceMd(s: string, p: string, r: string): string
    decreases |s|
  {
    if s == [] then []
    else
      var m := MdMatch(s, p);
      if m.Some? then "![" + s[2..m.value] + Target(r) + ReplaceMd(s[m.value + |p| + 3..], p, r)
      else [s[0]] + ReplaceMd(s[1..], p, r)
  }

  // ---------------------------------------------------------------------------
  // HTML shape

  predicate IsQuote(c: char) {
    c == '"' || c == '\''
  }

  /**
    `src=`, a quote, `p` and a quote start at index `e`, and a `>` closes the
    tag later on the same line: the index of that `>`.
  */
  function SrcAt(s: string, e: nat, p: string): (g: Option<nat>)
    ensures g.Some? ==> e + |p| + 6 <= g.value < |s| && s[g.value] == '>'
    ensures g.Some? ==> s[e..e + 4] == "src=" && IsQuote(s[e + 4]) && s[e + 5..e + 5 + |p|] == p && IsQuote(s[e + 5 + |p|])
    ensures g.Some? ==> forall m :: e + |p| + 6 <= m < g.value ==> s[m] != '>' && s[m] != '\n'
  {
    var f := e + |p| + 6;
    if f <= |s| && s[e..e + 4] == "src=" && IsQuote(s[e + 4]) && s[e + 5..e + 5 + |p|] == p && IsQuote(s[f - 1]) then
      var g := Until(s, f, {'>', '\n'});
      if g < |s| && s[g] == '>' then Some(g) else None
    else None
  }

  /** The greedy first group backs off from `e` towards one character until the rest of the shape matches. */
  function LastSrc(s: string, p: string, e: nat): (r: Option<nat>)
    ensures r.Some? ==> 5 <= r.value <= e && SrcAt(s, r.value, p).Some?
    ensures r.None? ==> forall m :: 5 <= m <= e ==> SrcAt(s, m, p).None?
    decreases e
  {
    if e < 5 then None
    else if SrcAt(s, e, p).Some? then Some(e)
    else LastSrc(s, p, e - 1)
  }

  /**
    Where the HTML shape for `p` matches at the start of `s`: the index `e`
    where `src=` starts (the first group is `s[4..e]`) and the index of the
    closing `>` (the second group ends there).
  */
  function ImgMatch(s: string, p: string): (m: Option<(nat, nat)>)
    ensures m.Some? ==> 5 <= m.value.0 && m.value.0 + |p| + 6 <= m.value.1 < |s| && s[m.value.1] == '>'
    ensures m.Some? ==> s[..4] == "<img" && forall i :: 4 <= i < m.value.0 ==> s[i] != '>'
    ensures m.Some? ==> SrcAt(s, m.value.0, p) == Some(m.value.1)
  {
    if StartsWith(s, "<img") then
      var e := LastSrc(s, p, Until(s, 4, {'>'}));
      if e.Some? then Some((e.value, SrcAt(s, e.value, p).value)) else None
    else None
  }

  /** The replacement text `<img\1src="r"\2>`. */
  function Tag(group1: string, r: string, group2: string): string {
    "<img" + group1 + "src=\"" + r + "\"" + group2 + ">"
  }

  /**
    The replacement for one HTML match. The template is chosen by testing the
    pattern text for `!\[`; `re.escape` leaves `!` alone and escapes `[`, so
    the HTML pattern passes that test exactly when `p` contains `![`, and then
    the markdown template `![\1](r)` is used: the attributes before `src`
    become the alt text and those after it are dropped.
  */
  function ImgReplacement(p: string, group1: string, r: string, group2: string): string {
    if Contains(p, "![") then "![" + group1 + Target(r) else Tag(group1, r, group2)
  }

  /** `re.sub` with the HTML shape: each match is replaced by `ImgReplacement` of its two groups. */
  function ReplaceImg(s: string, p: string, r: string): string
    decreases |s|
  {
    if s == [] then []
    else
      var m := ImgMatch(s, p);
      if m.Some? then
        var e, g := m.value.0, m.value.1;
        ImgReplacement(p, s[4..e], r, s[e + |p| + 6..g]) + ReplaceImg(s[g + 1..], p, r)
      else [s[0]] + ReplaceImg(s[1..], p, r)
  }

  // ---------------------------------------------------------------------------
  // One invalid path: the first shape that changes the text wins

  datatype Rewritten = Rewritten(content: string, changed: bool)

  /**
    The loop over the two shapes: the markdown shape is tried first, and the
    HTML shape only when the markdown shape left the text as it was.
  */
  function RewriteReference(content: string, p: string, r: string): (w: Rewritten)
    ensures w.changed <==> w.content != content
    ensures w.changed <==> ReplaceMd(content, p, r) != content || ReplaceImg(content, p, r) != content
    ensures ReplaceMd(content, p, r) != content ==> w.content == ReplaceMd(content, p, r)
    ensures ReplaceMd(content, p, r) == content ==> w.content == ReplaceImg(content, p, r)
  {
    var md := ReplaceMd(content, p, r);
    if md != content then Rewritten(md, true)
    else
      var img := ReplaceImg(content, p, r);
      if img != content then Rewritten(img, true) else Rewritten(content, false)
  }

  // ---------------------------------------------------------------------------
  // Properties of the substitution

  /** Where the markdown shape matches nowhere, the text is left as it was. */
  lemma {:induction false} MdNoMatchUnchanged(s: string, p: string, r: string)
    requires forall i :: 0 <= i < |s| ==> MdMatch(s[i..], p).None?
    ensures ReplaceMd(s, p, r) == s
    decreases |s|
  {
    if s != [] {
      assert s[0..] == s;
      forall i | 0 <= i < |s[1..]| ensures MdMatch(s[1..][i..], p).None? {
        assert s[1..][i..] == s[i + 1..];
      }
      MdNoMatchUnchanged(s[1..], p, r);
    }
  }

  /** Where the HTML shape matches nowhere, the text is left as it was. */
  lemma {:induction false} ImgNoMatchUnchanged(s: string, p: string, r: string)
    requires forall i :: 0 <= i < |s| ==> ImgMatch(s[i..], p).None?
    ensures ReplaceImg(s, p, r) == s
    decreases |s|
  {
    if s != [] {
      assert s[0..] == s;
      forall i | 0 <= i < |s[1..]| ensures ImgMatch(s[1..][i..], p).None? {
        assert s[1..][i..] == s[i + 1..];
      }
      ImgNoMatchUnchanged(s[1..], p, r);
    }
  }

  /** A markdown match at index `i` puts `p` into the text. */
  lemma MdMatchOccurs(s: string, p: string, i: nat)
    requires i < |s| && MdMatch(s[i..], p).Some?
    ensures Contains(s, p)
  {
    var k := MdMatch(s[i..], p).value;
    assert s[i + k + 2..i + k + 2 + |p|] == s[i..][k..k + |p| + 3][2..|p| + 2];
    ContainsAt(s, p, i + k + 2);
  }

  /** An HTML match at index `i` puts `p` into the text. */
  lemma ImgMatchOccurs(s: string, p: string, i: nat)
    requires i < |s| && ImgMatch(s[i..], p).Some?
    ensures Contains(s, p)
  {
    var e := ImgMatch(s[i..], p).value.0;
    assert s[i + e + 5..i + e + 5 + |p|] == s[i..][e + 5..e + 5 + |p|];
    ContainsAt(s, p, i + e + 5);
  }

  /**
    A text in which the invalid path does not occur is not rewritten: neither
    shape changes it, so no fix is recorded for it.
  */
  lemma AbsentPathNotRewritten(s: string, p: string, r: string)
    requires !Contains(s, p)
    ensures RewriteReference(s, p, r) == Rewritten(s, false)
  {
    forall i | 0 <= i < |s| ensures MdMatch(s[i..], p).None? {
      if MdMatch(s[i..], p).Some? {
        MdMatchOccurs(s, p, i);
      }
    }
    MdNoMatchUnchanged(s, p, r);
    forall i | 0 <= i < |s| ensures ImgMatch(s[i..], p).None? {
      if ImgMatch(s[i..], p).Some? {
        ImgMatchOccurs(s, p, i);
      }
    }
    ImgNoMatchUnchanged(s, p, r);
  }

  lemma SplitJoin(s: string, x: string, y: string, n: nat)
    requires n <= |s| && x == s[..n] && y == s[n..]
    ensures x + y == s
  {
  }

  /** The markdown rewrite at a match: the alt text, the new target, and the rewrite of the rest. */
  lemma ReplaceMdAt(s: string, p: string, r: string)
    requires MdMatch(s, p).Some?
    ensures var k := MdMatch(s, p).value;
            ReplaceMd(s, p, r) == "![" + s[2..k] + Target(r) + ReplaceMd(s[k + |p| + 3..], p, r)
  {
  }

  /** One markdown match with the invalid path as its own replacement gives back the matched text. */
  lemma MdSelfHead(s: string, p: string)
    requires MdMatch(s, p).Some?
    ensures var k := MdMatch(s, p).value;
            "![" + s[2..k] + Target(p) == s[..k + |p| + 3]
  {
    var k := MdMatch(s, p).value;
    assert s[..k + |p| + 3] == s[..2] + s[2..k] + s[k..k + |p| + 3];
  }

  /** A markdown match followed by a text the rewrite leaves alone is left alone too. */
  lemma MdSelfStep(s: string, p: string)
    requires MdMatch(s, p).Some?
    requires ReplaceMd(s[MdMatch(s, p).value + |p| + 3..], p, p) == s[MdMatch(s, p).value + |p| + 3..]
    ensures ReplaceMd(s, p, p) == s
  {
    var k := MdMatch(s, p).value;
    MdSelfHead(s, p);
    ReplaceMdAt(s, p, p);
    SplitJoin(s, "![" + s[2..k] + Target(p), s[k + |p| + 3..], k + |p| + 3);
  }

  /** With the invalid path as its own replacement, the markdown shape gives back the text unchanged. */
  lemma {:induction false} MdSelfReplacement(s: string, p: string)
    ensures ReplaceMd(s, p, p) == s
    decreases |s|
  {
    if s != [] {
      if MdMatch(s, p).Some? {
        MdSelfReplacement(s[MdMatch(s, p).value + |p| + 3..], p);
        MdSelfStep(s, p);
      } else {
        MdSelfReplacement(s[1..], p);
        assert s == [s[0]] + s[1..];
      }
    }
  }

  /** The HTML rewrite at a match: the replacement of its groups, and the rewrite of the rest. */
  lemma ReplaceImgAt(s: string, p: string, r: string)
    requires ImgMatch(s, p).Some?
    ensures var e, g := ImgMatch(s, p).value.0, ImgMatch(s, p).value.1;
            ReplaceImg(s, p, r) == ImgReplacement(p, s[4..e], r, s[e + |p| + 6..g]) + ReplaceImg(s[g + 1..], p, r)
  {
  }

  /** The markdown shape matches `![cat](a.png)` with alt text `cat`. */
  lemma ExampleMdMatch()
    ensures MdMatch("![cat](a.png)", "a.png") == Some(5)
  {
    var s := "![cat](a.png)";
    assert s[..2] == "![" && s[2..5] == "cat";
    UntilFirst(s, 2, {']'}, 5);
    assert s[5..][..8] == "](a.png)" == Target("a.png");
  }

  /** The markdown shape keeps the alt text: `![cat](a.png)` becomes `![cat](b.png)`. */
  lemma MdKeepsAlt()
    ensures ReplaceMd("![cat](a.png)", "a.png", "b.png") == "![cat](b.png)"
  {
    var s := "![cat](a.png)";
    ExampleMdMatch();
    ReplaceMdAt(s, "a.png", "b.png");
    assert s[13..] == [];
    assert s[2..5] == "cat";
    assert "![" + s[2..5] + Target("b.png") + ReplaceMd([], "a.png", "b.png") == "![cat](b.png)";
  }

  /**
    The greedy first group and the lazy second group on an example: in
    `<img a src='p' b>` the first group is ` a ` (up to index 7) and the
    second is ` b` (up to the `>` at index 16); ImgKeepsAttributes puts them
    around the new path.
  */
  lemma ExampleImgMatch()
    ensures ImgMatch("<img a src='p' b>", "p") == Some((7, 16))
  {
    var s := "<img a src='p' b>";
    UntilFirst(s, 4, {'>'}, 16);
    ExampleLastSrc();
  }

  /** The greedy search settles on the last `src=` position from which the rest of the shape matches. */
  lemma {:induction false} LastSrcAt(s: string, p: string, e: nat, k: nat)
    requires 5 <= k <= e && SrcAt(s, k, p).Some?
    requires forall m :: k < m <= e ==> SrcAt(s, m, p).None?
    ensures LastSrc(s, p, e) == Some(k)
    decreases e
  {
    if e > k {
      LastSrcAt(s, p, e - 1, k);
    }
  }

  /** A path of fewer than two characters cannot contain `![`, so its HTML matches take the HTML template. */
  lemma ShortPathTakesTag(p: string, group1: string, r: string, group2: string)
    requires |p| < 2
    ensures ImgReplacement(p, group1, r, group2) == Tag(group1, r, group2)
  {
  }

  /** The HTML rewrite of `<img a src='p' b>` for the path `p`: the replacement of its one match, with nothing after it. */
  lemma ImgKeepsAttributesStep(r: string)
    ensures ReplaceImg("<img a src='p' b>", "p", r) == ImgReplacement("p", " a ", r, " b")
  {
    var s := "<img a src='p' b>";
    ExampleImgMatch();
    ReplaceImgAt(s, "p", r);
    assert s[4..7] == " a " && s[14..16] == " b" && s[17..] == [];
  }

  /**
    `<img a src='p' b>` rewritten to any `r` takes the HTML template with
    both groups kept, ` a ` before `src` and ` b` after it.
  */
  lemma ImgKeepsAttributes(r: string)
    ensures ReplaceImg("<img a src='p' b>", "p", r) == Tag(" a ", r, " b")
  {
    ImgKeepsAttributesStep(r);
    ShortPathTakesTag("p", " a ", r, " b");
  }

  /** In `<img src="![">` the first group is the one space before `src` and the closing `>` is at index 13. */
  lemma ExampleBangBracketMatch()
    ensures ImgMatch("<img src=\"![\">", "![") == Some((5, 13))
  {
    var s := "<img src=\"![\">";
    UntilFirst(s, 4, {'>'}, 13);
    UntilFirst(s, 13, {'>', '\n'}, 13);
    assert SrcAt(s, 5, "![") == Some(13) by {
      assert s[5..9] == "src=" && s[10..12] == "![";
    }
    LastSrcAt(s, "![", 13, 5);
  }

  /** The HTML rewrite of `<img src="![">` for the path `![`: the replacement of its one match, with nothing after it. */
  lemma BangBracketStep(r: string)
    ensures ReplaceImg("<img src=\"![\">", "![", r) == ImgReplacement("![", " ", r, [])
  {
    var s := "<img src=\"![\">";
    ExampleBangBracketMatch();
    ReplaceImgAt(s, "![", r);
    assert s[4..5] == " " && s[13..13] == [] && s[14..] == [];
  }

  /** A path containing `![` turns every HTML match into markdown, its first group the alt text. */
  lemma BangBracketPathTakesMd(p: string, group1: string, r: string, group2: string)
    requires Contains(p, "![")
    ensures ImgReplacement(p, group1, r, group2) == "![" + group1 + Target(r)
  {
  }

  /**
    An invalid path containing `![` switches the HTML shape to the markdown
    template, whose alt text is the first group: `<img src="![">` rewritten
    to `r` becomes `![ ](r)`.
  */
  lemma BangBracketPathTakesMarkdownTemplate(r: string)
    ensures ReplaceImg("<img src=\"![\">", "![", r) == "![ " + Target(r)
  {
    BangBracketStep(r);
    ContainsAt("![", "![", 0);
    BangBracketPathTakesMd("![", " ", r, []);
    assert "![" + " " == "![ ";
  }

  /** In `<img a src='p' b>` the greedy first group backs off from the `>` to the `s` of `src`. */
  lemma ExampleLastSrc()
    ensures LastSrc("<img a src='p' b>", "p", 16) == Some(7)
  {
    var s := "<img a src='p' b>";
    UntilFirst(s, 13, {'>', '\n'}, 16);
    assert SrcAt(s, 7, "p") == Some(16);
    assert LastSrc(s, "p", 7) == Some(7);
    assert LastSrc(s, "p", 8) == Some(7) by { assert s[8] != 's'; }
    assert LastSrc(s, "p", 9) == Some(7) by { assert s[9] != 's'; }
    assert LastSrc(s, "p", 10) == Some(7) by { assert s[10] != 's'; }
    assert LastSrc(s, "p", 11) == Some(7);
    assert LastSrc(s, "p", 12) == Some(7);
    assert LastSrc(s, "p", 13) == Some(7);
    assert LastSrc(s, "p", 14) == Some(7);
    assert LastSrc(s, "p", 15) == Some(7);
  }

  // ---------------------------------------------------------------------------
  // safe_relpath (markdown_image_manager.py:188-199)

  /**
    The target path written into the document: the normalised relative path
    from `start` to `path`, or the normalised `path` itself when `relpath`
    fails (across drives).
  */
  function SafeRelpath(o: Oracles, path: string, start: string): (r: string)
    ensures '\\' !in r && NoDoubleSlash(r)
    ensures NormalizePath(r) == r
    ensures o.relpath(NormalizePath(path), NormalizePath(start)).None? ==> r == NormalizePath(path)
  {
    var rel := o.relpath(NormalizePath(path), NormalizePath(start));
    var r := if rel.Some? then NormalizePath(rel.value) else NormalizePath(path);
    NormalizeClean(if rel.Some? then rel.value else path);
    NormalizeIdempotent(if rel.Some? then rel.value else path);
    r
  }
}

=== FILE: session.dfy ===
/**
  One run of the smart fixer (`fix_thread` in markdown_image_manager.py:1062-1370)
  over an abstract file system: a map from path text to file content. For every
  document with invalid references the run snapshots the document into the
  backup directory, resolves and rewrites each invalid path, writes the
  document back only when its text changed, and journals the document when it
  received fixes. The journal (`fix_log.json`) and the two paths embedded in the
  undo script close the run.

  The snapshot name is a parameter: `BasenameSnapshot` is the program as
  written (`<backup_dir>/<basename>.backup`), `RelativePathSnapshot` keeps the
  document's path relative to the workspace so that no two documents share a
  snapshot.
*/
module Session {
  import opened Wrappers
  import opened Text
  import opened Dicts
  import opened Resolver
  import opened Rewrite

  // ---------------------------------------------------------------------------
  // The fix log

  /** One entry of a document's `fixes` list. */
  datatype Fix = Fix(
    kind: Kind,
    originalPath: string,
    decodedPath: Option<string>,
    newPath: string,
    absolutePath: string,
    confidence: Confidence,
    similarity: Option<real>,
    candidatesCount: Option<nat>)

  /** One entry of `modifications`: a document, its snapshot, how many invalid paths it had, and its fixes. */
  datatype FileRecord = FileRecord(file: string, backupFile: string, originalInvalidCount: nat, fixes: seq<Fix>)

  /** The contents of `fix_log.json`. */
  datatype FixLog = FixLog(timestamp: string, totalFilesProcessed: nat, totalFixes: nat, modifications: seq<FileRecord>)

  /** How a snapshot is named: as written, or one name per document. */
  datatype Naming = BasenameSnapshot | RelativePathSnapshot

  /** A file system operation, in the order the run performs them. */
  datatype Op = Copied(src: string, dst: string) | Wrote(path: string)

  function BackupDir(workspace: string, timestamp: string): string {
    Join(Join(workspace, ".backup"), "smart_fix_" + timestamp)
  }

  function FixLogPath(backupDir: string): string {
    Join(backupDir, "fix_log.json")
  }

  /** Where a document is copied before it is touched (markdown_image_manager.py:1111-1113). */
  function SnapshotPath(naming: Naming, backupDir: string, doc: string, relDoc: string): string {
    match naming
    case BasenameSnapshot => Join(backupDir, Basename(doc) + ".backup")
    case RelativePathSnapshot => Join(backupDir, relDoc + ".backup")
  }

  /** The snapshot of a document of the workspace. */
  function SnapshotOf(o: Oracles, workspace: string, backupDir: string, naming: Naming, doc: string): string {
    SnapshotPath(naming, backupDir, doc, SafeRelpath(o, doc, workspace))
  }

  /**
    The record of a fix: decoded kinds carry the decoded path, ranked kinds
    the similarity and the number of candidates, and the confidence follows
    the kind.
  */
  function FixFor(o: Oracles, res: Resolution, invalidPath: string, newPath: string): (f: Fix)
    ensures f.originalPath == invalidPath && f.newPath == newPath && f.absolutePath == res.target
    ensures f.decodedPath.Some? <==> res.kind in {DecodedExactMatch, DecodedSmartMatch, DecodedPathMatchKind}
    ensures f.similarity.Some? <==> res.kind in {SmartMatch, DecodedSmartMatch}
    ensures f.candidatesCount.Some? <==> res.kind in {SmartMatch, DecodedSmartMatch}
    ensures f.confidence == High <==> res.kind in {ExactMatch, DecodedExactMatch}
  {
    var decoded := res.kind in {DecodedExactMatch, DecodedSmartMatch, DecodedPathMatchKind};
    var ranked := res.kind in {SmartMatch, DecodedSmartMatch};
    Fix(res.kind, invalidPath,
        if decoded then Some(res.matchedPath) else None,
        newPath, res.target, ConfidenceOf(o, res),
        if ranked then Some(CalculateSimilarity(o, res.matchedPath, res.target)) else None,
        if ranked then Some(res.candidatesCount) else None)
  }

  // ---------------------------------------------------------------------------
  // One document: its invalid paths in order (markdown_image_manager.py:1123-1339)

  datatype Edit = Edit(content: string, fixes: seq<Fix>)

  /** One invalid path: resolved, and if resolved rewritten by the first shape that changes the text. */
  function FixReference(o: Oracles, index: Index, catalogue: seq<string>, doc: string, e: Edit, invalidPath: string): (r: Edit)
    ensures |e.fixes| <= |r.fixes| <= |e.fixes| + 1 && r.fixes[..|e.fixes|] == e.fixes
    ensures |r.fixes| == |e.fixes| ==> r == e
    ensures |r.fixes| > |e.fixes| ==> r.content != e.content && r.fixes[|e.fixes|].originalPath == invalidPath
  {
    var res := Resolve(o, index, catalogue, invalidPath);
    if res.None? then e
    else
      var newPath := SafeRelpath(o, res.value.target, Dirname(doc));
      var w := RewriteReference(e.content, invalidPath, newPath);
      if w.changed then Edit(w.content, e.fixes + [FixFor(o, res.value, invalidPath, newPath)]) else e
  }

  /**
    The invalid paths of a document, one after the other, on the text the
    previous ones left. Each adds at most one fix, and a document that
    received no fix keeps its text.
  */
  function FixReferences(o: Oracles, index: Index, catalogue: seq<string>, doc: string, content: string, paths: seq<string>): (r: Edit)
    ensures |r.fixes| <= |paths|
    ensures r.fixes == [] ==> r.content == content
    decreases |paths|
  {
    if paths == [] then Edit(content, [])
    else FixReference(o, index, catalogue, doc, FixReferences(o, index, catalogue, doc, content, paths[..|paths| - 1]), paths[|paths| - 1])
  }

  /** Every fix is recorded under one of the given paths, points at a catalogue image, and writes a path without backslashes. */
  predicate FixesSound(fixes: seq<Fix>, paths: seq<string>, catalogue: seq<string>) {
    forall k :: 0 <= k < |fixes| ==>
      fixes[k].originalPath in paths && fixes[k].absolutePath in catalogue && '\\' !in fixes[k].newPath
  }

  /** One more path over the index of the catalogue keeps the fixes sound. */
  lemma FixReferenceSound(o: Oracles, catalogue: seq<string>, doc: string, e: Edit, paths: seq<string>, p: string)
    requires FixesSound(e.fixes, paths, catalogue) && p in paths
    ensures FixesSound(FixReference(o, FilenameIndex(catalogue), catalogue, doc, e, p).fixes, paths, catalogue)
  {
    var res := Resolve(o, FilenameIndex(catalogue), catalogue, p);
    if res.Some? {
      var newPath := SafeRelpath(o, res.value.target, Dirname(doc));
      if RewriteReference(e.content, p, newPath).changed {
        assert res.value.target in catalogue by {
          ResolveSpec(o, catalogue, p);
        }
        var f := FixFor(o, res.value, p, newPath);
        assert FixReference(o, FilenameIndex(catalogue), catalogue, doc, e, p).fixes == e.fixes + [f];
      }
    }
  }

  /**
    Over the index of the catalogue, every fix is recorded under one of the
    document's invalid paths, points at a catalogue image, and writes a path
    without backslashes.
  */
  lemma {:induction false} FixReferencesSpec(o: Oracles, catalogue: seq<string>, doc: string, content: string, paths: seq<string>)
    ensures FixesSound(FixReferences(o, FilenameIndex(catalogue), catalogue, doc, content, paths).fixes, paths, catalogue)
    decreases |paths|
  {
    if paths != [] {
      var init := paths[..|paths| - 1];
      FixReferencesSpec(o, catalogue, doc, content, init);
      var e := FixReferences(o, FilenameIndex(catalogue), catalogue, doc, content, init);
      assert FixesSound(e.fixes, paths, catalogue) by {
        assert forall q :: q in init ==> q in paths;
      }
      FixReferenceSound(o, catalogue, doc, e, paths, paths[|paths| - 1]);
    }
  }

  /** A path that no longer occurs in the text left by the earlier paths adds no fix. */
  lemma AbsentPathAddsNoFix(o: Oracles, index: Index, catalogue: seq<string>, doc: string, e: Edit, invalidPath: string)
    requires !Contains(e.content, invalidPath)
    ensures FixReference(o, index, catalogue, doc, e, invalidPath) == e
  {
    var res := Resolve(o, index, catalogue, invalidPath);
    if res.Some? {
      AbsentPathNotRewritten(e.content, invalidPath, SafeRelpath(o, res.value.target, Dirname(doc)));
    }
  }

  // ---------------------------------------------------------------------------
  // The run over all documents (markdown_image_manager.py:1097-1349)

  /** The rewrite of one document: from the document, its text and its invalid paths to the new text and its fixes. */
  type Fixer = (string, string, seq<string>) -> Edit

  /**
    What the run does per document, as values: the rewrite, the document's
    name relative to the workspace (`file`), and the path of its snapshot
    (`backup_file`).
  */
  datatype Plan = Plan(fix: Fixer, relative: string -> string, snapshot: string -> string)

  /** The plan of `fix_thread`: `FixReferences` over the index, `safe_relpath` to the workspace, and the snapshot naming. */
  function PlanFor(o: Oracles, index: Index, catalogue: seq<string>, workspace: string, backupDir: string, naming: Naming): Plan {
    Plan((doc, content, paths) => FixReferences(o, index, catalogue, doc, content, paths),
         doc => SafeRelpath(o, doc, workspace),
         doc => SnapshotOf(o, workspace, backupDir, naming, doc))
  }

  /**
    `plan` is the plan of `fix_thread`. The triggers keep each equation from
    being used except where the concrete function itself occurs.
  */
  ghost predicate Implements(plan: Plan, o: Oracles, index: Index, catalogue: seq<string>, workspace: string,
                             backupDir: string, naming: Naming) {
    && (forall doc, content, paths {:trigger FixReferences(o, index, catalogue, doc, content, paths)} ::
          plan.fix(doc, content, paths) == FixReferences(o, index, catalogue, doc, content, paths))
    && (forall doc {:trigger SafeRelpath(o, doc, workspace)} :: plan.relative(doc) == SafeRelpath(o, doc, workspace))
    && (forall doc {:trigger SnapshotOf(o, workspace, backupDir, naming, doc)} ::
          plan.snapshot(doc) == SnapshotOf(o, workspace, backupDir, naming, doc))
  }

  lemma PlanForImplements(o: Oracles, index: Index, catalogue: seq<string>, workspace: string, backupDir: string, naming: Naming)
    ensures Implements(PlanFor(o, index, catalogue, workspace, backupDir, naming), o, index, catalogue, workspace, backupDir, naming)
  {
  }

  /** At most one fix per invalid path, and no change of text without a fix. */
  ghost predicate FixerSound(fix: Fixer) {
    forall doc, content, paths ::
      |fix(doc, content, paths).fixes| <= |paths| && (fix(doc, content, paths).fixes == [] ==> fix(doc, content, paths).content == content)
  }

  /** The rewrite of the plan adds at most one fix per path and changes no text without one. */
  lemma PlanForSound(o: Oracles, index: Index, catalogue: seq<string>, workspace: string, backupDir: string, naming: Naming)
    ensures FixerSound(PlanFor(o, index, catalogue, workspace, backupDir, naming).fix)
  {
  }

  /** A document and its invalid references, as the scan listed them. */
  datatype DocRefs = DocRefs(doc: string, invalidPaths: seq<string>)

  /** What one document does to the file system, and its record. */
  datatype DocResult = DocResult(files: map<string, string>, ops: seq<Op>, written: bool, record: FileRecord)

  /**
    One document: it is copied to its snapshot, its references are fixed,
    and it is written back exactly when its text changed. Nothing but the
    snapshot and the document changes.
  */
  function ProcessDoc(plan: Plan, files: map<string, string>, doc: string, paths: seq<string>): (d: DocResult)
    requires doc in files
    ensures files.Keys <= d.files.Keys
    ensures d.ops == [Copied(doc, plan.snapshot(doc))] + (if d.written then [Wrote(doc)] else [])
    ensures d.record == FileRecord(plan.relative(doc), plan.snapshot(doc), |paths|, plan.fix(doc, files[doc], paths).fixes)
    ensures d.written <==> plan.fix(doc, files[doc], paths).content != files[doc]
  {
    var content := files[doc];
    var snapshot := plan.snapshot(doc);
    var copied := files[snapshot := content];
    var e := plan.fix(doc, content, paths);
    var written := e.content != content;
    DocResult(
      if written then copied[doc := e.content] else copied,
      [Copied(doc, snapshot)] + (if written then [Wrote(doc)] else []),
      written,
      FileRecord(plan.relative(doc), snapshot, |paths|, e.fixes))
  }

  /**
    What one document does to the files: the snapshot is added holding the
    document's text as it was, the document ends up holding the fixed text
    and changes exactly when it is written, and every other file keeps its
    text.
  */
  lemma ProcessDocEffect(plan: Plan, files: map<string, string>, doc: string, paths: seq<string>)
    requires doc in files
    ensures var d := ProcessDoc(plan, files, doc, paths);
            var snapshot := plan.snapshot(doc);
            && d.files.Keys == files.Keys + {snapshot}
            && (snapshot != doc ==> d.files[snapshot] == files[doc])
            && d.files[doc] == plan.fix(doc, files[doc], paths).content
            && (d.written <==> d.files[doc] != files[doc])
            && (forall f :: f in files && f != doc && f != snapshot ==> d.files[f] == files[f])
  {
  }

  /** The state of the run: the file system, the operations so far, the counters and the journal. */
  datatype Progress = Progress(
    files: map<string, string>,
    trace: seq<Op>,
    processed: nat,
    totalFixed: nat,
    totalInvalid: nat,
    modifications: seq<FileRecord>)

  /** The counters and the journal after one more document. */
  function Step(st: Progress, d: DocResult, invalidCount: nat): Progress {
    Progress(
      d.files,
      st.trace + d.ops,
      st.processed + (if d.written then 1 else 0),
      st.totalFixed + |d.record.fixes|,
      st.totalInvalid + invalidCount,
      st.modifications + (if d.record.fixes != [] then [d.record] else []))
  }

  predicate Listed(files: map<string, string>, docs: seq<DocRefs>) {
    forall i :: 0 <= i < |docs| ==> docs[i].doc in files
  }

  /** The run over the documents in order, each with its list of invalid paths. */
  function Run(plan: Plan, files0: map<string, string>, docs: seq<DocRefs>): (p: Progress)
    requires Listed(files0, docs)
    ensures files0.Keys <= p.files.Keys
    decreases |docs|
  {
    if docs == [] then Progress(files0, [], 0, 0, 0, [])
    else
      var st := Run(plan, files0, docs[..|docs| - 1]);
      var last := docs[|docs| - 1];
      Step(st, ProcessDoc(plan, st.files, last.doc, last.invalidPaths), |last.invalidPaths|)
  }

  /** The number of fixes the journal holds. */
  function FixCount(mods: seq<FileRecord>): nat
    decreases |mods|
  {
    if mods == [] then 0 else FixCount(mods[..|mods| - 1]) + |mods[|mods| - 1].fixes|
  }

  /** The number of invalid references of the documents. */
  function PathCount(docs: seq<DocRefs>): nat
    decreases |docs|
  {
    if docs == [] then 0 else PathCount(docs[..|docs| - 1]) + |docs[|docs| - 1].invalidPaths|
  }

  /** The bookkeeping the run keeps between documents. */
  predicate Consistent(p: Progress) {
    && p.totalFixed == FixCount(p.modifications)
    && p.processed <= |p.modifications|
    && (forall k :: 0 <= k < |p.modifications| ==>
          0 < |p.modifications[k].fixes| <= p.modifications[k].originalInvalidCount)
    && (forall i :: 0 <= i < |p.trace| && p.trace[i].Wrote? ==> 0 < i && p.trace[i - 1].Copied? && p.trace[i - 1].src == p.trace[i].path)
  }

  /** One document keeps the bookkeeping. */
  lemma StepConsistent(st: Progress, d: DocResult, doc: string, snapshot: string, invalidCount: nat)
    requires Consistent(st)
    requires d.ops == [Copied(doc, snapshot)] + (if d.written then [Wrote(doc)] else [])
    requires d.record.originalInvalidCount == invalidCount && |d.record.fixes| <= invalidCount
    requires d.written ==> d.record.fixes != []
    ensures Consistent(Step(st, d, invalidCount))
  {
    var p := Step(st, d, invalidCount);
    if d.record.fixes != [] {
      assert p.modifications[..|p.modifications| - 1] == st.modifications;
      assert FixCount(p.modifications) == FixCount(st.modifications) + |d.record.fixes|;
    } else {
      assert p.modifications == st.modifications;
    }
    var n := |st.trace|;
    forall i | 0 <= i < |p.trace| && p.trace[i].Wrote?
      ensures 0 < i && p.trace[i - 1].Copied? && p.trace[i - 1].src == p.trace[i].path
    {
      if i < n {
        assert p.trace[i] == st.trace[i] && p.trace[i - 1] == st.trace[i - 1];
      } else {
        assert i == n + 1 && p.trace[i - 1] == d.ops[0];
      }
    }
  }

  /**
    The counters of the run: `total_fixes` is the number of fixes in the
    journal and never exceeds the number of invalid references; every
    journaled document has at least one and at most as many fixes as it had
    invalid references; `total_files_processed` counts written documents,
    which were all journaled; and every write of a document comes right after
    the copy of that document to its snapshot.
  */
  lemma {:induction false} RunCounts(plan: Plan, files0: map<string, string>, docs: seq<DocRefs>)
    requires Listed(files0, docs) && FixerSound(plan.fix)
    ensures var p := Run(plan, files0, docs);
            && Consistent(p)
            && p.totalInvalid == PathCount(docs)
            && p.totalFixed <= p.totalInvalid
            && |p.modifications| <= |docs|
    decreases |docs|
  {
    var p := Run(plan, files0, docs);
    if docs != [] {
      var init := docs[..|docs| - 1];
      var last := docs[|docs| - 1];
      assert Listed(files0, init);
      RunCounts(plan, files0, init);
      var st := Run(plan, files0, init);
      var d := ProcessDoc(plan, st.files, last.doc, last.invalidPaths);
      assert p == Step(st, d, |last.invalidPaths|);
      StepConsistent(st, d, last.doc, d.record.backupFile, |last.invalidPaths|);
    }
  }

  // ---------------------------------------------------------------------------
  // The file system and the run as statements

  /** The files of the workspace, the fix logs written, and the operations performed. */
  class FileSystem {
    var files: map<string, string>
    var logs: map<string, FixLog>
    var trace: seq<Op>

    constructor (files0: map<string, string>)
      ensures files == files0 && logs == map[] && trace == []
    {
      files := files0;
      logs := map[];
      trace := [];
    }

    /** `shutil.copy2(src, dst)`. */
    method Copy(src: string, dst: string)
      requires src in files
      modifies this
      ensures files == old(files)[dst := old(files)[src]]
      ensures trace == old(trace) + [Copied(src, dst)] && logs == old(logs)
    {
      files := files[dst := files[src]];
      trace := trace + [Copied(src, dst)];
    }

    /** Writing a document back. */
    method Write(path: string, content: string)
      modifies this
      ensures files == old(files)[path := content]
      ensures trace == old(trace) + [Wrote(path)] && logs == old(logs)
    {
      files := files[path := content];
      trace := trace + [Wrote(path)];
    }

    /** `json.dump` of the fix log. */
    method WriteLog(path: string, log: FixLog)
      modifies this
      ensures logs == old(logs)[path := log]
      ensures files == old(files) && trace == old(trace)
    {
      logs := logs[path := log];
    }
  }

  /** The loop over the invalid paths of one document (markdown_image_manager.py:1123-1339). */
  method RewriteDocument(o: Oracles, filenameToPaths: Index, imageFiles: seq<string>, doc: string,
                         original: string, invalidImgs: seq<string>)
    returns (content: string, fixes: seq<Fix>, invalidCount: nat)
    ensures Edit(content, fixes) == FixReferences(o, filenameToPaths, imageFiles, doc, original, invalidImgs)
    ensures invalidCount == |invalidImgs|
  {
    content, fixes, invalidCount := original, [], 0;
    var dir := Dirname(doc);
    var i := 0;
    while i < |invalidImgs|
      invariant 0 <= i <= |invalidImgs| && invalidCount == i
      invariant Edit(content, fixes) == FixReferences(o, filenameToPaths, imageFiles, doc, original, invalidImgs[..i])
    {
      assert invalidImgs[..i + 1][..i] == invalidImgs[..i];
      var invalidPath := invalidImgs[i];
      invalidCount := invalidCount + 1;
      ghost var before := Edit(content, fixes);
      var res := ResolveInvalidPath(o, filenameToPaths, imageFiles, invalidPath);
      if res.Some? {
        var newPath := SafeRelpath(o, res.value.target, dir);
        var newContent := ReplaceMd(content, invalidPath, newPath);
        if newContent == content {
          newContent := ReplaceImg(content, invalidPath, newPath);
        }
        if newContent != content {
          content := newContent;
          fixes := fixes + [FixFor(o, res.value, invalidPath, newPath)];
        }
      }
      assert Edit(content, fixes) == FixReference(o, filenameToPaths, imageFiles, doc, before, invalidPath);
      i := i + 1;
    }
    assert invalidImgs[..i] == invalidImgs;
  }

  /** One document: snapshot, rewrite, write back if changed (markdown_image_manager.py:1099-1345). */
  method ProcessDocument(fs: FileSystem, o: Oracles, filenameToPaths: Index, imageFiles: seq<string>,
                         workspace: string, backupDir: string, naming: Naming, ghost plan: Plan,
                         doc: string, invalidImgs: seq<string>)
    returns (written: bool, fileRecord: FileRecord, invalidCount: nat)
    requires doc in fs.files && Implements(plan, o, filenameToPaths, imageFiles, workspace, backupDir, naming)
    modifies fs
    ensures var d := ProcessDoc(plan, old(fs.files), doc, invalidImgs);
            fs.files == d.files && fs.trace == old(fs.trace) + d.ops && written == d.written && fileRecord == d.record
    ensures fs.logs == old(fs.logs) && invalidCount == |invalidImgs|
  {
    ghost var d := ProcessDoc(plan, fs.files, doc, invalidImgs);
    var original := fs.files[doc];
    var relDoc := SafeRelpath(o, doc, workspace);
    var backupFile := SnapshotPath(naming, backupDir, doc, relDoc);
    assert backupFile == SnapshotOf(o, workspace, backupDir, naming, doc) == plan.snapshot(doc);
    fs.Copy(doc, backupFile);
    var content, fixes;
    content, fixes, invalidCount := RewriteDocument(o, filenameToPaths, imageFiles, doc, original, invalidImgs);
    assert Edit(content, fixes) == plan.fix(doc, original, invalidImgs);
    written := content != original;
    assert written == d.written;
    if written {
      fs.Write(doc, content);
    }
    fileRecord := FileRecord(relDoc, backupFile, |invalidImgs|, fixes);
  }

  /** The paths the undo script embeds, with every backslash turned into a slash (markdown_image_manager.py:1476-1477). */
  function UndoScriptPaths(backupDir: string, workspace: string): (r: (string, string))
    ensures '\\' !in r.0 && '\\' !in r.1 && |r.0| == |backupDir| && |r.1| == |workspace|
    ensures forall i :: 0 <= i < |backupDir| && backupDir[i] != '\\' ==> r.0[i] == backupDir[i]
    ensures forall i :: 0 <= i < |workspace| && workspace[i] != '\\' ==> r.1[i] == workspace[i]
  {
    (Slashed(backupDir), Slashed(workspace))
  }

  lemma Associative(a: seq<Op>, b: seq<Op>, c: seq<Op>)
    ensures a + b + c == a + (b + c)
  {
  }

  /** The run over one more document, the one at `i`, is one more step. */
  lemma RunSnoc(plan: Plan, files0: map<string, string>, docs: seq<DocRefs>, i: nat, next: nat)
    requires Listed(files0, docs) && i < |docs| && next == i + 1
    ensures Listed(files0, docs[..i]) && Listed(files0, docs[..next])
    ensures var st := Run(plan, files0, docs[..i]);
            var d := ProcessDoc(plan, st.files, docs[i].doc, docs[i].invalidPaths);
            var p := Run(plan, files0, docs[..next]);
            && docs[i].doc in st.files
            && p.files == d.files && p.trace == st.trace + d.ops
            && p.processed == st.processed + (if d.written then 1 else 0)
            && p.totalFixed == st.totalFixed + |d.record.fixes|
            && p.totalInvalid == st.totalInvalid + |docs[i].invalidPaths|
            && p.modifications == st.modifications + (if d.record.fixes != [] then [d.record] else [])
  {
    assert docs[..next][..i] == docs[..i];
  }

  /** The loop over the documents with invalid references (markdown_image_manager.py:1097-1349). */
  method ProcessDocuments(fs: FileSystem, o: Oracles, filenameToPaths: Index, imageFiles: seq<string>,
                          workspace: string, backupDir: string, naming: Naming, ghost plan: Plan, invalidImages: seq<DocRefs>)
    returns (processed: nat, totalFixed: nat, totalInvalid: nat, modifications: seq<FileRecord>)
    requires Listed(fs.files, invalidImages) && Implements(plan, o, filenameToPaths, imageFiles, workspace, backupDir, naming)
    modifies fs
    ensures var p := Run(plan, old(fs.files), invalidImages);
            && fs.files == p.files && fs.trace == old(fs.trace) + p.trace
            && processed == p.processed && totalFixed == p.totalFixed
            && totalInvalid == p.totalInvalid && modifications == p.modifications
    ensures fs.logs == old(fs.logs)
  {
    processed, totalFixed, totalInvalid, modifications := 0, 0, 0, [];
    ghost var files0, trace0 := fs.files, fs.trace;
    var i := 0;
    assert invalidImages[..0] == [];
    while i < |invalidImages|
      invariant 0 <= i <= |invalidImages| && Listed(files0, invalidImages) && Listed(files0, invalidImages[..i])
      invariant fs.files == Run(plan, files0, invalidImages[..i]).files
      invariant fs.trace == trace0 + Run(plan, files0, invalidImages[..i]).trace
      invariant processed == Run(plan, files0, invalidImages[..i]).processed
      invariant totalFixed == Run(plan, files0, invalidImages[..i]).totalFixed
      invariant totalInvalid == Run(plan, files0, invalidImages[..i]).totalInvalid
      invariant modifications == Run(plan, files0, invalidImages[..i]).modifications
      invariant fs.logs == old(fs.logs)
    {
      var next := i + 1;
      RunSnoc(plan, files0, invalidImages, i, next);
      ghost var st := Run(plan, files0, invalidImages[..i]);
      var doc := invalidImages[i].doc;
      ghost var d := ProcessDoc(plan, st.files, doc, invalidImages[i].invalidPaths);
      var written, fileRecord, invalidCount := ProcessDocument(fs, o, filenameToPaths, imageFiles, workspace, backupDir,
                                                               naming, plan, doc, invalidImages[i].invalidPaths);
      totalInvalid := totalInvalid + invalidCount;
      if written {
        processed := processed + 1;
      }
      totalFixed := totalFixed + |fileRecord.fixes|;
      if fileRecord.fixes != [] {
        modifications := modifications + [fileRecord];
      }
      Associative(trace0, st.trace, d.ops);
      i := next;
    }
    assert invalidImages[..i] == invalidImages;
  }

  /**
    `fix_thread`: the filename index, every document in order, then the fix
    log and the undo script (markdown_image_manager.py:1062-1358).
  */
  method SmartFixPaths(fs: FileSystem, o: Oracles, workspace: string, timestamp: string, imageFiles: seq<string>,
                       invalidImages: seq<DocRefs>, naming: Naming)
    returns (fixRecords: FixLog, totalInvalid: nat, undoScript: (string, string))
    requires Listed(fs.files, invalidImages)
    modifies fs
    ensures var backupDir := BackupDir(workspace, timestamp);
            var p := Run(PlanFor(o, FilenameIndex(imageFiles), imageFiles, workspace, backupDir, naming), old(fs.files), invalidImages);
            && fs.files == p.files && fs.trace == old(fs.trace) + p.trace
            && fixRecords == FixLog(timestamp, p.processed, p.totalFixed, p.modifications)
            && totalInvalid == p.totalInvalid
            && fs.logs == old(fs.logs)[FixLogPath(backupDir) := fixRecords]
            && undoScript == UndoScriptPaths(backupDir, workspace)
  {
    var backupDir := BackupDir(workspace, timestamp);
    var filenameToPaths := BuildFilenameIndex(imageFiles);
    var processed, totalFixed, modifications;
    ghost var plan := PlanFor(o, filenameToPaths, imageFiles, workspace, backupDir, naming);
    PlanForImplements(o, filenameToPaths, imageFiles, workspace, backupDir, naming);
    processed, totalFixed, totalInvalid, modifications :=
      ProcessDocuments(fs, o, filenameToPaths, imageFiles, workspace, backupDir, naming, plan, invalidImages);
    fixRecords := FixLog(timestamp, processed, totalFixed, modifications);
    fs.WriteLog(FixLogPath(backupDir), fixRecords);
    undoScript := UndoScriptPaths(backupDir, workspace);
  }
}

=== FILE: text.dfy ===
/**
  String primitives the image manager takes from Python: `str.startswith`,
  `in`, `str.replace`, `str.lower`, `str.split('/')` and the basename/dirname
  split of Windows-style paths (both `/` and `\` separate components).
*/
module Text {

  predicate IsSep(c: char) {
    c == '/' || c == '\\'
  }

  predicate StartsWith(s: string, prefix: string) {
    |prefix| <= |s| && s[..|prefix|] == prefix
  }

  predicate EndsWith(s: string, suffix: string) {
    |suffix| <= |s| && s[|s| - |suffix|..] == suffix
  }

  /** `p` occurs in `s` starting at index `i`. */
  predicate OccursAt(s: string, p: string, i: int) {
    0 <= i && i + |p| <= |s| && s[i..i + |p|] == p
  }

  /** Python's `p in s`: `p` occurs in `s` as a contiguous substring. */
  predicate Contains(s: string, p: string) {
    exists i :: 0 <= i <= |s| - |p| && OccursAt(s, p, i)
  }

  lemma ContainsAt(s: string, p: string, i: nat)
    requires i + |p| <= |s| && s[i..i + |p|] == p
    ensures Contains(s, p)
  {
    assert OccursAt(s, p, i);
  }

  lemma ContainsTail(s: string, p: string)
    requires s != [] && Contains(s[1..], p)
    ensures Contains(s, p)
  {
    var i :| 0 <= i <= |s[1..]| - |p| && OccursAt(s[1..], p, i);
    assert s[i + 1..i + 1 + |p|] == s[1..][i..i + |p|];
    assert OccursAt(s, p, i + 1);
  }

  lemma ContainsSuffix(s: string, p: string)
    requires EndsWith(s, p)
    ensures Contains(s, p)
  {
    ContainsAt(s, p, |s| - |p|);
  }

  /**
    Python's `s.replace(pat, rep)`: every occurrence of `pat`, found left to
    right without overlap, is replaced by `rep`.
  */
  function ReplaceAll(s: string, pat: string, rep: string): (r: string)
    requires pat != []
    decreases |s|
  {
    if s == [] then []
    else if StartsWith(s, pat) then rep + ReplaceAll(s[|pat|..], pat, rep)
    else [s[0]] + ReplaceAll(s[1..], pat, rep)
  }

  /** Nothing to replace leaves the string as it was. */
  lemma {:induction false} ReplaceAllAbsent(s: string, pat: string, rep: string)
    requires pat != [] && !Contains(s, pat)
    ensures ReplaceAll(s, pat, rep) == s
    decreases |s|
  {
    if s != [] {
      assert !StartsWith(s, pat) by {
        if StartsWith(s, pat) {
          assert OccursAt(s, pat, 0);
        }
      }
      if Contains(s[1..], pat) {
        ContainsTail(s, pat);
      }
      ReplaceAllAbsent(s[1..], pat, rep);
    }
  }

  /** Character-wise substitution of `a` by `b`. */
  function MapChar(s: string, a: char, b: char): (r: string)
    ensures |r| == |s|
    ensures forall i :: 0 <= i < |s| ==> r[i] == if s[i] == a then b else s[i]
  {
    seq(|s|, i requires 0 <= i < |s| => if s[i] == a then b else s[i])
  }

  /** Replacing a one-character pattern is a character-wise substitution. */
  lemma {:induction false} ReplaceAllOneChar(s: string, a: char, b: char)
    ensures ReplaceAll(s, [a], [b]) == MapChar(s, a, b)
    decreases |s|
  {
    if s != [] {
      ReplaceAllOneChar(s[1..], a, b);
      assert MapChar(s, a, b) == [if s[0] == a then b else s[0]] + MapChar(s[1..], a, b);
    }
  }

  /** `a.replace('\\', '/')`: every backslash becomes a slash. */
  function Slashed(s: string): (r: string)
    ensures |r| == |s| && '\\' !in r
    ensures forall i :: 0 <= i < |s| ==> r[i] == if s[i] == '\\' then '/' else s[i]
  {
    ReplaceAllOneChar(s, '\\', '/');
    ReplaceAll(s, "\\", "/")
  }

  /**
    The lower case of one character, for the capitals whose lower case is one
    character regardless of context: ASCII `A`-`Z`, the Latin-1 capitals
    U+00C0-U+00DE except the multiplication sign U+00D7, and the Cyrillic
    capitals U+0400-U+042F.
  */
  function LowerChar(c: char): char {
    if 'A' <= c <= 'Z' then (c as int + 0x20) as char
    else if '\U{00C0}' <= c <= '\U{00DE}' && c != '\U{00D7}' then (c as int + 0x20) as char
    else if '\U{0410}' <= c <= '\U{042F}' then (c as int + 0x20) as char
    else if '\U{0400}' <= c <= '\U{040F}' then (c as int + 0x50) as char
    else c
  }

  /** `str.lower()`, character by character with LowerChar. */
  function Lower(s: string): (r: string)
    ensures |r| == |s|
    ensures forall i :: 0 <= i < |s| ==> r[i] == LowerChar(s[i])
  {
    seq(|s|, i requires 0 <= i < |s| => LowerChar(s[i]))
  }

  /** The last path component: the text after the last `/` or `\`. */
  function Basename(s: string): string
    decreases |s|
  {
    if s == [] || IsSep(s[|s| - 1]) then [] else Basename(s[..|s| - 1]) + [s[|s| - 1]]
  }

  /**
    The drive of `s`, as `splitdrive` finds it: `X:` when the second
    character is a colon and the first is not a separator, else nothing.
  */
  function Drive(s: string): (d: string)
    ensures d == [] || (|s| >= 2 && s[1] == ':' && !IsSep(s[0]) && d == s[..2])
    ensures d == [] <==> !(|s| >= 2 && s[1] == ':' && !IsSep(s[0]))
  {
    if |s| >= 2 && s[1] == ':' && !IsSep(s[0]) then s[..2] else []
  }

  /** `s` up to and including its last separator (empty when there is none). */
  function ThroughLastSep(s: string): (h: string)
    ensures |h| <= |s| && h == s[..|h|]
    ensures h == [] || IsSep(h[|h| - 1])
    decreases |s|
  {
    if s == [] || IsSep(s[|s| - 1]) then s else ThroughLastSep(s[..|s| - 1])
  }

  /** `s.rstrip('/\\')`. */
  function StripSeps(s: string): (r: string)
    ensures |r| <= |s| && r == s[..|r|]
    ensures r == [] || !IsSep(r[|r| - 1])
    decreases |s|
  {
    if s != [] && IsSep(s[|s| - 1]) then StripSeps(s[..|s| - 1]) else s
  }

  /**
    `os.path.dirname` with both separators: the drive, then everything up
    to the last separator with trailing separators stripped, unless only
    separators are left, which are kept as the root.
  */
  function Dirname(s: string): (r: string)
    ensures |r| <= |s| && r == s[..|r|]
  {
    var d := Drive(s);
    var head := ThroughLastSep(s[|d|..]);
    var stripped := StripSeps(head);
    d + (if stripped == [] then head else stripped)
  }

  /** A name directly under the root keeps the root: `/a.md` gives `/`, `C:\a.md` gives `C:\`. */
  lemma DirnameAtRoot(drive: string, sep: char, name: string)
    requires drive == [] || (|drive| == 2 && drive[1] == ':' && !IsSep(drive[0]))
    requires IsSep(sep) && forall k :: 0 <= k < |name| ==> !IsSep(name[k])
    ensures Dirname(drive + [sep] + name) == drive + [sep]
  {
    var s := drive + [sep] + name;
    assert Drive(s) == drive by {
      if drive != [] {
        assert s[..2] == drive;
      }
    }
    assert s[|drive|..] == [sep] + name;
    ThroughLastSepOfName([sep], name);
  }

  /**
    The folder of `dir/name` is `dir` when `dir` ends in a character other
    than a separator and is not a bare drive `X:`.
  */
  lemma DirnameOfName(dir: string, name: string)
    requires dir != [] && !IsSep(dir[|dir| - 1]) && !(|dir| == 2 && dir[1] == ':' && !IsSep(dir[0]))
    requires forall k :: 0 <= k < |name| ==> !IsSep(name[k])
    ensures Dirname(dir + "/" + name) == dir
  {
    var s := dir + "/" + name;
    assert s == dir + ("/" + name);
    DriveOfExtension(dir, "/" + name);
    var d := Drive(dir);
    var rest := dir[|d|..];
    assert rest != [] && rest[|rest| - 1] == dir[|dir| - 1];
    assert s[|d|..] == (rest + "/") + name;
    ThroughLastSepOfName(rest + "/", name);
    StripSepsOnce(rest);
    assert d + rest == dir;
  }

  /** Text after a path does not change its drive, unless it supplies the colon. */
  lemma DriveOfExtension(p: string, t: string)
    requires p != [] && t != [] && (|p| >= 2 || IsSep(t[0]))
    ensures Drive(p + t) == Drive(p)
  {
    if |p| >= 2 {
      assert (p + t)[..2] == p[..2];
    } else {
      assert (p + t)[1] == t[0];
    }
  }

  /** Cutting after the last separator drops a separator-free name. */
  lemma {:induction false} ThroughLastSepOfName(h: string, name: string)
    requires h != [] && IsSep(h[|h| - 1])
    requires forall k :: 0 <= k < |name| ==> !IsSep(name[k])
    ensures ThroughLastSep(h + name) == h
    decreases |name|
  {
    if name == [] {
      assert h + name == h;
    } else {
      assert (h + name)[..|h + name| - 1] == h + name[..|name| - 1];
      ThroughLastSepOfName(h, name[..|name| - 1]);
    }
  }

  lemma StripSepsOnce(rest: string)
    requires rest != [] && !IsSep(rest[|rest| - 1])
    ensures StripSeps(rest + "/") == rest
  {
    assert (rest + "/")[..|rest|] == rest;
  }

  /** A path that `os.path.join` does not append to: one that starts at a separator or names a drive. */
  predicate IsAbsolute(p: string) {
    (|p| > 0 && IsSep(p[0])) || (|p| > 1 && p[1] == ':')
  }

  /** `os.path.join(a, b)`, joining with `/`: an absolute `b` stands on its own. */
  function Join(a: string, b: string): (r: string)
    ensures !IsAbsolute(b) && a != [] && !IsSep(a[|a| - 1]) ==> r == a + "/" + b
  {
    if IsAbsolute(b) || a == [] then b
    else if IsSep(a[|a| - 1]) then a + b
    else a + "/" + b
  }

  /** Python's `s.split('/')`: the texts between slashes, always at least one. */
  function SplitSlash(s: string): (r: seq<string>)
    ensures |r| >= 1
    decreases |s|
  {
    if s == [] then [[]]
    else if s[|s| - 1] == '/' then SplitSlash(s[..|s| - 1]) + [[]]
    else
      var init := SplitSlash(s[..|s| - 1]);
      init[..|init| - 1] + [init[|init| - 1] + [s[|s| - 1]]]
  }
}

=== FILE: undo.dfy ===
/**
  `undo_fixes`: the latest `smart_fix_*` snapshot directory is chosen, its
  fix log is read, and every journaled document whose snapshot still exists
  is copied back from it. The round trip of a fix run followed by an undo is
  proved here: with snapshots named by the document's path relative to the
  workspace, every document holds its original text again; with snapshots
  named by the document's basename only, as the code does, two documents of
  the same name in different folders share one snapshot and the undo writes
  the later one's text into both.
*/
module Undo {
  import opened Wrappers
  import opened Text
  import opened Session

  // ---------------------------------------------------------------------------
  // Replaying the journal

  /** The files after the undo, how many documents were restored, and the copies made. */
  datatype Restore = Restore(files: map<string, string>, restored: nat, ops: seq<Op>)

  /**
    The loop over `records["modifications"]`: each journaled document whose
    snapshot exists is copied back to `os.path.join(workspace, file)`.
  */
  function Replay(files: map<string, string>, workspace: string, mods: seq<FileRecord>): (r: Restore)
    ensures files.Keys <= r.files.Keys && r.restored <= |mods| && |r.ops| == r.restored
    decreases |mods|
  {
    if mods == [] then Restore(files, 0, [])
    else
      var r := Replay(files, workspace, mods[..|mods| - 1]);
      var m := mods[|mods| - 1];
      if m.backupFile in r.files then
        Restore(r.files[Join(workspace, m.file) := r.files[m.backupFile]], r.restored + 1,
                r.ops + [Copied(m.backupFile, Join(workspace, m.file))])
      else r
  }

  /** The copies of the undo, one journaled document after the other. */
  method RestoreAll(fs: FileSystem, workspace: string, mods: seq<FileRecord>) returns (restoredCount: nat)
    modifies fs
    ensures var r := Replay(old(fs.files), workspace, mods);
            fs.files == r.files && fs.trace == old(fs.trace) + r.ops && restoredCount == r.restored
    ensures fs.logs == old(fs.logs)
  {
    ghost var files0 := fs.files;
    ghost var trace0 := fs.trace;
    restoredCount := 0;
    var i := 0;
    while i < |mods|
      invariant 0 <= i <= |mods| && fs.logs == old(fs.logs)
      invariant fs.files == Replay(files0, workspace, mods[..i]).files
      invariant fs.trace == trace0 + Replay(files0, workspace, mods[..i]).ops
      invariant restoredCount == Replay(files0, workspace, mods[..i]).restored
    {
      var next := i + 1;
      assert mods[..next][..i] == mods[..i];
      var m := mods[i];
      if m.backupFile in fs.files {
        fs.Copy(m.backupFile, Join(workspace, m.file));
        restoredCount := restoredCount + 1;
      }
      i := next;
    }
    assert mods[..i] == mods;
  }

  // ---------------------------------------------------------------------------
  // Choosing the snapshot directory

  /** An entry of `os.listdir(backup_base)` and whether it is a directory. */
  datatype Entry = Entry(name: string, isDir: bool)

  predicate IsSmartFix(e: Entry) {
    e.isDir && StartsWith(e.name, "smart_fix_")
  }

  /** The `smart_fix_*` directories under the backup base, in listing order. */
  function SmartFixDirs(backupBase: string, listing: seq<Entry>): (dirs: seq<string>)
    ensures |dirs| <= |listing|
    ensures forall k :: 0 <= k < |listing| && IsSmartFix(listing[k]) ==> Join(backupBase, listing[k].name) in dirs
    ensures forall x :: x in dirs ==> exists k :: 0 <= k < |listing| && IsSmartFix(listing[k]) && x == Join(backupBase, listing[k].name)
    decreases |listing|
  {
    if listing == [] then []
    else
      var init := listing[..|listing| - 1];
      var e := listing[|listing| - 1];
      var dirs := SmartFixDirs(backupBase, init);
      assert forall k :: 0 <= k < |init| ==> init[k] == listing[k];
      if IsSmartFix(e) then dirs + [Join(backupBase, e.name)] else dirs
  }

  /**
    `max(backup_dirs, key=os.path.getctime)`: a directory of greatest
    creation time, the first one in the list when several tie.
  */
  function Latest(dirs: seq<string>, ctime: string -> real): (latest: string)
    requires dirs != []
    ensures exists i :: 0 <= i < |dirs| && dirs[i] == latest && forall j :: 0 <= j < i ==> ctime(dirs[j]) < ctime(latest)
    ensures forall j :: 0 <= j < |dirs| ==> ctime(dirs[j]) <= ctime(latest)
    decreases |dirs|
  {
    if |dirs| == 1 then dirs[0]
    else
      var init := dirs[..|dirs| - 1];
      var best := Latest(init, ctime);
      assert forall j :: 0 <= j < |init| ==> init[j] == dirs[j];
      if ctime(dirs[|dirs| - 1]) > ctime(best) then dirs[|dirs| - 1] else best
  }

  // ---------------------------------------------------------------------------
  // The undo

  /** Where `undo_fixes` stops, or how many documents it restored from which directory. */
  datatype UndoOutcome =
    | NoWorkspace
    | NoBackupBase
    | NoSmartFix
    | NoJournal(latest: string)
    | Cancelled(latest: string)
    | Restored(latest: string, count: nat)

  datatype UndoResult = UndoResult(outcome: UndoOutcome, files: map<string, string>, ops: seq<Op>)

  /**
    `undo_fixes` on values: `listing` is `None` when `.backup` does not exist,
    `ctime` stands for `os.path.getctime` and `confirm` for the answer to the
    confirmation dialog.
  */
  function UndoSpec(files: map<string, string>, logs: map<string, FixLog>, workspace: string,
                    listing: Option<seq<Entry>>, ctime: string -> real, confirm: bool): (u: UndoResult)
    ensures !u.outcome.Restored? ==> u.files == files && u.ops == []
    ensures u.outcome.Restored? ==> workspace != [] && listing.Some? && confirm && FixLogPath(u.outcome.latest) in logs
    ensures u.outcome.NoWorkspace? <==> workspace == []
  {
    if workspace == [] then UndoResult(NoWorkspace, files, [])
    else if listing.None? then UndoResult(NoBackupBase, files, [])
    else
      var dirs := SmartFixDirs(Join(workspace, ".backup"), listing.value);
      if dirs == [] then UndoResult(NoSmartFix, files, [])
      else
        var latest := Latest(dirs, ctime);
        var logPath := FixLogPath(latest);
        if logPath !in logs then UndoResult(NoJournal(latest), files, [])
        else if !confirm then UndoResult(Cancelled(latest), files, [])
        else
          var r := Replay(files, workspace, logs[logPath].modifications);
          UndoResult(Restored(latest, r.restored), r.files, r.ops)
  }

  /**
    The undo restores from the newest `smart_fix_*` directory under the
    workspace's `.backup`, and replays exactly that directory's fix log.
  */
  lemma UndoUsesLatest(files: map<string, string>, logs: map<string, FixLog>, workspace: string,
                       listing: Option<seq<Entry>>, ctime: string -> real, confirm: bool)
    ensures var u := UndoSpec(files, logs, workspace, listing, ctime, confirm);
            u.outcome.Restored? ==>
              var dirs := SmartFixDirs(Join(workspace, ".backup"), listing.value);
              && u.outcome.latest in dirs
              && (forall d :: d in dirs ==> ctime(d) <= ctime(u.outcome.latest))
              && u.files == Replay(files, workspace, logs[FixLogPath(u.outcome.latest)].modifications).files
  {
  }

  /** `undo_fixes` (markdown_image_manager.py:1535-1608). */
  method UndoFixes(fs: FileSystem, workspace: string, listing: Option<seq<Entry>>, ctime: string -> real, confirm: bool)
    returns (outcome: UndoOutcome)
    modifies fs
    ensures var u := UndoSpec(old(fs.files), old(fs.logs), workspace, listing, ctime, confirm);
            outcome == u.outcome && fs.files == u.files && fs.trace == old(fs.trace) + u.ops
    ensures fs.logs == old(fs.logs)
  {
    if workspace == [] {
      return NoWorkspace;
    }
    if listing.None? {
      return NoBackupBase;
    }
    var backupDirs := SmartFixDirs(Join(workspace, ".backup"), listing.value);
    if backupDirs == [] {
      return NoSmartFix;
    }
    var latest := Latest(backupDirs, ctime);
    var fixLogFile := FixLogPath(latest);
    if fixLogFile !in fs.logs {
      return NoJournal(latest);
    }
    if !confirm {
      return Cancelled(latest);
    }
    var restoredCount := RestoreAll(fs, workspace, fs.logs[fixLogFile].modifications);
    outcome := Restored(latest, restoredCount);
  }

  /**
    The generated undo script replays the same journal against the
    workspace path with its backslashes turned into slashes; for a workspace
    path without backslashes it restores exactly what `undo_fixes` restores.
  */
  lemma ScriptAgreesWithUndo(files: map<string, string>, backupDir: string, workspace: string, mods: seq<FileRecord>)
    requires '\\' !in workspace
    ensures Replay(files, UndoScriptPaths(backupDir, workspace).1, mods) == Replay(files, workspace, mods)
  {
    var s := UndoScriptPaths(backupDir, workspace).1;
    assert s == workspace;
  }

  // ---------------------------------------------------------------------------
  // The round trip: fix, then undo

  /** A document's rewrite produced at least one fix, from its original text. */
  predicate Fixed(plan: Plan, files0: map<string, string>, d: DocRefs) {
    d.doc in files0 && plan.fix(d.doc, files0[d.doc], d.invalidPaths).fixes != []
  }

  /** The journal record of a document rewritten from its original text. */
  function RecordOf(plan: Plan, files0: map<string, string>, d: DocRefs): FileRecord
    requires d.doc in files0
  {
    FileRecord(plan.relative(d.doc), plan.snapshot(d.doc), |d.invalidPaths|, plan.fix(d.doc, files0[d.doc], d.invalidPaths).fixes)
  }

  /** The journal of a run in which every document is rewritten from its original text. */
  function Records(plan: Plan, files0: map<string, string>, docs: seq<DocRefs>): (mods: seq<FileRecord>)
    requires Listed(files0, docs)
    ensures |mods| <= |docs|
    decreases |docs|
  {
    if docs == [] then []
    else
      var last := docs[|docs| - 1];
      Records(plan, files0, docs[..|docs| - 1]) + (if Fixed(plan, files0, last) then [RecordOf(plan, files0, last)] else [])
  }

  /**
    The documents are distinct (they are the keys of `invalid_images`), their
    snapshots are distinct, and no snapshot is one of the documents.
  */
  ghost predicate Separated(plan: Plan, files0: map<string, string>, docs: seq<DocRefs>) {
    && Listed(files0, docs)
    && (forall i, j :: 0 <= i < |docs| && 0 <= j < |docs| && i != j ==>
          docs[i].doc != docs[j].doc && plan.snapshot(docs[i].doc) != plan.snapshot(docs[j].doc))
    && (forall i, j :: 0 <= i < |docs| && 0 <= j < |docs| ==> plan.snapshot(docs[i].doc) != docs[j].doc)
  }

  /**
    What the run over the first `k` documents leaves behind: their snapshots
    hold their original texts, no document but a fixed one among them has
    changed, and the journal lists them.
  */
  ghost predicate RunLeaves(plan: Plan, files0: map<string, string>, docs: seq<DocRefs>, k: nat, p: Progress)
    requires Listed(files0, docs) && k <= |docs|
  {
    && (forall i :: 0 <= i < k ==>
          plan.snapshot(docs[i].doc) in p.files && p.files[plan.snapshot(docs[i].doc)] == files0[docs[i].doc])
    && (forall i :: 0 <= i < |docs| ==>
          docs[i].doc in p.files && (p.files[docs[i].doc] == files0[docs[i].doc] || (i < k && Fixed(plan, files0, docs[i]))))
    && p.modifications == Records(plan, files0, docs[..k])
  }

  /** One more document keeps what the run leaves behind. */
  lemma RunLeavesStep(plan: Plan, files0: map<string, string>, docs: seq<DocRefs>, k: nat, next: nat, st: Progress)
    requires Separated(plan, files0, docs) && FixerSound(plan.fix) && k < |docs| && next == k + 1
    requires RunLeaves(plan, files0, docs, k, st)
    ensures docs[k].doc in st.files &&
            RunLeaves(plan, files0, docs, next, Step(st, ProcessDoc(plan, st.files, docs[k].doc, docs[k].invalidPaths), |docs[k].invalidPaths|))
  {
    var doc := docs[k].doc;
    var paths := docs[k].invalidPaths;
    var d := ProcessDoc(plan, st.files, doc, paths);
    ProcessDocEffect(plan, st.files, doc, paths);
    var p := Step(st, d, |paths|);
    var e := plan.fix(doc, files0[doc], paths);
    assert e.fixes == [] ==> e.content == files0[doc];
    assert docs[..next][..k] == docs[..k] && docs[..next][k] == docs[k];
    assert d.record == RecordOf(plan, files0, docs[k]);
    assert p.modifications == Records(plan, files0, docs[..next]);
  }

  /** What the run over the first `k` documents leaves behind, by induction on `k`. */
  lemma {:induction false} RunLeavesAll(plan: Plan, files0: map<string, string>, docs: seq<DocRefs>, k: nat)
    requires Separated(plan, files0, docs) && FixerSound(plan.fix) && k <= |docs|
    ensures Listed(files0, docs[..k]) && RunLeaves(plan, files0, docs, k, Run(plan, files0, docs[..k]))
    decreases k
  {
    if k > 0 {
      var prev := k - 1;
      RunLeavesAll(plan, files0, docs, prev);
      assert docs[..k][..prev] == docs[..prev] && docs[..k][prev] == docs[prev];
      RunLeavesStep(plan, files0, docs, prev, k, Run(plan, files0, docs[..prev]));
    }
  }

  /** The snapshots of `docs` hold their original texts in `files1`, and each document is its relative name under the workspace. */
  ghost predicate Restorable(plan: Plan, files0: map<string, string>, docs: seq<DocRefs>, files1: map<string, string>, workspace: string)
    requires Listed(files0, docs)
  {
    forall i :: 0 <= i < |docs| ==>
      && plan.snapshot(docs[i].doc) in files1 && files1[plan.snapshot(docs[i].doc)] == files0[docs[i].doc]
      && docs[i].doc in files1
      && Join(workspace, plan.relative(docs[i].doc)) == docs[i].doc
  }

  /**
    What replaying the journal of the first `k` documents leaves behind: every
    record counted, the snapshots untouched, every fixed one among them back
    to its original text, and every other document as the run left it.
  */
  ghost predicate ReplayLeaves(plan: Plan, files0: map<string, string>, docs: seq<DocRefs>, k: nat,
                               files1: map<string, string>, r: Restore)
    requires Listed(files0, docs) && k <= |docs|
    requires forall i :: 0 <= i < |docs| ==> docs[i].doc in files1 && plan.snapshot(docs[i].doc) in files1
    requires files1.Keys <= r.files.Keys
  {
    && r.restored == |Records(plan, files0, docs[..k])|
    && (forall i :: 0 <= i < |docs| ==> r.files[plan.snapshot(docs[i].doc)] == files1[plan.snapshot(docs[i].doc)])
    && (forall i :: 0 <= i < |docs| ==>
          r.files[docs[i].doc] == if i < k && Fixed(plan, files0, docs[i]) then files0[docs[i].doc] else files1[docs[i].doc])
  }

  /** The replay of one more unfixed document's journal is the replay before it. */
  lemma ReplaySkip(plan: Plan, files0: map<string, string>, docs: seq<DocRefs>, prev: nat, k: nat,
                   files1: map<string, string>, workspace: string)
    requires Separated(plan, files0, docs) && prev < |docs| && k == prev + 1 && !Fixed(plan, files0, docs[prev])
    requires Restorable(plan, files0, docs, files1, workspace)
    requires ReplayLeaves(plan, files0, docs, prev, files1, Replay(files1, workspace, Records(plan, files0, docs[..prev])))
    ensures ReplayLeaves(plan, files0, docs, k, files1, Replay(files1, workspace, Records(plan, files0, docs[..k])))
  {
    RecordsSnoc(plan, files0, docs, prev, k);
    var before := Records(plan, files0, docs[..prev]);
    assert before + [] == before;
  }

  /** The replay of one more fixed document's journal restores that document. */
  lemma ReplayRestoreOne(plan: Plan, files0: map<string, string>, docs: seq<DocRefs>, prev: nat, k: nat,
                         files1: map<string, string>, workspace: string)
    requires Separated(plan, files0, docs) && prev < |docs| && k == prev + 1 && Fixed(plan, files0, docs[prev])
    requires Restorable(plan, files0, docs, files1, workspace)
    requires ReplayLeaves(plan, files0, docs, prev, files1, Replay(files1, workspace, Records(plan, files0, docs[..prev])))
    ensures ReplayLeaves(plan, files0, docs, k, files1, Replay(files1, workspace, Records(plan, files0, docs[..k])))
  {
    RecordsSnoc(plan, files0, docs, prev, k);
    var before := Records(plan, files0, docs[..prev]);
    var r0 := Replay(files1, workspace, before);
    var doc := docs[prev].doc;
    var rec := RecordOf(plan, files0, docs[prev]);
    ReplayOne(files1, workspace, before, rec);
    var r := Replay(files1, workspace, before + [rec]);
    assert r.files == r0.files[doc := files0[doc]];
    forall i | 0 <= i < |docs|
      ensures r.files[plan.snapshot(docs[i].doc)] == files1[plan.snapshot(docs[i].doc)]
      ensures r.files[docs[i].doc] == if i < k && Fixed(plan, files0, docs[i]) then files0[docs[i].doc] else files1[docs[i].doc]
    {
      assert plan.snapshot(docs[i].doc) != doc;
      if i != prev {
        assert docs[i].doc != doc;
      }
    }
  }

  /** Replaying the journal of the first `k` documents, by induction on `k`. */
  lemma {:induction false} ReplayRecords(plan: Plan, files0: map<string, string>, docs: seq<DocRefs>, k: nat,
                                         files1: map<string, string>, workspace: string)
    requires Separated(plan, files0, docs) && k <= |docs| && Restorable(plan, files0, docs, files1, workspace)
    ensures Listed(files0, docs[..k])
    ensures ReplayLeaves(plan, files0, docs, k, files1, Replay(files1, workspace, Records(plan, files0, docs[..k])))
    decreases k
  {
    assert Listed(files0, docs[..k]);
    if k > 0 {
      var prev := k - 1;
      ReplayRecords(plan, files0, docs, prev, files1, workspace);
      if Fixed(plan, files0, docs[prev]) {
        ReplayRestoreOne(plan, files0, docs, prev, k, files1, workspace);
      } else {
        ReplaySkip(plan, files0, docs, prev, k, files1, workspace);
      }
    }
  }

  /** Replaying one more record whose snapshot exists copies it to its target. */
  lemma ReplayOne(files: map<string, string>, workspace: string, mods: seq<FileRecord>, m: FileRecord)
    requires m.backupFile in Replay(files, workspace, mods).files
    ensures var r0 := Replay(files, workspace, mods);
            var r := Replay(files, workspace, mods + [m]);
            && r.files == r0.files[Join(workspace, m.file) := r0.files[m.backupFile]]
            && r.restored == r0.restored + 1
  {
    assert (mods + [m])[..|mods|] == mods;
  }

  /** The journal of one more document. */
  lemma RecordsSnoc(plan: Plan, files0: map<string, string>, docs: seq<DocRefs>, prev: nat, k: nat)
    requires Listed(files0, docs) && prev < |docs| && k == prev + 1
    ensures Listed(files0, docs[..prev]) && Listed(files0, docs[..k])
    ensures Records(plan, files0, docs[..k]) ==
            Records(plan, files0, docs[..prev]) + (if Fixed(plan, files0, docs[prev]) then [RecordOf(plan, files0, docs[prev])] else [])
  {
    assert docs[..k][..prev] == docs[..prev] && docs[..k][prev] == docs[prev];
  }

  /**
    Fix, then undo: when the documents are distinct, their snapshots are
    distinct and are not documents, and each document is the workspace
    joined with its relative name, replaying the journal of the run puts
    every document's original text back.
  */
  lemma UndoRestoresDocuments(plan: Plan, files0: map<string, string>, docs: seq<DocRefs>, workspace: string)
    requires Separated(plan, files0, docs) && FixerSound(plan.fix)
    requires forall i :: 0 <= i < |docs| ==> Join(workspace, plan.relative(docs[i].doc)) == docs[i].doc
    ensures var p := Run(plan, files0, docs);
            var r := Replay(p.files, workspace, p.modifications);
            && r.restored == |p.modifications|
            && forall i :: 0 <= i < |docs| ==> docs[i].doc in r.files && r.files[docs[i].doc] == files0[docs[i].doc]
  {
    RunLeavesAll(plan, files0, docs, |docs|);
    assert docs[..|docs|] == docs;
    var p := Run(plan, files0, docs);
    assert RunLeaves(plan, files0, docs, |docs|, p);
    assert Restorable(plan, files0, docs, p.files, workspace);
    ReplayRecords(plan, files0, docs, |docs|, p.files, workspace);
  }
}

module UndoNaming {
  import opened Text
  import opened Resolver
  import opened Rewrite
  import opened Session
  import opened Undo

  /** Snapshots named after the document's relative path. */
  lemma RelativeNaming(o: Oracles, index: Index, catalogue: seq<string>, workspace: string, backupDir: string)
    ensures var plan := PlanFor(o, index, catalogue, workspace, backupDir, RelativePathSnapshot);
            forall doc :: plan.snapshot(doc) == Join(backupDir, plan.relative(doc) + ".backup")
  {
  }

  /** Snapshots named after the document's basename, as the code names them. */
  lemma BasenameNaming(o: Oracles, index: Index, catalogue: seq<string>, workspace: string, backupDir: string)
    ensures var plan := PlanFor(o, index, catalogue, workspace, backupDir, BasenameSnapshot);
            forall doc :: plan.snapshot(doc) == Join(backupDir, Basename(doc) + ".backup")
  {
  }

  lemma NotAbsoluteWithSuffix(rel: string)
    requires !IsAbsolute(rel)
    ensures !IsAbsolute(rel + ".backup")
  {
    var s := rel + ".backup";
    if |rel| == 0 {
      assert s == ".backup";
    } else if |rel| == 1 {
      assert s[0] == rel[0] && s[1] == '.';
    } else {
      assert s[0] == rel[0] && s[1] == rel[1];
    }
  }

  /** The text between a prefix and a suffix is recovered by slicing. */
  lemma Between(a: string, x: string, b: string)
    ensures |a + x + b| == |a| + |x| + |b| && (a + x + b)[|a|..|a| + |x|] == x
  {
  }

  /**
    Snapshots named by relative path, in a backup directory no document lies
    under, keep the documents and their snapshots apart, provided each
    document is its (non-absolute) relative name under the workspace.
  */
  lemma RelativeSnapshotsSeparated(plan: Plan, files0: map<string, string>, docs: seq<DocRefs>,
                                   workspace: string, backupDir: string)
    requires Listed(files0, docs)
    requires forall i, j :: 0 <= i < |docs| && 0 <= j < |docs| && i != j ==> docs[i].doc != docs[j].doc
    requires backupDir != [] && !IsSep(backupDir[|backupDir| - 1])
    requires forall doc :: plan.snapshot(doc) == Join(backupDir, plan.relative(doc) + ".backup")
    requires forall i :: 0 <= i < |docs| ==>
               && !IsAbsolute(plan.relative(docs[i].doc))
               && Join(workspace, plan.relative(docs[i].doc)) == docs[i].doc
               && !StartsWith(docs[i].doc, backupDir + "/")
    ensures Separated(plan, files0, docs)
  {
    var pre := backupDir + "/";
    forall i | 0 <= i < |docs|
      ensures plan.snapshot(docs[i].doc) == pre + plan.relative(docs[i].doc) + ".backup"
    {
      NotAbsoluteWithSuffix(plan.relative(docs[i].doc));
    }
    forall i, j | 0 <= i < |docs| && 0 <= j < |docs|
      ensures plan.snapshot(docs[i].doc) != docs[j].doc
      ensures i != j ==> plan.snapshot(docs[i].doc) != plan.snapshot(docs[j].doc)
    {
      var ri := plan.relative(docs[i].doc);
      var rj := plan.relative(docs[j].doc);
      assert StartsWith(pre + ri + ".backup", pre);
      if i != j && plan.snapshot(docs[i].doc) == plan.snapshot(docs[j].doc) {
        Between(pre, ri, ".backup");
        Between(pre, rj, ".backup");
      }
    }
  }

  /**
    Fix, then undo, with snapshots named by relative path: every document of
    the run holds its original text again.
  */
  lemma RelativeSnapshotsRoundTrip(o: Oracles, imageFiles: seq<string>, workspace: string, timestamp: string,
                                   files0: map<string, string>, docs: seq<DocRefs>)
    requires Listed(files0, docs)
    requires forall i, j :: 0 <= i < |docs| && 0 <= j < |docs| && i != j ==> docs[i].doc != docs[j].doc
    requires var backupDir := BackupDir(workspace, timestamp);
             backupDir != [] && !IsSep(backupDir[|backupDir| - 1])
    requires forall i :: 0 <= i < |docs| ==>
               && !IsAbsolute(SafeRelpath(o, docs[i].doc, workspace))
               && Join(workspace, SafeRelpath(o, docs[i].doc, workspace)) == docs[i].doc
               && !StartsWith(docs[i].doc, BackupDir(workspace, timestamp) + "/")
    ensures var plan := PlanFor(o, FilenameIndex(imageFiles), imageFiles, workspace, BackupDir(workspace, timestamp), RelativePathSnapshot);
            var p := Run(plan, files0, docs);
            var r := Replay(p.files, workspace, p.modifications);
            forall i :: 0 <= i < |docs| ==> docs[i].doc in r.files && r.files[docs[i].doc] == files0[docs[i].doc]
  {
    var backupDir := BackupDir(workspace, timestamp);
    var index := FilenameIndex(imageFiles);
    var plan := PlanFor(o, index, imageFiles, workspace, backupDir, RelativePathSnapshot);
    RelativeNaming(o, index, imageFiles, workspace, backupDir);
    PlanForSound(o, index, imageFiles, workspace, backupDir, RelativePathSnapshot);
    assert forall i :: 0 <= i < |docs| ==> plan.relative(docs[i].doc) == SafeRelpath(o, docs[i].doc, workspace);
    RelativeSnapshotsSeparated(plan, files0, docs, workspace, backupDir);
    UndoRestoresDocuments(plan, files0, docs, workspace);
  }

  /** The run over two documents that share a snapshot: the snapshot ends up holding the second one's text. */
  lemma SharedSnapshotRun(plan: Plan, files0: map<string, string>, a: DocRefs, b: DocRefs)
    requires a.doc in files0 && b.doc in files0 && a.doc != b.doc
    requires plan.snapshot(a.doc) == plan.snapshot(b.doc) && plan.snapshot(a.doc) != b.doc
    requires plan.fix(a.doc, files0[a.doc], a.invalidPaths).fixes != [] && plan.fix(b.doc, files0[b.doc], b.invalidPaths).fixes != []
    ensures Listed(files0, [a, b])
    ensures var p := Run(plan, files0, [a, b]);
            var s := plan.snapshot(a.doc);
            && s in p.files && p.files[s] == files0[b.doc]
            && |p.modifications| == 2
            && p.modifications[0].backupFile == s && p.modifications[0].file == plan.relative(a.doc)
            && p.modifications[1].backupFile == s && p.modifications[1].file == plan.relative(b.doc)
  {
    assert Listed(files0, [a, b]);
    assert [a, b][..1] == [a] && [a][..0] == [];
    var p0 := Run(plan, files0, []);
    var d1 := ProcessDoc(plan, files0, a.doc, a.invalidPaths);
    var p1 := Run(plan, files0, [a]);
    assert p1 == Step(p0, d1, |a.invalidPaths|);
    ProcessDocEffect(plan, files0, a.doc, a.invalidPaths);
    assert p1.files[b.doc] == files0[b.doc];
    var d2 := ProcessDoc(plan, p1.files, b.doc, b.invalidPaths);
    var p := Run(plan, files0, [a, b]);
    assert p == Step(p1, d2, |b.invalidPaths|);
    ProcessDocEffect(plan, p1.files, b.doc, b.invalidPaths);
    assert p.modifications == [d1.record] + [d2.record];
  }

  /** Replaying two records with one snapshot writes that snapshot's text into both targets. */
  lemma ReplayShared(files: map<string, string>, workspace: string, mods: seq<FileRecord>)
    requires |mods| == 2 && mods[0].backupFile == mods[1].backupFile && mods[0].backupFile in files
    requires Join(workspace, mods[1].file) != mods[0].backupFile && Join(workspace, mods[1].file) != Join(workspace, mods[0].file)
    ensures var r := Replay(files, workspace, mods);
            Join(workspace, mods[0].file) in r.files && r.files[Join(workspace, mods[0].file)] == files[mods[0].backupFile]
  {
    assert mods[..1] == [] + [mods[0]] && mods == mods[..1] + [mods[1]];
    ReplayOne(files, workspace, [], mods[0]);
    ReplayOne(files, workspace, mods[..1], mods[1]);
  }

  /**
    As written: two documents whose snapshots coincide (the same basename in
    two folders) are both fixed; the undo then copies the later one's
    original text into the earlier one.
  */
  lemma SharedSnapshotLosesText(plan: Plan, files0: map<string, string>, a: DocRefs, b: DocRefs, workspace: string)
    requires a.doc in files0 && b.doc in files0 && a.doc != b.doc
    requires plan.snapshot(a.doc) == plan.snapshot(b.doc) && plan.snapshot(a.doc) != b.doc
    requires Join(workspace, plan.relative(a.doc)) == a.doc && Join(workspace, plan.relative(b.doc)) == b.doc
    requires plan.fix(a.doc, files0[a.doc], a.invalidPaths).fixes != [] && plan.fix(b.doc, files0[b.doc], b.invalidPaths).fixes != []
    requires files0[a.doc] != files0[b.doc]
    ensures Listed(files0, [a, b])
    ensures var p := Run(plan, files0, [a, b]);
            var r := Replay(p.files, workspace, p.modifications);
            a.doc in r.files && r.files[a.doc] == files0[b.doc] && r.files[a.doc] != files0[a.doc]
  {
    SharedSnapshotRun(plan, files0, a, b);
    var p := Run(plan, files0, [a, b]);
    ReplayShared(p.files, workspace, p.modifications);
  }

  /** The last component of a path ending in a separator-free name is that name. */
  lemma {:induction false} BasenameOfName(dir: string, name: string)
    requires forall k :: 0 <= k < |name| ==> !IsSep(name[k])
    ensures Basename(dir + "/" + name) == name
    decreases |name|
  {
    if name == [] {
      assert dir + "/" + name == dir + "/";
    } else {
      var init := name[..|name| - 1];
      assert (dir + "/" + name)[..|dir + "/" + name| - 1] == dir + "/" + init;
      BasenameOfName(dir, init);
      assert init + [name[|name| - 1]] == name;
    }
  }

  /**
    Two documents of one name in two different folders are two documents
    with one snapshot when snapshots are named by basename.
  */
  lemma BasenameSnapshotsCollide(plan: Plan, backupDir: string, dir1: string, dir2: string, name: string)
    requires forall doc :: plan.snapshot(doc) == Join(backupDir, Basename(doc) + ".backup")
    requires dir1 != dir2 && forall k :: 0 <= k < |name| ==> !IsSep(name[k])
    ensures dir1 + "/" + name != dir2 + "/" + name
    ensures plan.snapshot(dir1 + "/" + name) == plan.snapshot(dir2 + "/" + name)
  {
    BasenameOfName(dir1, name);
    BasenameOfName(dir2, name);
    DistinctFolders(dir1, dir2, name);
  }

  lemma DistinctFolders(dir1: string, dir2: string, name: string)
    requires dir1 != dir2
    ensures dir1 + "/" + name != dir2 + "/" + name
  {
    if |dir1| == |dir2| {
      var k :| 0 <= k < |dir1| && dir1[k] != dir2[k];
      assert (dir1 + "/" + name)[k] == dir1[k] && (dir2 + "/" + name)[k] == dir2[k];
    }
  }
}

=== FILE: wrappers.dfy ===
/** The optional-value datatype used wherever the source returns `None`. */
module Wrappers {

  datatype Option<+T> = None | Some(value: T)

}
